=== FILE: README.md ===
# sfall script bridge of fallout2-ce, modelled in Dafny

This project models the script-extension bridge of the fallout2-ce engine and the
pure helpers of its opcode scanner. Scripts reach the bridge through the
`sfall_funcN` opcodes.

- **`Registry`.** The static metarule table `kMetarules`: name, handler, and the
  inclusive range of argument counts each row accepts. It also holds the exact-match
  lookup and `metarule_exist`.
- **`Dispatch`.** `sfall_metarule`, step by step:
  - it pops the arguments and the name under them;
  - it pushes the arguments back, so handlers pop them in script order;
  - it looks the name up in table order;
  - an unknown name or an arity outside the row's range halts the script;
  - otherwise it runs the row's handler.

  The handlers that are pure string, format and INI logic are run on a
  `seq<Value>` stack. The game-state handlers come back as the call they would
  receive.
- **`FormatLite`.** `sprintf_lite`, the format engine behind `string_format` and
  `sprintf`:
  - `Step`/`Feed`/`Finish` follow the source loop one character at a time, with a
    failed conversion skipped;
  - `StepRaw`/`FeedRaw`/`FinishRaw` follow the same loop as written, where a
    failed `snprintf` moves the output pointer back before the buffer;
  - `Tokenize`/`Eval`/`Reference` read the same template as a list of directives;
  - `SprintfMatchesReference` proves that the two readings agree on every template.
- **`StringRules`.** `FalloutStringCompare` with its code-page folding, plus
  `string_compare`, `string_find` and `string_to_case`.
- **`SfallIni`.** The `"file|section|key"` INI accessor:
  - triplet parsing with its length limits;
  - the base path;
  - the choice between the base-directory file and the bare file name;
  - get and set, with the default-on-miss policy;
  - `atol` and `compat_itoa`;
  - the script entry points `get_ini_setting`, `get_ini_string` and `set_ini_setting`.
- **`SfallOpcodes`.** The pure parts of these opcodes:
  - `substr`, `div`, `charcode`, `typeof`, `sprintf`, `sfall_func0..8`;
  - the offset guard of `get_proto_data`/`set_proto_data`;
  - the string branch of `get_array`;
  - the stack effects of `metarule2_explosions`.
- **`ScanUnimplemented`.** The scanner's helpers:
  - `to_lower` and `ends_with`;
  - the `CaseInsensitiveCompare` key order of `ConfigMap`;
  - `get_hook_name`;
  - the opcode walk of `check_int_data`.

Values are a datatype `Int | Float | Str | Ptr`. The stack is a `seq<Value>` whose
top is the last element. Strings are sequences of bytes (`Bytes`), and 32-bit
`int` arithmetic is written out with `Wrap32`.

These are modelled as parameters:
- the C library's rendering of one conversion (`render`);
- `compat_stricmp` (`stricmpEqual`);
- the configuration store (`Disk`, a map from path to parsed file, and `writeOk`);
- proto sizes and reads;
- the array subsystem;
- float division;
- the signedness of `char` and the width of `size_t`.

Behaviours of the code worth knowing:
- **`atol` is decimal only.** `SfallIni.GetInt` reads integers with `atol`, so a
  `0x` or leading-`0` prefix does not select another base. See
  `AtolHexIsZero` and `AtolLeadingZeroIsDecimal`.
- **An unfinished conversion is copied out.** When the template ends inside a
  conversion, the pending text is copied to the output: the literal text, the `%`
  and the flag characters, with size prefixes dropped. So `50% ` gives `50% ` and
  `50%l` gives `50%`. See `DanglingPercent`.
- **`%%` keeps its flag characters.** An escaped `%%` emits `%` followed by the
  flag characters kept so far, so `%5%` gives `%5`.
- **Flag characters reach the formatter.** Each conversion passes `%`, its kept
  flag characters and the sanitised letter to the formatter, not just `%` and the
  letter. These characters include digits, `.`, `-` and `*`. So `%*d` is handed to
  the formatter, which then reads a C argument the engine never passes; see
  `StarPassesThrough`.

## Model

| member | source | states |
|---|---|---|
| Registry.TableSorted | src/sfall_metarules.cc:53-156 | every row's name sorts strictly below the next row's name, so the table is in strictly increasing byte order |
| Registry.TableNamesDistinct | src/sfall_metarules.cc:53-156 | no two rows of the table carry the same name |
| Registry.TableArities | src/sfall_metarules.cc:53-156 | every row accepts a range with 0 <= minArgs <= maxArgs <= 8 |
| Registry.FindFrom | src/sfall_metarules.cc:584-590 | the scan from `from` returns the first row with exactly that name; when it returns none, no row from `from` on has the name |
| Registry.Lookup | src/sfall_metarules.cc:584-590 | a row is found exactly when some row has the name; the row found has it and no earlier row does |
| Registry.LookupFindsRow | src/sfall_metarules.cc:584-590 | looking up the name of any row finds that very row |
| Registry.Exists | src/sfall_metarules.cc:258-270 | `metarule_exist` is 1 exactly when lookup finds the name and 0 exactly when no row has it |
| Dispatch.SfallMetarule | src/sfall_metarules.cc:570-601 | too short a stack underflows; a non-string under the arguments is fatal; an unknown name is fatal; an arity outside the row's range is fatal; otherwise the row's handler gets the stack below the name with the arguments pushed back in pop order |
| Dispatch.HandlerSeesScriptOrder | src/sfall_metarules.cc:574-582 | before the handler runs the name is gone, everything under it is untouched, and popping the arguments gives them in the order the script pushed them |
| Dispatch.KnownNameIsDispatched | src/sfall_metarules.cc:584-600 | a table name with an arity in its row's range always reaches that row's handler |
| Dispatch.HandlerRow | src/sfall_metarules.cc:109-150 | the argument ranges of the rows of `metarule_exist`, `set_ini_setting`, the string metarules and `string_format` |
| Dispatch.HandlerValue | src/sfall_metarules.cc:258-456 | a modelled handler leaves the files alone unless it is `set_ini_setting`; `metarule_exist` returns `Exists` of a string argument and `string_format` returns `sprintf_lite` of its template and the rest, each failing exactly on a non-string first argument; `string_compare`, `string_find` and `string_to_case` fail exactly when their argument rule fails and otherwise push that rule's value; `set_ini_setting` returns the result and the files of the ini write |
| Dispatch.RunHandler | src/sfall_metarules.cc:600 | a game-state handler is reported as the call it receives; a modelled one that returns replaces its arguments with one value and keeps the stack below them |
| Dispatch.Metarule | src/sfall_metarules.cc:570-601 | a metarule call that succeeds passed dispatch, and a modelled one replaces name and arguments by one value, leaving the stack below untouched |
| Dispatch.MetaruleRunsHandlerOnScriptArgs | src/sfall_metarules.cc:574-600 | a dispatched modelled metarule computes its handler's value on the script's arguments in script order and pushes it on the stack below the name |
| Dispatch.RowCall | src/sfall_metarules.cc:570-601 | a script that pushes a row's name and then arguments in the row's range gets that row's handler run on exactly those arguments |
| Dispatch.MetaruleExistCall | src/sfall_metarules.cc:258-270 | calling `metarule_exist(name)` through dispatch pushes `Exists(name)` and nothing else changes |
| Dispatch.ExistsAgreesWithDispatch | src/sfall_metarules.cc:258-270 | `metarule_exist` says 1 exactly when dispatching the same name would not halt with "not implemented" |
| Dispatch.StringFormatCall | src/sfall_metarules.cc:453-456 | calling `string_format(fmt, v1..vk)` through dispatch pushes `sprintf_lite` of the template with the values in script order |
| FormatLite.Sanitize | src/sfall_metarules.cc:527-534 | the letter used is never `n`, `S` or `Z`; it is `s` only for a string argument; `n` and `s` on a non-string become `d`; `S`/`Z` on a string become `s`; other letters are kept |
| FormatLite.ArgIndex | src/sfall_metarules.cc:520-524 | the k-th value conversion reads value k-1 while there is one and the last value after that, always within the values popped |
| FormatLite.PayloadOf | src/sfall_metarules.cc:537-542 | a string argument is passed as its text and a pointer as the text `<UNSUPPORTED TYPE>` |
| FormatLite.Clean | src/sfall_metarules.cc:518 | the flag characters kept are exactly those that are not size prefixes, and never more than were given |
| FormatLite.CleanOne | src/sfall_metarules.cc:518 | one flag character survives exactly when it is not a size prefix |
| FormatLite.CleanAppend | src/sfall_metarules.cc:503-553 | cleaning goes character by character over concatenated flags, so the surviving flags keep their order and count |
| FormatLite.ConversionSpec | src/sfall_metarules.cc:517-536 | the single-conversion format is one `%`, then the directive's flags with size prefixes dropped (none of them a letter or `%`), then the sanitised conversion letter, which is not a size prefix, not `n`, `S` or `Z`, and `s` only for a string argument |
| FormatLite.SprintfLite | src/sfall_metarules.cc:464-568 | with a failed conversion skipped: an empty template gives `""`, a template over 1024 bytes gives `Error`, and every result is shorter than 5120 bytes and holds no NUL |
| FormatLite.FeedKeepsBudget | src/sfall_metarules.cc:544-565 | in the corrected loop, where a failed conversion moves nothing, written bytes plus remaining room stay at 5120 while there is room; once room runs out exactly 5119 bytes were written, so the output never exceeds the buffer |
| FormatLite.Store | src/sfall_metarules.cc:513-561 | storing bytes from an address sets exactly the addresses it covers and leaves every other one as it was |
| FormatLite.ReadString | src/sfall_metarules.cc:567 | the string read from an address is the bytes up to the first NUL, none of them NUL, within the bound |
| FormatLite.SprintfLiteAsWritten | src/sfall_metarules.cc:464-568 | as written: an empty template gives `""`, one over 1024 bytes gives `Error`, and the string read from `out` holds at most 5121 bytes and no NUL |
| FormatLite.FeedRawKeepsEnd | src/sfall_metarules.cc:544-545 | as written, the pointer and `bufCount` move by opposite amounts, so their sum stays fixed whatever `snprintf` returns; a room above 5120 means a pointer before `out` |
| FormatLite.FailedConversionWritesBeforeBuffer | src/sfall_metarules.cc:537-565 | when `snprintf` fails on `%<w>d` at the start of `%<w>d<t>`, the loop as written ends with the pointer at -1 and `bufCount` above 5120, stores `t[0]` at `out[-1]` and pushes `t` without its first byte; the corrected loop pushes `t` |
| FormatLite.OverflowWidthExample | src/sfall_metarules.cc:537-565 | `string_format("%2147483648dXY", 1)` with `snprintf` failing on the width pushes `Y` as written and `XY` once corrected |
| FormatLite.FeedStopsWhenFull | src/sfall_metarules.cc:548-550 | once the room is used up no further template byte is read and nothing more is written |
| FormatLite.PendingFitsScratch | src/sfall_metarules.cc:484-491 | the pending format never holds more bytes than the template has, so it fits the scratch buffer sized from the template |
| FormatLite.TokenizeRoundTrip | src/sfall_metarules.cc:503-554 | cutting a template into directives and a tail is lossless: the pieces are well formed and concatenate back to the template |
| FormatLite.TokenizeUnique | src/sfall_metarules.cc:503-554 | a well-formed directive list and tail that concatenate to a template is the one Tokenize returns |
| FormatLite.SprintfMatchesReference | src/sfall_metarules.cc:503-565 | the character loop and the directive-by-directive reading produce the same output for every template, values and formatter |
| FormatLite.EscapedPercent | src/sfall_metarules.cc:510-515 | `100%%` formats to `100%` and reads no argument, whatever the formatter does |
| FormatLite.DanglingPercent | src/sfall_metarules.cc:555-565 | a `%` left open at the end of the template is copied as it stands: `50% ` gives `50% ` |
| FormatLite.StarPassesThrough | src/sfall_metarules.cc:553 | `*` is kept as a flag character, so `%*d` reaches the formatter unchanged |
| FormatLite.DangerousConversionsBecomeDecimal | src/sfall_metarules.cc:527-534 | `%n` and `%-5s` on a number reach the formatter as `%d` and `%-5d` |
| StringRules.FalloutStringCompare | src/sfall_metarules.cc:324-387 | true exactly when the strings have equal length and every byte pair matches under the code page's folding |
| StringRules.BytesMatchSymmetric | src/sfall_metarules.cc:330-385 | the per-byte match does not depend on argument order |
| StringRules.BytesMatchAscii | src/sfall_metarules.cc:343-347 | on ASCII bytes every code page reduces to ASCII case folding |
| StringRules.CompareReflexive | src/sfall_metarules.cc:324-387 | every string compares equal to itself |
| StringRules.CompareSymmetric | src/sfall_metarules.cc:324-387 | the comparison does not depend on argument order |
| StringRules.CompareAscii | src/sfall_metarules.cc:324-387 | on ASCII strings the comparison is equality after ASCII lower-casing, on every code page |
| StringRules.CyrillicXMatches | src/sfall_metarules.cc:337-341 | byte 229 equals `x` and `X` on code page 866 and does not on code page 1251 |
| StringRules.SearchFrom | src/sfall_metarules.cc:429 | `strstr` from a position returns the first occurrence at or after it, or none when there is no occurrence from there on |
| StringRules.StringFind | src/sfall_metarules.cc:414-436 | a start outside `[0, len)` gives -1; otherwise the first occurrence at or after the start, or -1 when there is none |
| StringRules.FindEmpty | src/sfall_metarules.cc:429-432 | an empty needle is found at any valid start position |
| StringRules.StringToCase | src/sfall_metarules.cc:438-451 | length is kept; case type 1 leaves no lower-case ASCII letter, 0 no upper-case one, any other value leaves the string unchanged; bytes change only in case |
| StringRules.CaseRoundTrip | src/sfall_metarules.cc:438-451 | lower-casing after upper-casing is plain lower-casing, and lower-casing is idempotent |
| StringRules.StringCompareRule | src/sfall_metarules.cc:389-412 | fails exactly on a non-string string argument or a non-integer code page; pushes 1 exactly when `compat_stricmp` (two arguments) or the Fallout comparison (three) says equal, and 0 otherwise |
| StringRules.StringFindRule | src/sfall_metarules.cc:414-436 | fails exactly on ill-typed arguments; pushes the position `string_find` computes, with start 0 when none is given |
| StringRules.StringToCaseRule | src/sfall_metarules.cc:438-451 | fails exactly on ill-typed arguments; pushes the converted string, of the same length |
| SfallIni.ParseTriplet | src/sfall_ini.cc:32-61 | a parsed triplet has pipe-free file name and section within 63 and 32 bytes, and joining the parts with `\|` gives the input back |
| SfallIni.ParseJoin | src/sfall_ini.cc:32-61 | joining pipe-free parts within the limits and parsing gives the parts back; the key may hold further `\|` |
| SfallIni.ParseRejectsLongFileName | src/sfall_ini.cc:39-42 | a file-name part longer than 63 bytes is refused whatever follows |
| SfallIni.ParseRejectsMissingPipe | src/sfall_ini.cc:34-47 | a triplet with fewer than two `\|` is refused |
| SfallIni.TerminatorOverrunAsWritten | src/sfall_ini.cc:54-58 | some accepted triplet has its file-name terminator stored outside the callers' 63-byte buffer |
| SfallIni.SectionOverrunAsWritten | src/sfall_ini.cc:57-58 | every accepted triplet with a 32-byte section stores its terminator outside the callers' 32-byte buffer |
| SfallIni.TerminatorsFitCorrected | src/sfall_ini.cc:137-138 | buffers of 64 and 33 bytes hold every accepted chunk with its terminator |
| SfallIni.SetBasePath | src/sfall_ini.cc:107-121 | null clears the base path; otherwise the path loses exactly one trailing `\` or `/` when it ends in one and is kept whole otherwise |
| SfallIni.SetBasePathStripsOnce | src/sfall_ini.cc:113-116 | only one separator goes: `mods//` becomes `mods/` and `\` becomes empty |
| SfallIni.ResolvePath | src/sfall_ini.cc:89-102 | the base-directory path is chosen exactly when the base is set, the name is not a system file and that file can be read; otherwise the bare name |
| SfallIni.Load | src/sfall_ini.cc:80-105 | a configuration is loaded exactly when the resolved path can be read, and it is that file |
| SfallIni.GetString | src/sfall_ini.cc:135-167 | fails exactly when the triplet does not parse; otherwise the stored value cut to `size - 1` bytes, or `""` when the file or key is missing |
| SfallIni.SetString | src/sfall_ini.cc:177-216 | refuses an unparsable triplet; succeeds exactly when the write does; a successful write sets the key in the file at the resolved path, creating it if absent, and changes no other file |
| SfallIni.LookupIgnoresCase | src/sfall_ini.cc:158 | section and key names that differ only in ASCII case find the same entry |
| SfallIni.SetStringKeepsOtherKeys | src/sfall_ini.cc:209 | writing one key leaves every entry whose section or key differs from it beyond ASCII case unchanged |
| SfallIni.SetThenGet | src/sfall_ini.cc:135-216 | reading a triplet right after writing it returns the value written, wherever the file was found or created |
| SfallIni.SetThenGetAnyCase | src/sfall_ini.cc:135-216 | the value written is read back through any triplet naming the same file and the same section and key up to ASCII case |
| SfallIni.Atol | src/sfall_ini.cc:130 | the value read lies in the range of a 64-bit `long` |
| SfallIni.Itoa | src/sfall_ini.cc:171-172 | the decimal text of any `int` is 1 to 11 bytes, so it fits `char stringValue[20]` |
| SfallIni.AtolItoa | src/sfall_ini.cc:169-175 | `atol` reads back exactly the integer `compat_itoa` wrote, for every 32-bit value |
| SfallIni.AtolHexIsZero | src/sfall_ini.cc:130 | `0x10` reads as 0: `atol` does not accept a hexadecimal prefix |
| SfallIni.AtolLeadingZeroIsDecimal | src/sfall_ini.cc:130 | `010` reads as 10: a leading zero does not select octal |
| SfallIni.AtolStopsAtText | src/sfall_ini.cc:130 | leading blanks and a sign are accepted and the number ends at the first other byte: ` -7 apples` reads as -7 |
| SfallIni.GetInt | src/sfall_ini.cc:123-133 | fails exactly when the string read fails; a missing file or key reads as 0 |
| SfallIni.GetIntReadsStoredText | src/sfall_ini.cc:123-133 | the integer read is `atol` of the first 19 bytes of the stored text narrowed to `int`, and 0 when the file or key is missing |
| SfallIni.SetInt | src/sfall_ini.cc:169-175 | succeeds exactly when the triplet parses and the write succeeds |
| SfallIni.SetIntThenGetInt | src/sfall_ini.cc:123-175 | reading an integer right after writing it returns the same integer |
| SfallIni.GetIniSetting | src/sfall_ini.cc:345-355 | pushes -1 for an unparsable triplet and otherwise the integer read, 0 for a missing key |
| SfallIni.GetIniString | src/sfall_ini.cc:358-368 | pushes the integer -1 exactly for an unparsable triplet and otherwise a string of at most 255 bytes |
| SfallIni.SetIniSetting | src/sfall_ini.cc:234-256 | always pushes -1; a string value is written as text, an integer as its decimal text, and nothing changes when the triplet does not parse or the write fails |
| SfallOpcodes.NormalStart | src/sfall_opcodes.cc:747-752 | a negative start counts from the end and is clamped at 0; a non-negative one is kept |
| SfallOpcodes.SubstrCopyAsWritten | src/sfall_opcodes.cc:754-778 | the copy as written starts inside the string and copies at most 5119 bytes |
| SfallOpcodes.SubstrCopy | src/sfall_opcodes.cc:754-778 | with the end test written without overflow, the bytes copied always lie inside the string; the early empty results happen exactly for a start past the end or a negative length that cuts away everything |
| SfallOpcodes.SubstrAgreesWithoutOverflow | src/sfall_opcodes.cc:770 | whenever `length + startPos` fits in an `int` the code as written copies the same bytes as the corrected copy |
| SfallOpcodes.SubstrOverreadAsWritten | src/sfall_opcodes.cc:770-778 | on a 10-byte string with start 5 and length `INT_MAX` the code as written copies 5119 bytes, past the string's end, where the corrected copy takes 5 |
| SfallOpcodes.Substr | src/sfall_opcodes.cc:737-781 | the result is at most 5119 consecutive bytes of the string, and when it is not empty it starts at the normalised start position |
| SfallOpcodes.SubstrPastEnd | src/sfall_opcodes.cc:764-768 | a start at or past the end gives `""` |
| SfallOpcodes.SubstrToEnd | src/sfall_opcodes.cc:770-776 | a length of 0 or one running past the end gives the rest of the string, capped at 5119 bytes |
| SfallOpcodes.SubstrWithin | src/sfall_opcodes.cc:770-780 | a window inside the string is returned exactly |
| SfallOpcodes.SubstrFromEnd | src/sfall_opcodes.cc:747-752 | a negative start within the string means the same as the start counted from the end |
| SfallOpcodes.SubstrClampsStart | src/sfall_opcodes.cc:749-751 | a start before the beginning means start 0 |
| SfallOpcodes.SubstrDropsTail | src/sfall_opcodes.cc:754-761 | a negative length `-k` below the remaining length cuts `k` bytes off the end |
| SfallOpcodes.SubstrDropsAll | src/sfall_opcodes.cc:754-759 | a negative length cutting away exactly the rest gives `""` |
| SfallOpcodes.OpSubstr | src/sfall_opcodes.cc:737-781 | pops length, start and string, failing exactly on ill-typed operands, and pushes the substring |
| SfallOpcodes.OpDiv | src/sfall_opcodes.cc:1121-1140 | needs two operands; replaces them by one value; two integers give 0 for a zero divisor and otherwise the unsigned 32-bit quotient |
| SfallOpcodes.DivNonNegative | src/sfall_opcodes.cc:1137-1138 | for non-negative operands the quotient is ordinary division |
| SfallOpcodes.DivReadsUnsigned | src/sfall_opcodes.cc:1137-1138 | `-1 / 2` is `0x7FFFFFFF`: a negative dividend is read as unsigned |
| SfallOpcodes.DivZeroTestIsRaw | src/sfall_opcodes.cc:1126-1135 | the zero test looks at the raw field: a `+0.0` divisor pushes 0 while `-0.0` reaches the float division |
| SfallOpcodes.ProtoGuardAsWritten | src/sfall_opcodes.cc:424 | for proto sizes below 2^31, the guard as written accepts exactly the aligned in-bounds offsets plus -4, on 32- and 64-bit `size_t` |
| SfallOpcodes.ProtoGuardPassesMinusFour | src/sfall_opcodes.cc:412-428 | offset -4 passes the guard as written on every proto and `size_t` width, though it is not a word inside the proto |
| SfallOpcodes.OpGetProtoData | src/sfall_opcodes.cc:410-432 | pops offset and pid, failing exactly on non-integers; pushes -1 for an unknown proto or an offset that is not an aligned word inside it, and otherwise the word read |
| SfallOpcodes.OpSetProtoData | src/sfall_opcodes.cc:435-457 | with the corrected guard: pops value, offset and pid; an unknown proto or an offset that is not an aligned word inside it pushes -1 and writes nothing; otherwise the word is written and nothing is pushed |
| SfallOpcodes.OpSetProtoDataAsWritten | src/sfall_opcodes.cc:435-457 | with the guard as written: pops value, offset and pid; an unknown proto or an offset the wrapping test rejects pushes -1 and writes nothing; otherwise the word at that offset is written |
| SfallOpcodes.SetProtoDataWritesBeforeProto | src/sfall_opcodes.cc:450-456 | `set_proto_data(pid, -4, v)` on a known proto writes `v` four bytes before the proto as written, and pushes -1 without writing once corrected |
| SfallOpcodes.SetProtoDataStackEffect | src/sfall_opcodes.cc:435-457 | a successful write leaves the stack one entry lower than a failed one |
| SfallOpcodes.OpGetArray | src/sfall_opcodes.cc:928-948 | a string with an integer key pushes its byte at that index, or `""` for any index outside `[0, len)`; container/key pairs that are neither array ids nor string and integer push nothing |
| SfallOpcodes.GetArrayIsOneByteSubstr | src/sfall_opcodes.cc:928-948 | indexing a string inside its bounds pushes the same one-byte string as `substr(str, pos, 1)` |
| SfallOpcodes.GetArrayNegativeIndex | src/sfall_opcodes.cc:937-946 | a negative index pushes `""`, where `substr` with the same start would count from the end and return a byte |
| SfallOpcodes.CharValue | src/sfall_opcodes.cc:1155 | a byte read as `char` keeps its value below 0x80 and is congruent to it mod 256 in the signed range when `char` is signed |
| SfallOpcodes.OpCharcode | src/sfall_opcodes.cc:1151-1159 | fails exactly on a non-string; pushes the first byte's `char` value, or 0 for an empty string |
| SfallOpcodes.CharcodeAscii | src/sfall_opcodes.cc:1151-1159 | for an ASCII first byte the code pushed is that byte on every target |
| SfallOpcodes.TypeCode | src/sfall_opcodes.cc:985-995 | 1 exactly for integers, 2 exactly for floats, 3 exactly for strings and pointers |
| SfallOpcodes.OpTypeOf | src/sfall_opcodes.cc:985-995 | replaces the top value by its type code |
| SfallOpcodes.TypeCodeMatchesTypedReads | src/sfall_opcodes.cc:985-995 | code 1 exactly for the values an integer read accepts, 2 exactly for floats, and 3 for every value a string read accepts and every other non-float |
| SfallOpcodes.TypeOfThenPop | src/sfall_opcodes.cc:985-995 | after `typeof` an integer pop succeeds, yields the type code of the former top value and restores the stack below it |
| SfallOpcodes.SprintfLiteCall | src/sfall_metarules.cc:464-472 | pops the template and `args - 1` values, failing exactly on a short stack or non-string template, and pushes the format of the values in script order |
| SfallOpcodes.OpSprintf | src/sfall_opcodes.cc:1142-1149 | fails exactly on a short stack or a non-string template under the value; pushes `sprintf_lite` of the template and that one value |
| SfallOpcodes.SprintfIsStringFormat | src/sfall_opcodes.cc:1142-1149 | `sprintf(fmt, v)` leaves the same stack as the metarule call `string_format(fmt, v)` |
| SfallOpcodes.SfallFuncArgs | src/sfall_opcodes.cc:1613-1629 | every `sfall_funcN` opcode passes at most 8 arguments |
| SfallOpcodes.SfallFuncOpcodes | src/sfall_opcodes.cc:1613-1629 | each count 0..8 has exactly one opcode, the opcode maps back to its count, and 0x827D-0x827F are not `sfall_funcN` |
| SfallOpcodes.OpSfallFunc | src/sfall_opcodes.cc:1067-1118 | a successful `sfall_funcN` had its `N` arguments and the name on the stack |
| SfallOpcodes.OpExplosions | src/sfall_opcodes.cc:791-846 | pops three integers; sub-operations 1-5 push 0, 6 pushes the damage array's id, 7-9 and unknown ones push nothing; each of 1-9 makes its own engine call with the popped arguments (the pattern call picks 2, 4 or 0, 6 by the first argument) and exactly the unknown ones make none |
| SfallOpcodes.ExplosionsStackHeight | src/sfall_opcodes.cc:791-846 | the stack ends one entry higher for sub-operations 1-6 than for the others |
| ScanUnimplemented.ToLower | src/scan_unimplemented_utils.h:34-39 | length is kept and every byte is lowered |
| ScanUnimplemented.ToLowerIdempotent | src/scan_unimplemented_utils.h:34-39 | lowering twice is lowering once |
| ScanUnimplemented.ToLowerAppend | src/scan_unimplemented_utils.h:34-39 | lowering distributes over concatenation |
| ScanUnimplemented.EqualFromBackIsSuffix | src/scan_unimplemented_utils.h:48 | comparing from the back is testing that `a` is the tail of `b` |
| ScanUnimplemented.EndsWith | src/scan_unimplemented_utils.h:41-49 | a string shorter than the suffix never ends with it |
| ScanUnimplemented.EndsWithIsLoweredSuffix | src/scan_unimplemented_utils.h:41-49 | `ends_with(s, t)` holds exactly when lowered `t` is a suffix of lowered `s` |
| ScanUnimplemented.EndsWithIgnoresCase | src/scan_unimplemented_utils.h:41-49 | lowering either argument first does not change the answer |
| ScanUnimplemented.EndsWithTail | src/scan_unimplemented_utils.h:45-48 | every string ends with `""`, with itself and with any tail of itself |
| ScanUnimplemented.CharKey | src/scan_unimplemented.h:14-17 | with unsigned `char` the compared value is the lowered byte; with signed `char` it lies in [-128, 128) |
| ScanUnimplemented.OrderKeyEqual | src/scan_unimplemented.h:19-29 | two strings have the same sort key exactly when they are equal up to ASCII case |
| ScanUnimplemented.CaseInsensitiveIsLexOnKeys | src/scan_unimplemented.h:19-29 | the comparator is plain lexicographic order on the sort keys |
| ScanUnimplemented.CaseInsensitiveIrreflexive | src/scan_unimplemented.h:19-29 | no string sorts before itself |
| ScanUnimplemented.CaseInsensitiveTransitive | src/scan_unimplemented.h:19-29 | the order is transitive |
| ScanUnimplemented.CaseInsensitiveEquivalence | src/scan_unimplemented.h:19-34 | neither of two strings sorts first exactly when they are equal up to ASCII case, so `ConfigMap` keeps one entry per name up to case |
| ScanUnimplemented.CaseInsensitivePrefix | src/scan_unimplemented.h:22-27 | a proper prefix, up to case, sorts before any extension of it |
| ScanUnimplemented.HookTable | src/scan_unimplemented_opcodes.h:29-94 | ids 0-48 and 61-62 have a name; the reserved ids 49-60 and ids outside the table do not |
| ScanUnimplemented.GetHookName | src/scan_unimplemented_opcodes.h:27-100 | a negative id, an id of 63 or more, or a reserved id 49-60 gives `Unknown hook`; every other id gives `HOOK_` and its table name |
| ScanUnimplemented.HookNamesArePrefixed | src/scan_unimplemented_opcodes.h:29-94 | every named id's name starts with `HOOK_` and is never `Unknown hook` |
| ScanUnimplemented.HookNameEnds | src/scan_unimplemented_opcodes.h:30-93 | id 0 is `HOOK_TOHIT` and id 62 is `HOOK_COUNT` |
| ScanUnimplemented.HookNameBeforeReserved | src/scan_unimplemented_opcodes.h:78-80 | id 48 is `HOOK_CANUSEWEAPON` |
| ScanUnimplemented.HookNameAfterReserved | src/scan_unimplemented_opcodes.h:91-92 | id 61 is `HOOK_BUILDSFXWEAPON` |
| ScanUnimplemented.Slot | src/scan_unimplemented_opcodes.h:116 | the handler slot always lies inside the 0x400-entry handler table |
| ScanUnimplemented.Advance | src/scan_unimplemented_opcodes.h:146-153 | each step moves 2 bytes, or 6 exactly after the push opcode, so the walk strictly advances |
| ScanUnimplemented.StepAt | src/scan_unimplemented_opcodes.h:110-153 | one step adds the opcode it reads exactly when it has no handler; it stops at a word without the opcode bit exactly, and otherwise moves on by the opcode's size |
| ScanUnimplemented.Visited | src/scan_unimplemented_opcodes.h:102-155 | the positions whose opcode the loop reads all lie in the range and hold opcode words |
| ScanUnimplemented.WalkFrom | src/scan_unimplemented_opcodes.h:102-155 | the walk records exactly the handler-less opcode words at the positions it visits, finishes exactly when it reaches the end, ending within 6 bytes past it, and stops early only at a data word or a bad hook registration inside the range |
| ScanUnimplemented.WalkStopsAtData | src/scan_unimplemented_opcodes.h:111-115 | a data word at the start ends the walk there having recorded nothing |
| ScanUnimplemented.HandledOpcodesNotReported | src/scan_unimplemented_opcodes.h:116-121 | an opcode with a handler is never reported |
| ScanUnimplemented.CheckIntData | src/scan_unimplemented_opcodes.h:102-155 | the loop computes the walk: only opcodes without a handler are reported, and a finished walk reached the end |

## Left out

- Game-state metarule handlers are not run. This covers `car_gas_amount`,
  `combat_data`, `critter_inven_obj2`, `dialog_obj`, `floor2`, `get_cursor_mode`,
  `get/set_flags`, `get_ini_section(s)`, `get_object_data`, `get_text_width`,
  `intface_redraw`, `loot_obj`, `outlined_object`, `set_cursor_mode`,
  `set_outline`, `show_window` and `tile_refresh_display`. They act on engine
  state, the UI, raw memory or the array subsystem, so `Dispatch.RunHandler`
  returns them as the `External` call they receive.
- `interpreter.cc` is not part of this model. So:
  - typed pops are modelled as halting the script with a fault when the stack is
    short or the value has the wrong type;
  - `stackReadInt16`/`stackReadInt32` are the `word`/`long` functions of
    `ScanUnimplemented.Code`, with 16-bit words read unsigned;
  - the handler table is its `hasHandler` function.
- The string handle behind a `Str` value is not modelled. The value holds the
  string's bytes, so `programGetString` is the identity.
- Floating point is left out. The float branch of `div` is the `floatDiv`
  parameter, and `floor2` and the other float opcodes are not modelled.
- Proto memory is left out: the proto sizes and the word read are the `protoSize`
  and `read` parameters. The array subsystem is left out too; `get_array` on an
  array id is the `getArray` parameter, and the damage array of
  `metarule2_explosions` is `damageArray`.
- `debugPrint` messages, `printf` reports and the scanner's `exit(1)` are left
  out. The exit is the `BadHookUsage` stop. The scanner's per-opcode file-name
  maps are reduced to the sets of opcodes and hook procedures one file
  contributes.
- SfallIni.GetString: assumes `configInit` succeeds. Its failure path also
  returns false in the source.
- SfallIni.SetString: assumes `configInit` succeeds as well. Its failure path
  (returning false before anything is read or written) is not modelled.
- SfallIni.Load: assumes that a failed read leaves the configuration empty. It
  also ignores `COMPAT_MAX_PATH` truncation of paths and the unchecked `strcpy`
  into `basePath`.
- SfallIni.Atol: assumes a 64-bit `long` for the saturation bounds. Its result is
  then narrowed to `int` with `Wrap32`.
- SfallIni.Itoa: assumes `compat_itoa` writes the standard decimal text. Its
  source is not part of this model.
- SfallIni.IsSystemFileName: `compat_stricmp` equality is the `stricmpEqual`
  parameter, and so is the two-argument `string_compare`.
- SfallIni.SetIniSetting: a non-integer, non-string value is converted by the
  interpreter's `asInt`, which is the `otherAsInt` parameter.
- FormatLite.SprintfLite: what the formatter renders for one conversion is the
  `render` parameter, not a model of `snprintf`. It gives the whole text, or
  `None` when `snprintf` returns a negative value. A negative return is taken to
  be -1, as in glibc and musl, and a failed call is taken to store nothing. In
  the corrected loop anything a failed call did store lies at or after the write
  position, where later writes and the final terminator cover or hide it.
  `SprintfLite` is the corrected loop: it skips a failed conversion, together
  with the literal text handed to `snprintf` with it. The loop as written is
  `SprintfLiteAsWritten`. The contract bounds the output and excludes NUL bytes;
  it does not give the text. The formats handed to `render` are described by
  `ConversionSpec`, which `SprintfMatchesReference` ties to the character loop.
- SfallOpcodes.OpSfallFunc: states only that a successful call had its arguments
  and name on the stack. The rest of its behaviour is `Dispatch.Metarule`, which
  it calls with the opcode's argument count.
- SfallIni.Lookup: the configuration store is not part of this model. Section and
  key names are matched ignoring ASCII case, the way `compat_stricmp` compares
  them. How a newly written name is spelled inside the file is not modelled.
- StringRules.StringToCase: folds ASCII letters only and leaves every byte of 0x80
  or more unchanged. The source passes a plain `char` to `::toupper`/`::tolower`,
  which is undefined in C for negative values, and that case is not modelled.
- ScanUnimplemented.ToLower: uses `tolower` in the "C" locale on unsigned bytes.
  Passing a negative `char` to `::tolower`, as `to_lower(std::string)` can, is
  undefined in C, and that case is not modelled.
- SfallOpcodes.CharValue: the signedness of `char` is the `charIsSigned`
  parameter.
- ScanUnimplemented.CharKey: the signedness of `char` is the `charIsSigned`
  parameter here too.
- SfallOpcodes.ProtoGuardAsWritten: the width of `size_t` is the parameter `m`.
- Embedded NUL bytes are left out: the bytes of a `Str` value are assumed to
  hold no NUL, although the `Byte` type admits one. A C string ends at its first
  NUL, so the source's `strlen` is the sequence length here (`CLength` where the
  model narrows it to `int`). A string with an embedded NUL would be cut short in
  the source and is not modelled.
- `sfall_metarule` is only modelled for at most 8 arguments. Its static buffer
  holds 8 values, and the `sfall_funcN` opcodes never pass more.

## Findings

| source | as written | input that shows it | evidently intended | confidence | as-written member | corrected member |
|---|---|---|---|---|---|---|
| src/sfall_ini.cc:54-58 | the parser stores the terminator at index 63 of `char fileName[63]` and at index 32 of `char section[32]` | `aaa…a\|s\|k` with a 63-byte file name, or any triplet with a 32-byte section | buffers of `kFileNameMaxSize + 1` and `kSectionMaxSize + 1` bytes | not executed | SfallIni.TerminatorOverrunAsWritten | SfallIni.TerminatorsFitCorrected |
| src/sfall_opcodes.cc:424 | `offset + sizeof(int)` is computed in `size_t` after converting a negative offset, so it wraps | `get_proto_data(pid, -4)` | reject negative offsets; accept only aligned words inside the proto | not executed | SfallOpcodes.ProtoGuardPassesMinusFour | SfallOpcodes.OpGetProtoData |
| src/sfall_metarules.cc:537-545 | the return value of `snprintf` is added to `outBuf` and subtracted from `bufCount` unchecked; a failing call returns -1, so the pointer moves before `out` and the remainder copy at line 560 writes there | `string_format("%2147483648dXY", 1)`: the width overflows `int`, `snprintf` returns -1, `X` lands at `out[-1]` and the script receives `Y` | skip a conversion whose `snprintf` fails, so the pointer never moves back | not executed | FormatLite.FailedConversionWritesBeforeBuffer | FormatLite.FeedKeepsBudget |
| src/sfall_opcodes.cc:450-456 | `set_proto_data` has the same wrapping guard as `get_proto_data` | `set_proto_data(pid, -4, v)`: the guard passes and `v` is written into the word before the proto | reject negative offsets; write only aligned words inside the proto | not executed | SfallOpcodes.SetProtoDataWritesBeforeProto | SfallOpcodes.OpSetProtoData |
| src/sfall_opcodes.cc:770 | `length + startPos > len` overflows `int` for large lengths, so the "runs past the end" test fails | `substr("0123456789", 5, 2147483647)` | compare `length > len - startPos`, so the copy stays inside the string | not executed | SfallOpcodes.SubstrOverreadAsWritten | SfallOpcodes.SubstrCopy |

=== FILE: dispatch.dfy ===
/**
 `sfall_metarule(args)`: the call path of every `sfall_funcN` opcode. The arguments
 are popped, the name string under them is popped, the arguments are pushed back in
 the order they were popped, so the first script argument ends on top, and the
 first row of the table with exactly that name decides: unknown names and argument
 counts outside the row's range halt the script, anything else runs that row's
 handler once.

 The handlers that are pure string, format and INI logic are run here; the others
 act on game state and are reported as the call they would receive.
 */
module Dispatch {
  import opened Values
  import opened Registry
  import FormatLite
  import StringRules
  import SfallIni

  /** `sfall_metarule` keeps the popped arguments in a static `ProgramValue values[8]`. */
  const MaxMetaruleArgs: int := 8

  /** The handler chosen, the argument count it receives and the stack it starts from. */
  datatype Call = Call(handler: Handler, args: nat, stack: Stack)

  /**
   Runs the dispatch up to the handler call. The name sits under the `args`
   arguments; the handler's stack is the stack below the name with the arguments
   on top in reverse push order.
   */
  function SfallMetarule(st: Stack, args: nat): (r: Result<Call>)
    requires args <= MaxMetaruleArgs
    ensures |st| <= args ==> r == Fatal(StackUnderflow)
    ensures |st| > args && !st[|st| - 1 - args].Str? ==> r == Fatal(StringExpected)
    ensures |st| > args && st[|st| - 1 - args].Str? ==>
      var name := st[|st| - 1 - args].s;
      var row := Lookup(name);
      && (row.None? ==> r == Fatal(NotImplemented(name)))
      && (row.Some? && !(TableRow(row.value).minArgs <= args <= TableRow(row.value).maxArgs) ==>
            r == Fatal(InvalidArgCount(name)))
      && (row.Some? && TableRow(row.value).minArgs <= args <= TableRow(row.value).maxArgs ==>
            r == Ok(Call(TableRow(row.value).handler, args, st[..|st| - 1 - args] + Reverse(st[|st| - args..]))))
  {
    var (values, rest) :- PopValues(st, args);
    var (name, base) :- PopString(rest);
    var pushed := base + values;
    match Lookup(name)
    case None => Fatal(NotImplemented(name))
    case Some(i) =>
      if args < TableRow(i).minArgs || args > TableRow(i).maxArgs then Fatal(InvalidArgCount(name))
      else
        PopFacts(st, args, values, rest, name, base);
        Ok(Call(TableRow(i).handler, args, pushed))
  }

  lemma PopFacts(st: Stack, args: nat, values: seq<Value>, rest: Stack, name: Bytes, base: Stack)
    requires |values| == args && st == rest + Reverse(values) && rest == base + [Str(name)]
    ensures |st| > args && st[|st| - 1 - args] == Str(name)
    ensures base == st[..|st| - 1 - args]
    ensures values == Reverse(st[|st| - args..])
  {
    assert st[|st| - args..] == Reverse(values);
    ReverseReverse(values);
    assert st[..|st| - 1 - args] == base;
  }

  /**
   Net effect before the handler runs: the name is gone, and popping the arguments
   again gives them in script order, first argument first.
   */
  lemma {:induction false} HandlerSeesScriptOrder(st: Stack, args: nat)
    requires args <= MaxMetaruleArgs
    requires SfallMetarule(st, args).Ok?
    ensures var c := SfallMetarule(st, args).value;
            && |c.stack| == |st| - 1
            && c.stack[..|st| - 1 - args] == st[..|st| - 1 - args]
            && PopValues(c.stack, args) == Ok((st[|st| - args..], st[..|st| - 1 - args]))
  {
    var c := SfallMetarule(st, args).value;
    var below := st[..|st| - 1 - args];
    var scriptArgs := st[|st| - args..];
    assert c.stack == below + Reverse(scriptArgs);
    assert c.stack[|c.stack| - args..] == Reverse(scriptArgs);
    assert c.stack[..|c.stack| - args] == below;
    ReverseReverse(scriptArgs);
  }

  /** A name the table holds is never reported as not implemented. */
  lemma {:induction false} KnownNameIsDispatched(st: Stack, args: nat, i: nat)
    requires args <= MaxMetaruleArgs && i < MetaruleCount
    requires |st| > args && st[|st| - 1 - args].Str? && st[|st| - 1 - args].s == TableRow(i).name
    requires TableRow(i).minArgs <= args <= TableRow(i).maxArgs
    ensures SfallMetarule(st, args).Ok? && SfallMetarule(st, args).value.handler == TableRow(i).handler
  {
    LookupFindsRow(i);
  }

  // ---------------------------------------------------------------------------
  // Running the modelled handlers
  // ---------------------------------------------------------------------------

  /**
   What the modelled handlers depend on outside the interpreter: the INI files and
   base path, whether a write reaches the disk, the platform's `compat_stricmp`
   equality, the C formatter's rendering of one conversion, and the integer reading
   of non-integer values.
   */
  datatype Env = Env(
    disk: SfallIni.Disk,
    base: Bytes,
    writeOk: bool,
    stricmpEqual: (Bytes, Bytes) -> bool,
    render: FormatLite.Renderer,
    otherAsInt: Value -> Int32)

  /** A modelled handler returns one value and the files as they are afterwards. */
  datatype Outcome =
    | Returned(stack: Stack, disk: SfallIni.Disk)
    | External(call: Call)

  predicate Modelled(h: Handler) {
    h == MetaruleExist || h == SetIniSetting || h == StringCompare
    || h == StringFind || h == StringFormat || h == StringToCase
  }

  /** The argument counts the table allows each modelled handler. */
  predicate ArityFits(h: Handler, n: nat) {
    && (h == MetaruleExist ==> n == 1)
    && (h == SetIniSetting || h == StringToCase ==> n == 2)
    && (h == StringCompare || h == StringFind ==> 2 <= n <= 3)
    && (h == StringFormat ==> 2 <= n <= MaxMetaruleArgs)
  }

  /** The value a modelled handler pushes, from its arguments in script order. */
  function HandlerValue(h: Handler, argv: seq<Value>, env: Env): (r: Result<(Value, SfallIni.Disk)>)
    requires Modelled(h) && ArityFits(h, |argv|)
    ensures h != SetIniSetting && r.Ok? ==> r.value.1 == env.disk
    ensures h == MetaruleExist ==>
      (r.Ok? <==> argv[0].Str?) && (argv[0].Str? ==> r.value.0 == Int(Exists(argv[0].s)))
    ensures h == StringFormat ==>
      (r.Ok? <==> argv[0].Str?)
      && (argv[0].Str? ==> r.value.0 == Str(FormatLite.SprintfLite(argv[0].s, argv[1..], env.render)))
    ensures h == StringCompare ==>
      (r.Ok? <==> StringRules.StringCompareRule(argv, env.stricmpEqual).Ok?)
      && (r.Ok? ==> r.value.0 == StringRules.StringCompareRule(argv, env.stricmpEqual).value)
    ensures h == StringFind ==>
      (r.Ok? <==> StringRules.StringFindRule(argv).Ok?)
      && (r.Ok? ==> r.value.0 == StringRules.StringFindRule(argv).value)
    ensures h == StringToCase ==>
      (r.Ok? <==> StringRules.StringToCaseRule(argv).Ok?)
      && (r.Ok? ==> r.value.0 == StringRules.StringToCaseRule(argv).value)
    ensures h == SetIniSetting ==>
      r == SfallIni.SetIniSetting(argv, env.disk, env.base, env.writeOk, env.stricmpEqual, env.otherAsInt)
  {
    match h
    case MetaruleExist =>
      var name :- AsString(argv[0]);
      Ok((Int(Exists(name)), env.disk))
    case SetIniSetting =>
      SfallIni.SetIniSetting(argv, env.disk, env.base, env.writeOk, env.stricmpEqual, env.otherAsInt)
    case StringCompare =>
      var v :- StringRules.StringCompareRule(argv, env.stricmpEqual);
      Ok((v, env.disk))
    case StringFind =>
      var v :- StringRules.StringFindRule(argv);
      Ok((v, env.disk))
    case StringFormat =>
      var fmt :- AsString(argv[0]);
      Ok((Str(FormatLite.SprintfLite(fmt, argv[1..], env.render)), env.disk))
    case StringToCase =>
      var v :- StringRules.StringToCaseRule(argv);
      Ok((v, env.disk))
  }

  /** The argument ranges of the modelled handlers' rows. */
  lemma HandlerRow(i: nat)
    requires i < MetaruleCount
    ensures TableRow(i).handler == MetaruleExist ==> TableRow(i).minArgs == TableRow(i).maxArgs == 1
    ensures TableRow(i).handler == SetIniSetting ==> TableRow(i).minArgs == TableRow(i).maxArgs == 2
    ensures TableRow(i).handler == StringToCase ==> TableRow(i).minArgs == TableRow(i).maxArgs == 2
    ensures TableRow(i).handler == StringCompare ==> TableRow(i).minArgs == 2 && TableRow(i).maxArgs == 3
    ensures TableRow(i).handler == StringFind ==> TableRow(i).minArgs == 2 && TableRow(i).maxArgs == 3
    ensures TableRow(i).handler == StringFormat ==> TableRow(i).minArgs == 2 && TableRow(i).maxArgs == 8
  {
  }

  /** A handler's value pushed on `below`, or the fault that halted it. */
  function Push(r: Result<(Value, SfallIni.Disk)>, below: Stack): Result<Outcome> {
    match r
    case Ok((v, disk)) => Ok(Returned(below + [v], disk))
    case Fatal(f) => Fatal(f)
  }

  /**
   The handler of row `row` pops its `args` arguments and pushes the value it
   computes; handlers that act on game state are left as the call they receive.
   */
  function RunHandler(c: Call, row: nat, env: Env): (r: Result<Outcome>)
    requires row < MetaruleCount && TableRow(row).handler == c.handler
    requires TableRow(row).minArgs <= c.args <= TableRow(row).maxArgs
    ensures !Modelled(c.handler) ==> r == Ok(External(c))
    ensures Modelled(c.handler) && c.args > |c.stack| ==> r == Fatal(StackUnderflow)
    ensures r.Ok? && r.value.Returned? ==>
      |r.value.stack| == |c.stack| - c.args + 1 && r.value.stack[..|c.stack| - c.args] == c.stack[..|c.stack| - c.args]
  {
    if !Modelled(c.handler) then Ok(External(c))
    else
      HandlerRow(row);
      var (popped, below) :- PopValues(c.stack, c.args);
      Push(HandlerValue(c.handler, popped, env), below)
  }

  /**
   A whole metarule call: dispatch, then the handler. A modelled metarule that
   returns replaces its name and arguments with exactly one value and leaves
   everything below them untouched.
   */
  function Metarule(st: Stack, args: nat, env: Env): (r: Result<Outcome>)
    requires args <= MaxMetaruleArgs
    ensures r.Ok? ==> SfallMetarule(st, args).Ok?
    ensures r.Ok? && r.value.Returned? ==>
      |r.value.stack| == |st| - args && r.value.stack[..|st| - 1 - args] == st[..|st| - 1 - args]
  {
    var c :- SfallMetarule(st, args);
    HandlerSeesScriptOrder(st, args);
    RunHandler(c, Lookup(st[|st| - 1 - args].s).value, env)
  }

  /**
   The handler receives the script's arguments in the order the script wrote them:
   a modelled metarule's result is its handler's value on `st[|st| - args..]`.
   */
  lemma {:induction false} MetaruleRunsHandlerOnScriptArgs(st: Stack, args: nat, env: Env)
    requires args <= MaxMetaruleArgs && SfallMetarule(st, args).Ok?
    requires Modelled(SfallMetarule(st, args).value.handler)
    ensures ArityFits(SfallMetarule(st, args).value.handler, args)
    ensures var h := SfallMetarule(st, args).value.handler;
            var below := st[..|st| - 1 - args];
            Metarule(st, args, env) == Push(HandlerValue(h, st[|st| - args..], env), below)
  {
    var row := Lookup(st[|st| - 1 - args].s).value;
    HandlerRow(row);
    HandlerSeesScriptOrder(st, args);
    var c := SfallMetarule(st, args).value;
    assert Metarule(st, args, env) == RunHandler(c, row, env);
  }

  /**
   A script that pushes a table name and then its arguments gets the row's handler
   run on those arguments in the order it pushed them.
   */
  lemma {:induction false} RowCall(probe: Stack, name: Bytes, argv: seq<Value>, i: nat, env: Env)
    requires i < MetaruleCount && name == TableRow(i).name && Modelled(TableRow(i).handler)
    requires TableRow(i).minArgs <= |argv| <= TableRow(i).maxArgs && |argv| <= MaxMetaruleArgs
    ensures ArityFits(TableRow(i).handler, |argv|)
    ensures Metarule(probe + [Str(name)] + argv, |argv|, env)
            == Push(HandlerValue(TableRow(i).handler, argv, env), probe)
  {
    var st := probe + [Str(name)] + argv;
    var args := |argv|;
    assert st[|st| - 1 - args] == Str(name) && st[..|st| - 1 - args] == probe && st[|st| - args..] == argv;
    KnownNameIsDispatched(st, args, i);
    MetaruleRunsHandlerOnScriptArgs(st, args, env);
  }

  /** The names of the two rows whose calls are worked through below. */
  const MetaruleExistName: Bytes := "metarule_exist"
  const StringFormatName: Bytes := "string_format"

  lemma ExistRow() ensures TableRow(13) == MetaruleInfo(MetaruleExistName, MetaruleExist, 1, 1) {}
  lemma FormatRow() ensures TableRow(22) == MetaruleInfo(StringFormatName, StringFormat, 2, 8) {}

  /** `metarule_exist` called from a script pushes whether the name is dispatchable. */
  lemma {:induction false} MetaruleExistCall(probe: Stack, name: Bytes, env: Env)
    ensures Metarule(probe + [Str(MetaruleExistName)] + [Str(name)], 1, env)
            == Ok(Returned(probe + [Int(Exists(name))], env.disk))
  {
    ExistRow();
    RowCall(probe, MetaruleExistName, [Str(name)], 13, env);
    assert HandlerValue(MetaruleExist, [Str(name)], env) == Ok((Int(Exists(name)), env.disk));
  }

  /**
   `metarule_exist` agrees with dispatch: it answers 1 exactly when dispatching the
   same name would not halt with "not implemented".
   */
  lemma {:induction false} ExistsAgreesWithDispatch(st: Stack, args: nat)
    requires args <= MaxMetaruleArgs && |st| > args && st[|st| - 1 - args].Str?
    ensures Exists(st[|st| - 1 - args].s) == 1
            <==> SfallMetarule(st, args) != Fatal(NotImplemented(st[|st| - 1 - args].s))
  {
  }

  /**
   `string_format` called from a script formats its template with the remaining
   arguments in the order the script wrote them.
   */
  lemma {:induction false} StringFormatCall(probe: Stack, fmt: Bytes, vals: seq<Value>, env: Env)
    requires 1 <= |vals| <= MaxMetaruleArgs - 1
    ensures Metarule(probe + [Str(StringFormatName)] + ([Str(fmt)] + vals), |vals| + 1, env)
            == Ok(Returned(probe + [Str(FormatLite.SprintfLite(fmt, vals, env.render))], env.disk))
  {
    var argv := [Str(fmt)] + vals;
    FormatRow();
    RowCall(probe, StringFormatName, argv, 22, env);
    assert HandlerValue(StringFormat, argv, env) == Ok((Str(FormatLite.SprintfLite(fmt, vals, env.render)), env.disk)) by {
      assert argv[1..] == vals;
    }
  }
}

=== FILE: format_lite.dfy ===
/**
 The safe format engine behind `string_format` and `sprintf`. A script-supplied
 template is scanned one character at a time; every conversion is rebuilt as a
 minimal single-conversion format (size prefixes dropped, `S`/`Z` narrowed to `s`,
 `n` and non-string `s` forced to `d`) and handed, with one selected argument, to
 the C library's formatter, whose rendering of a single conversion is the
 `render` parameter here: the full text, or `None` when `snprintf` returns a
 negative value. Output goes into a fixed 5120-byte buffer.

 The source adds the formatter's return value to its output pointer unchecked, so
 a failing conversion moves the pointer back before the buffer. `FeedRaw` models
 that loop as written and `FailedConversionWritesBeforeBuffer` exhibits the write
 before the buffer. `Feed`/`Finish` model the corrected loop, which skips a failed
 conversion; `SprintfLite` and everything built on it use that one. `Tokenize` and
 `Eval` give an independent reading of the same template as a list of directives,
 and `SprintfMatchesReference` proves the corrected loop agrees with it on every
 template.
 */
module FormatLite {
  import opened Values

  /** Templates longer than this are refused. */
  const MaxTemplate: int := 1024

  /** Size of the output buffer without its terminator (`char out[5120 + 1]`). */
  const OutCapacity: int := 5120

  /** At most seven values follow the template (`ProgramValue formatArgs[7]`). */
  const MaxFormatValues: int := 7

  const ErrorText: Bytes := "Error"
  const UnsupportedText: Bytes := "<UNSUPPORTED TYPE>"

  /** The C argument passed to the formatter for one conversion. */
  datatype Payload = FloatArg(bits: bv32) | IntArg(i: Int32) | StrArg(s: Bytes)

  /**
   The C library's rendering of one single-conversion format with one argument: the
   whole text `snprintf` would produce, or `None` when it returns a negative value
   (a width over `INT_MAX`, or a result longer than `INT_MAX`).
   */
  type Renderer = (Bytes, Payload) -> Option<Bytes>

  predicate IsLetter(c: Byte) {
    ('a' <= c <= 'z') || ('A' <= c <= 'Z')
  }

  /** Length modifiers the engine discards. */
  predicate IsSizePrefix(c: Byte) {
    c == 'h' || c == 'l' || c == 'j' || c == 'z' || c == 't' || c == 'w' || c == 'L' || c == 'I'
  }

  /** A character that closes a conversion: `%` or a letter other than a size prefix. */
  predicate Terminates(c: Byte) {
    (IsLetter(c) || c == '%') && !IsSizePrefix(c)
  }

  function PayloadOf(v: Value): (p: Payload)
    ensures v.Ptr? ==> p == StrArg(UnsupportedText)
    ensures v.Str? ==> p == StrArg(v.s)
  {
    match v
    case Float(b) => FloatArg(b)
    case Int(i) => IntArg(i)
    case Str(s) => StrArg(s)
    case Ptr(_) => StrArg(UnsupportedText)
  }

  /** The conversion character actually used for conversion character `c` applied to `arg`. */
  function Sanitize(c: Byte, arg: Value): (r: Byte)
    requires IsLetter(c) && !IsSizePrefix(c)
    ensures IsLetter(r) && !IsSizePrefix(r)
    ensures r != 'n' && r != 'S' && r != 'Z'
    ensures r == 's' ==> arg.Str?
    ensures (c == 's' || c == 'S' || c == 'Z') && arg.Str? ==> r == 's'
    ensures c == 'n' || ((c == 's' || c == 'S' || c == 'Z') && !arg.Str?) ==> r == 'd'
    ensures c != 'n' && c != 's' && c != 'S' && c != 'Z' ==> r == c
  {
    var narrowed := if c == 'S' || c == 'Z' then 's' else c;
    if (narrowed == 's' && !arg.Str?) || narrowed == 'n' then 'd' else narrowed
  }

  /**
   Which popped value the `k`-th value conversion reads when the call carried
   `numArgs` arguments in all (the template counts as one): the `k`-th value, or the
   last one once they run out.
   */
  function ArgIndex(k: nat, numArgs: nat): (r: nat)
    requires k >= 1 && numArgs >= 2
    ensures r < numArgs - 1
    ensures k <= numArgs - 1 ==> r == k - 1
    ensures k > numArgs - 1 ==> r == numArgs - 2
  {
    if k - 1 < numArgs - 2 then k - 1 else numArgs - 2
  }

  /** The first `n` bytes of `p`, or all of it when it is shorter. */
  function Take(p: Bytes, n: int): (r: Bytes)
    requires n >= 0
    ensures |r| == if |p| <= n then |p| else n
    ensures r == p[..|r|]
  {
    if |p| <= n then p else p[..n]
  }

  /** What a reader of a NUL-terminated buffer sees: the bytes before the first NUL. */
  function CPrefix(b: Bytes): (r: Bytes)
    ensures |r| <= |b| && r == b[..|r|]
    ensures forall i :: 0 <= i < |r| ==> r[i] != '\0'
    ensures |r| < |b| ==> b[|r|] == '\0'
  {
    if b == [] || b[0] == '\0' then [] else [b[0]] + CPrefix(b[1..])
  }

  // ---------------------------------------------------------------------------
  // The character-level machine of the source loop
  // ---------------------------------------------------------------------------

  /**
   Loop state. The pending format buffer `newFmt` is `lit + spec`: `lit` holds the
   literal text since the last conversion, `spec` the open conversion (`%` plus the
   flag characters kept so far, empty outside a conversion). `used` counts value
   conversions, `out` is the text written so far and `room` is `bufCount`.
   */
  datatype Scan = Scan(conversion: bool, lit: Bytes, spec: Bytes, used: nat, out: Bytes, room: int)

  const Start: Scan := Scan(false, [], [], 0, [], OutCapacity)

  /**
   Writes one piece into the buffer as `snprintf`/`strncpy` do: at most `room - 1`
   bytes land, while `room` shrinks by the piece's full length.
   */
  function Emit(s: Scan, piece: Bytes, used: nat): Scan
    requires s.room > 0
  {
    Scan(false, [], [], used, s.out + Take(piece, s.room - 1), s.room - |piece|)
  }

  /**
   What one template character does to the pending format `lit + spec`: it is
   absorbed, it closes an escaped `%` whose text is copied with `strncpy`, or it
   closes a value conversion handed to `snprintf`, whose text is `None` when the
   formatter fails.
   */
  datatype Move =
    | Absorb(conversion: bool, lit: Bytes, spec: Bytes)
    | Copy(piece: Bytes)
    | Formatted(result: Option<Bytes>)

  /** The character handling shared by the loop as written and the corrected loop. */
  function ReadChar(conversion: bool, lit: Bytes, spec: Bytes, used: nat, c: Byte,
                    values: seq<Value>, render: Renderer): Move
    requires 1 <= |values|
  {
    if !conversion then
      if c == '%' then Absorb(true, lit, ['%']) else Absorb(false, lit + [c], spec)
    else if !(IsLetter(c) || c == '%') then
      Absorb(true, lit, spec + [c])
    else if c == '%' then
      Copy(lit + spec)
    else if IsSizePrefix(c) then
      Absorb(true, lit, spec)
    else
      var arg := values[ArgIndex(used + 1, |values| + 1)];
      var text := render(spec + [Sanitize(c, arg)], PayloadOf(arg));
      Formatted(if text.Some? then Some(lit + text.value) else None)
  }

  /** One loop iteration of the corrected loop: a failed conversion writes nothing and leaves the room as it was. */
  function Step(s: Scan, c: Byte, values: seq<Value>, render: Renderer): Scan
    requires 1 <= |values|
    requires s.room > 0
  {
    match ReadChar(s.conversion, s.lit, s.spec, s.used, c, values, render)
    case Absorb(cv, l, sp) => s.(conversion := cv, lit := l, spec := sp)
    case Copy(piece) => Emit(s, piece, s.used)
    case Formatted(piece) =>
      if piece.Some? then Emit(s, piece.value, s.used + 1)
      else Scan(false, [], [], s.used + 1, s.out, s.room)
  }

  /** Runs the loop over `rest`; it stops as soon as the buffer has no room left. */
  function Feed(rest: Bytes, s: Scan, values: seq<Value>, render: Renderer): Scan
    requires 1 <= |values|
    decreases |rest|
  {
    if rest == [] || s.room <= 0 then s
    else Feed(rest[1..], Step(s, rest[0], values, render), values, render)
  }

  /** After the loop: the pending text, an unfinished conversion included, is copied as far as it fits. */
  function Finish(s: Scan): Bytes {
    if s.room > 0 then s.out + Take(s.lit + s.spec, s.room - 1) else s.out
  }

  /**
   `sprintf_lite` on template `fmt` and the values popped after it, in script order.
   */
  function SprintfLite(fmt: Bytes, values: seq<Value>, render: Renderer): (r: Bytes)
    requires 1 <= |values| <= MaxFormatValues
    ensures |fmt| == 0 ==> r == []
    ensures |fmt| > MaxTemplate ==> r == ErrorText
    ensures |r| < OutCapacity
    ensures forall i :: 0 <= i < |r| ==> r[i] != '\0'
  {
    if |fmt| == 0 then []
    else if |fmt| > MaxTemplate then ErrorText
    else
      FeedKeepsBudget(fmt, Start, values, render);
      CPrefix(Finish(Feed(fmt, Start, values, render)))
  }

  /**
   How full the buffer is: while there is room, written bytes and room add up to the
   capacity; once room is gone, exactly `OutCapacity - 1` bytes were written.
   */
  predicate Budget(s: Scan) {
    && (s.room > 0 ==> |s.out| + s.room == OutCapacity)
    && (s.room <= 0 ==> |s.out| == OutCapacity - 1)
  }

  lemma StepKeepsBudget(s: Scan, c: Byte, values: seq<Value>, render: Renderer)
    requires 1 <= |values| && s.room > 0 && Budget(s)
    ensures Budget(Step(s, c, values, render))
  {
  }

  lemma {:induction false} FeedKeepsBudget(rest: Bytes, s: Scan, values: seq<Value>, render: Renderer)
    requires 1 <= |values| && Budget(s)
    ensures Budget(Feed(rest, s, values, render))
    ensures |Finish(Feed(rest, s, values, render))| < OutCapacity
    decreases |rest|
  {
    if rest != [] && s.room > 0 {
      StepKeepsBudget(s, rest[0], values, render);
      FeedKeepsBudget(rest[1..], Step(s, rest[0], values, render), values, render);
    }
  }

  /** Once the buffer is full nothing further is scanned or written. */
  lemma FeedStopsWhenFull(rest: Bytes, s: Scan, values: seq<Value>, render: Renderer)
    requires 1 <= |values| && s.room <= 0
    ensures Feed(rest, s, values, render) == s
    ensures Finish(s) == s.out
  {
  }

  /** The pending format never holds more bytes than were scanned, so `newFmt` cannot overflow. */
  lemma {:induction false} PendingFitsScratch(rest: Bytes, s: Scan, n: nat, values: seq<Value>, render: Renderer)
    requires 1 <= |values| && |s.lit| + |s.spec| <= n
    ensures |Feed(rest, s, values, render).lit| + |Feed(rest, s, values, render).spec| <= n + |rest|
    decreases |rest|
  {
    if rest != [] && s.room > 0 {
      PendingFitsScratch(rest[1..], Step(s, rest[0], values, render), n + 1, values, render);
    }
  }

  // ---------------------------------------------------------------------------
  // The loop as written: the pointer moves by the formatter's return value
  // ---------------------------------------------------------------------------

  /** Memory around the output buffer, by offset from `out`; an address never written holds NUL. */
  type Memory = map<int, Byte>

  function ByteAt(mem: Memory, a: int): Byte {
    if a in mem then mem[a] else '\0'
  }

  /** `mem` with the bytes of `w` stored from address `at` on. */
  function Store(mem: Memory, at: int, w: Bytes): (r: Memory)
    ensures forall i :: 0 <= i < |w| ==> ByteAt(r, at + i) == w[i]
    ensures forall a :: (a < at || at + |w| <= a) ==> ByteAt(r, a) == ByteAt(mem, a)
    decreases |w|
  {
    if w == [] then mem else Store(mem[at := w[0]], at + 1, w[1..])
  }

  /** The C string a reader finds at address `a`, looking at no more than `n` bytes. */
  function ReadString(mem: Memory, a: int, n: nat): (r: Bytes)
    ensures |r| <= n
    ensures forall i :: 0 <= i < |r| ==> r[i] == ByteAt(mem, a + i) && r[i] != '\0'
    ensures |r| < n ==> ByteAt(mem, a + |r|) == '\0'
    decreases n
  {
    if n == 0 || ByteAt(mem, a) == '\0' then [] else [ByteAt(mem, a)] + ReadString(mem, a + 1, n - 1)
  }

  /**
   Loop state as the source keeps it: the pending format as in `Scan`, `pos` is
   `outBuf - out`, `room` is `bufCount`, and `mem` is what has been stored.
   */
  datatype Raw = Raw(conversion: bool, lit: Bytes, spec: Bytes, used: nat, pos: int, room: int, mem: Memory)

  const RawStart: Raw := Raw(false, [], [], 0, 0, OutCapacity, map[])

  /** `outBuf += partLen; bufCount -= partLen;` and the pending format cleared. */
  function Advance(r: Raw, mem: Memory, partLen: int, used: nat): Raw {
    Raw(false, [], [], used, r.pos + partLen, r.room - partLen, mem)
  }

  /**
   One iteration of the source loop as written. `strncpy` stores at most `room - 1`
   bytes without a terminator, `snprintf` stores as much followed by NUL and returns
   the full length, and a failing `snprintf` (taken to store nothing) returns -1,
   which moves the pointer back.
   */
  function StepRaw(r: Raw, c: Byte, values: seq<Value>, render: Renderer): Raw
    requires 1 <= |values|
    requires r.room > 0
  {
    match ReadChar(r.conversion, r.lit, r.spec, r.used, c, values, render)
    case Absorb(cv, l, sp) => r.(conversion := cv, lit := l, spec := sp)
    case Copy(piece) => Advance(r, Store(r.mem, r.pos, Take(piece, r.room - 1)), |piece|, r.used)
    case Formatted(piece) =>
      if piece.Some? then
        Advance(r, Store(r.mem, r.pos, Take(piece.value, r.room - 1) + ['\0']), |piece.value|, r.used + 1)
      else Advance(r, r.mem, -1, r.used + 1)
  }

  function FeedRaw(rest: Bytes, r: Raw, values: seq<Value>, render: Renderer): Raw
    requires 1 <= |values|
    decreases |rest|
  {
    if rest == [] || r.room <= 0 then r
    else FeedRaw(rest[1..], StepRaw(r, rest[0], values, render), values, render)
  }

  /** The remainder copy: the pending text and a terminator, as far as they fit. */
  function FinishRaw(r: Raw): Memory {
    if r.room > 0 then Store(r.mem, r.pos, Take(r.lit + r.spec, r.room - 1) + ['\0']) else r.mem
  }

  /** `sprintf_lite` as written: the string pushed is read from `out`, which holds 5121 bytes. */
  function SprintfLiteAsWritten(fmt: Bytes, values: seq<Value>, render: Renderer): (r: Bytes)
    requires 1 <= |values| <= MaxFormatValues
    ensures |fmt| == 0 ==> r == []
    ensures |fmt| > MaxTemplate ==> r == ErrorText
    ensures |r| <= OutCapacity + 1
    ensures forall i :: 0 <= i < |r| ==> r[i] != '\0'
  {
    if |fmt| == 0 then []
    else if |fmt| > MaxTemplate then ErrorText
    else ReadString(FinishRaw(FeedRaw(fmt, RawStart, values, render)), 0, OutCapacity + 1)
  }

  /**
   The source keeps `outBuf + bufCount` at the end of the buffer whatever the
   formatter returns, so a room above `OutCapacity` is a pointer before `out`.
   */
  lemma {:induction false} FeedRawKeepsEnd(rest: Bytes, r: Raw, values: seq<Value>, render: Renderer)
    requires 1 <= |values|
    ensures FeedRaw(rest, r, values, render).pos + FeedRaw(rest, r, values, render).room == r.pos + r.room
    decreases |rest|
  {
    if rest != [] && r.room > 0 {
      FeedRawKeepsEnd(rest[1..], StepRaw(r, rest[0], values, render), values, render);
    }
  }

  predicate Digits(a: Bytes) {
    forall i :: 0 <= i < |a| ==> '0' <= a[i] <= '9'
  }

  lemma FeedRawCons(c: Byte, rest: Bytes, r: Raw, values: seq<Value>, render: Renderer)
    requires 1 <= |values| && r.room > 0
    ensures FeedRaw([c] + rest, r, values, render) == FeedRaw(rest, StepRaw(r, c, values, render), values, render)
  {
    assert ([c] + rest)[0] == c && ([c] + rest)[1..] == rest;
  }

  /** Inside a conversion the loop as written keeps width digits in the pending format. */
  lemma {:induction false} FeedRawDigits(a: Bytes, b: Bytes, r: Raw, values: seq<Value>, render: Renderer)
    requires 1 <= |values| && r.conversion && r.room > 0 && Digits(a)
    ensures FeedRaw(a + b, r, values, render) == FeedRaw(b, r.(spec := r.spec + a), values, render)
    decreases |a|
  {
    if a == [] {
      assert a + b == b && r.spec + a == r.spec;
    } else {
      assert a + b == [a[0]] + (a[1..] + b);
      FeedRawCons(a[0], a[1..] + b, r, values, render);
      assert Digits(a[1..]) by {
        assert forall i :: 0 <= i < |a| - 1 ==> a[1..][i] == a[i + 1];
      }
      assert r.spec + a == (r.spec + [a[0]]) + a[1..];
      FeedRawDigits(a[1..], b, r.(spec := r.spec + [a[0]]), values, render);
    }
  }

  /** Outside a conversion the loop as written collects literal text. */
  lemma {:induction false} FeedRawLiteral(a: Bytes, r: Raw, values: seq<Value>, render: Renderer)
    requires 1 <= |values| && !r.conversion && r.room > 0 && LiteralText(a)
    ensures FeedRaw(a, r, values, render) == r.(lit := r.lit + a)
    decreases |a|
  {
    if a != [] {
      assert a == [a[0]] + a[1..];
      FeedRawCons(a[0], a[1..], r, values, render);
      assert r.lit + a == (r.lit + [a[0]]) + a[1..];
      FeedRawLiteral(a[1..], r.(lit := r.lit + [a[0]]), values, render);
    }
  }

  /** Width digits survive cleaning. */
  lemma {:induction false} CleanDigits(a: Bytes)
    requires Digits(a)
    ensures Clean(a) == a
    decreases |a|
  {
    if a != [] {
      assert Digits(a[1..]) by {
        assert forall i :: 0 <= i < |a| - 1 ==> a[1..][i] == a[i + 1];
      }
      CleanDigits(a[1..]);
    }
  }

  /** `%<w>d`: a conversion with width digits `w`. */
  function WidthSpec(w: Bytes): Bytes {
    ['%'] + w + ['d']
  }

  /** `%<w>d` followed by literal text `t`. */
  function WidthTemplate(w: Bytes, t: Bytes): Bytes {
    WidthSpec(w) + t
  }

  /**
   What the worked example needs of `w` and `t`: `w` is width digits, `t` is
   non-empty literal text without NUL, and the template is short enough to be
   formatted.
   */
  predicate WidthExample(w: Bytes, t: Bytes) {
    && Digits(w)
    && LiteralText(t) && 0 < |t|
    && (forall i :: 0 <= i < |t| ==> t[i] != '\0')
    && |w| + |t| + 2 <= MaxTemplate
  }

  lemma WidthTemplateCut(w: Bytes, t: Bytes)
    ensures WidthTemplate(w, t) == ['%'] + (w + (['d'] + t))
    ensures |WidthTemplate(w, t)| == |w| + |t| + 2
  {
  }

  /** The conversion character of the worked example reaches the formatter unchanged. */
  lemma ConversionD()
    ensures IsLetter('d') && !IsSizePrefix('d') && Sanitize('d', Int(1)) == 'd'
    ensures ArgIndex(1, 2) == 0 && PayloadOf(Int(1)) == IntArg(1)
  {
  }

  /** The failing conversion as written: nothing stored, pointer and room moved by -1. */
  lemma WidthStepRaw(w: Bytes, r: Raw, render: Renderer)
    requires render(WidthSpec(w), IntArg(1)) == None
    requires r == Raw(true, [], ['%'] + w, 0, 0, OutCapacity, map[])
    ensures StepRaw(r, 'd', [Int(1)], render) == Raw(false, [], [], 1, -1, OutCapacity + 1, map[])
  {
    ConversionD();
    assert r.spec + [Sanitize('d', Int(1))] == WidthSpec(w);
    assert ReadChar(r.conversion, r.lit, r.spec, r.used, 'd', [Int(1)], render) == Formatted(None);
  }

  lemma WidthRawOpen(x: Bytes, render: Renderer)
    ensures FeedRaw(['%'] + x, RawStart, [Int(1)], render)
         == FeedRaw(x, RawStart.(conversion := true, spec := ['%']), [Int(1)], render)
  {
    FeedRawCons('%', x, RawStart, [Int(1)], render);
  }

  lemma WidthRawDigits(w: Bytes, y: Bytes, render: Renderer)
    requires Digits(w)
    ensures FeedRaw(w + y, RawStart.(conversion := true, spec := ['%']), [Int(1)], render)
         == FeedRaw(y, Raw(true, [], ['%'] + w, 0, 0, OutCapacity, map[]), [Int(1)], render)
  {
    var r1 := RawStart.(conversion := true, spec := ['%']);
    FeedRawDigits(w, y, r1, [Int(1)], render);
    assert r1.(spec := r1.spec + w) == Raw(true, [], ['%'] + w, 0, 0, OutCapacity, map[]);
  }

  lemma WidthRawClose(w: Bytes, z: Bytes, render: Renderer)
    requires render(WidthSpec(w), IntArg(1)) == None
    ensures FeedRaw(['d'] + z, Raw(true, [], ['%'] + w, 0, 0, OutCapacity, map[]), [Int(1)], render)
         == FeedRaw(z, Raw(false, [], [], 1, -1, OutCapacity + 1, map[]), [Int(1)], render)
  {
    var r2 := Raw(true, [], ['%'] + w, 0, 0, OutCapacity, map[]);
    FeedRawCons('d', z, r2, [Int(1)], render);
    WidthStepRaw(w, r2, render);
  }

  /** The loop as written ends with `t` pending and the pointer one byte before `out`. */
  lemma WidthFeedRaw(w: Bytes, t: Bytes, render: Renderer)
    requires WidthExample(w, t) && render(WidthSpec(w), IntArg(1)) == None
    ensures FeedRaw(WidthTemplate(w, t), RawStart, [Int(1)], render)
         == Raw(false, t, [], 1, -1, OutCapacity + 1, map[])
  {
    var r3 := Raw(false, [], [], 1, -1, OutCapacity + 1, map[]);
    WidthTemplateCut(w, t);
    WidthRawOpen(w + (['d'] + t), render);
    WidthRawDigits(w, ['d'] + t, render);
    WidthRawClose(w, t, render);
    FeedRawLiteral(t, r3, [Int(1)], render);
    assert r3.lit + t == t;
  }

  /** A NUL-free `w` stored with a terminator at `a` reads back as `w`. */
  lemma {:induction false} ReadsBack(mem: Memory, a: int, w: Bytes, n: nat)
    requires |w| < n
    requires forall i :: 0 <= i < |w| ==> w[i] != '\0' && ByteAt(mem, a + i) == w[i]
    requires ByteAt(mem, a + |w|) == '\0'
    ensures ReadString(mem, a, n) == w
    decreases |w|
  {
    if w != [] {
      assert ByteAt(mem, a + 0) == w[0];
      forall i | 0 <= i < |w| - 1
        ensures w[1..][i] != '\0' && ByteAt(mem, a + 1 + i) == w[1..][i]
      {
        assert ByteAt(mem, a + (i + 1)) == w[i + 1];
      }
      ReadsBack(mem, a + 1, w[1..], n - 1);
    }
  }

  /** The remainder copy as written stores `t` from `out[-1]`; a reader of `out` sees `t` without its first byte. */
  lemma WidthFinishRaw(t: Bytes)
    requires 0 < |t| < OutCapacity && forall i :: 0 <= i < |t| ==> t[i] != '\0'
    ensures ByteAt(FinishRaw(Raw(false, t, [], 1, -1, OutCapacity + 1, map[])), -1) == t[0]
    ensures ReadString(FinishRaw(Raw(false, t, [], 1, -1, OutCapacity + 1, map[])), 0, OutCapacity + 1) == t[1..]
  {
    var w := t + ['\0'];
    var mem := Store(map[], -1, w);
    assert Take(t + [], OutCapacity) == t;
    assert FinishRaw(Raw(false, t, [], 1, -1, OutCapacity + 1, map[])) == mem;
    assert ByteAt(mem, -1 + 0) == w[0];
    forall i | 0 <= i < |t| - 1
      ensures t[1..][i] != '\0' && ByteAt(mem, 0 + i) == t[1..][i]
    {
      assert ByteAt(mem, -1 + (i + 1)) == w[i + 1];
    }
    assert ByteAt(mem, -1 + |t|) == w[|t|];
    ReadsBack(mem, 0, t[1..], OutCapacity + 1);
  }

  /** The failing conversion in the corrected loop: skipped, nothing written. */
  lemma WidthStep(w: Bytes, s: Scan, render: Renderer)
    requires render(WidthSpec(w), IntArg(1)) == None
    requires s == Scan(true, [], ['%'] + w, 0, [], OutCapacity)
    ensures Step(s, 'd', [Int(1)], render) == Scan(false, [], [], 1, [], OutCapacity)
  {
    ConversionD();
    assert s.spec + [Sanitize('d', Int(1))] == WidthSpec(w);
    assert ReadChar(s.conversion, s.lit, s.spec, s.used, 'd', [Int(1)], render) == Formatted(None);
  }

  lemma WidthOpen(x: Bytes, render: Renderer)
    ensures Feed(['%'] + x, Start, [Int(1)], render)
         == Feed(x, Start.(conversion := true, spec := ['%']), [Int(1)], render)
  {
    FeedCons('%', x, Start, [Int(1)], render);
  }

  lemma WidthDigits(w: Bytes, y: Bytes, render: Renderer)
    requires Digits(w)
    ensures Feed(w + y, Start.(conversion := true, spec := ['%']), [Int(1)], render)
         == Feed(y, Scan(true, [], ['%'] + w, 0, [], OutCapacity), [Int(1)], render)
  {
    var s1 := Start.(conversion := true, spec := ['%']);
    assert FlagText(w) by {
      assert forall i :: 0 <= i < |w| ==> '0' <= w[i] <= '9';
    }
    FeedConcat(w, y, s1, [Int(1)], render);
    FeedFlags(w, s1, [Int(1)], render);
    CleanDigits(w);
    assert s1.(spec := s1.spec + Clean(w)) == Scan(true, [], ['%'] + w, 0, [], OutCapacity);
  }

  lemma WidthClose(w: Bytes, z: Bytes, render: Renderer)
    requires render(WidthSpec(w), IntArg(1)) == None
    ensures Feed(['d'] + z, Scan(true, [], ['%'] + w, 0, [], OutCapacity), [Int(1)], render)
         == Feed(z, Scan(false, [], [], 1, [], OutCapacity), [Int(1)], render)
  {
    var s2 := Scan(true, [], ['%'] + w, 0, [], OutCapacity);
    FeedCons('d', z, s2, [Int(1)], render);
    WidthStep(w, s2, render);
  }

  /** The corrected loop skips the conversion and ends with `t` pending and nothing written. */
  lemma WidthFeed(w: Bytes, t: Bytes, render: Renderer)
    requires WidthExample(w, t) && render(WidthSpec(w), IntArg(1)) == None
    ensures Feed(WidthTemplate(w, t), Start, [Int(1)], render) == Scan(false, t, [], 1, [], OutCapacity)
  {
    var s3 := Scan(false, [], [], 1, [], OutCapacity);
    WidthTemplateCut(w, t);
    WidthOpen(w + (['d'] + t), render);
    WidthDigits(w, ['d'] + t, render);
    WidthClose(w, t, render);
    FeedLiteral(t, s3, [Int(1)], render);
    assert s3.(lit := s3.lit + t) == Scan(false, t, [], 1, [], OutCapacity);
  }

  /** When the loop ends with only literal text pending and nothing written, that text is the result. */
  lemma SprintfLitePending(fmt: Bytes, t: Bytes, used: nat, values: seq<Value>, render: Renderer)
    requires 1 <= |values| <= MaxFormatValues && 0 < |fmt| <= MaxTemplate && |t| < OutCapacity
    requires forall i :: 0 <= i < |t| ==> t[i] != '\0'
    requires Feed(fmt, Start, values, render) == Scan(false, t, [], used, [], OutCapacity)
    ensures SprintfLite(fmt, values, render) == t
  {
    SprintfLiteRuns(fmt, values, render);
    assert Finish(Scan(false, t, [], used, [], OutCapacity)) == t;
    NoNulPrefix(t);
  }

  /** A template of acceptable length goes through the loop. */
  lemma SprintfLiteRuns(fmt: Bytes, values: seq<Value>, render: Renderer)
    requires 1 <= |values| <= MaxFormatValues && 0 < |fmt| <= MaxTemplate
    ensures SprintfLite(fmt, values, render) == CPrefix(Finish(Feed(fmt, Start, values, render)))
  {
  }

  /**
   `string_format("%<w>d<t>", 1)` when the formatter fails on `%<w>d` (glibc and musl
   return -1 for a width over `INT_MAX`, as in `%2147483648d`). As written, the
   pointer ends before `out` with `bufCount` above the buffer's size, the remainder
   copy stores the first byte of `t` at `out[-1]`, and the script receives `t`
   without it. The corrected loop skips the conversion and gives `t`.
   */
  lemma FailedConversionWritesBeforeBuffer(w: Bytes, t: Bytes, render: Renderer)
    requires WidthExample(w, t) && render(WidthSpec(w), IntArg(1)) == None
    ensures FeedRaw(WidthTemplate(w, t), RawStart, [Int(1)], render).pos == -1
    ensures FeedRaw(WidthTemplate(w, t), RawStart, [Int(1)], render).room > OutCapacity
    ensures ByteAt(FinishRaw(FeedRaw(WidthTemplate(w, t), RawStart, [Int(1)], render)), -1) == t[0]
    ensures SprintfLiteAsWritten(WidthTemplate(w, t), [Int(1)], render) == t[1..]
    ensures SprintfLite(WidthTemplate(w, t), [Int(1)], render) == t
  {
    WidthTemplateCut(w, t);
    WidthFeedRaw(w, t, render);
    WidthFinishRaw(t);
    WidthFeed(w, t, render);
    SprintfLitePending(WidthTemplate(w, t), t, 1, [Int(1)], render);
  }

  /** The width of the worked example in the source's terms: one more than `INT_MAX`. */
  const OverflowWidth: Bytes := "2147483648"

  /** `string_format("%2147483648dXY", 1)`: the script receives `Y` as written and `XY` once corrected. */
  lemma OverflowWidthExample(render: Renderer)
    requires render(WidthSpec(OverflowWidth), IntArg(1)) == None
    ensures SprintfLiteAsWritten(WidthTemplate(OverflowWidth, "XY"), [Int(1)], render) == "Y"
    ensures SprintfLite(WidthTemplate(OverflowWidth, "XY"), [Int(1)], render) == "XY"
  {
    assert Digits(OverflowWidth);
    assert LiteralText("XY") && "XY"[1..] == "Y";
    FailedConversionWritesBeforeBuffer(OverflowWidth, "XY", render);
  }

  // ---------------------------------------------------------------------------
  // Reference reading: the template as a list of directives
  // ---------------------------------------------------------------------------

  /** Literal text `lit`, then `%`, flag characters `flags`, and closing character `conv`. */
  datatype Directive = Directive(lit: Bytes, flags: Bytes, conv: Byte)

  /**
   A template cut into directives and a tail: literal text, followed by an unfinished
   conversion's flags when the template ends inside one.
   */
  datatype Template = Template(directives: seq<Directive>, tailLit: Bytes, tailOpen: Option<Bytes>)

  predicate LiteralText(s: Bytes) {
    forall i :: 0 <= i < |s| ==> s[i] != '%'
  }

  predicate FlagText(s: Bytes) {
    forall i :: 0 <= i < |s| ==> !Terminates(s[i])
  }

  predicate WellFormedDirective(d: Directive) {
    LiteralText(d.lit) && FlagText(d.flags) && Terminates(d.conv)
  }

  predicate WellFormed(t: Template) {
    && (forall i :: 0 <= i < |t.directives| ==> WellFormedDirective(t.directives[i]))
    && LiteralText(t.tailLit)
    && (t.tailOpen.Some? ==> FlagText(t.tailOpen.value))
  }

  function DirectiveText(d: Directive): Bytes {
    d.lit + ['%'] + d.flags + [d.conv]
  }

  function DirectivesText(ds: seq<Directive>): Bytes {
    if ds == [] then [] else DirectiveText(ds[0]) + DirectivesText(ds[1..])
  }

  function TailText(t: Template): Bytes {
    t.tailLit + (if t.tailOpen.Some? then ['%'] + t.tailOpen.value else [])
  }

  function Untokenize(t: Template): Bytes {
    DirectivesText(t.directives) + TailText(t)
  }

  /** Position of the first `%` at or after `from`, or `|f|`. */
  function NextPercent(f: Bytes, from: nat): (r: nat)
    requires from <= |f|
    ensures from <= r <= |f|
    ensures r < |f| ==> f[r] == '%'
    ensures forall j :: from <= j < r ==> f[j] != '%'
    decreases |f| - from
  {
    if from == |f| || f[from] == '%' then from else NextPercent(f, from + 1)
  }

  /** Position of the first closing character at or after `from`, or `|f|`. */
  function NextTerminator(f: Bytes, from: nat): (r: nat)
    requires from <= |f|
    ensures from <= r <= |f|
    ensures r < |f| ==> Terminates(f[r])
    ensures forall j :: from <= j < r ==> !Terminates(f[j])
    decreases |f| - from
  {
    if from == |f| || Terminates(f[from]) then from else NextTerminator(f, from + 1)
  }

  function Tokenize(f: Bytes): Template
    decreases |f|
  {
    var k := NextPercent(f, 0);
    if k == |f| then Template([], f, None)
    else
      var m := NextTerminator(f, k + 1);
      if m == |f| then Template([], f[..k], Some(f[k + 1..]))
      else
        var rest := Tokenize(f[m + 1..]);
        Template([Directive(f[..k], f[k + 1..m], f[m])] + rest.directives, rest.tailLit, rest.tailOpen)
  }

  /** The flag characters that reach the formatter: size prefixes removed. */
  function Clean(flags: Bytes): (r: Bytes)
    ensures |r| <= |flags|
    ensures forall i :: 0 <= i < |r| ==> !IsSizePrefix(r[i]) && r[i] in flags
    ensures forall i :: 0 <= i < |flags| && !IsSizePrefix(flags[i]) ==> flags[i] in r
  {
    if flags == [] then []
    else if IsSizePrefix(flags[0]) then Clean(flags[1..])
    else [flags[0]] + Clean(flags[1..])
  }

  /** One flag character survives exactly when it is not a size prefix. */
  lemma CleanOne(c: Byte)
    ensures Clean([c]) == if IsSizePrefix(c) then [] else [c]
  {
    assert [c][1..] == [];
  }

  /**
   Cleaning works character by character: it distributes over concatenation, so
   together with `CleanOne` it keeps the surviving flags in their order and count.
   */
  lemma {:induction false} CleanAppend(a: Bytes, b: Bytes)
    ensures Clean(a + b) == Clean(a) + Clean(b)
    decreases |a|
  {
    if a == [] {
      assert a + b == b;
    } else {
      assert (a + b)[1..] == a[1..] + b;
      CleanAppend(a[1..], b);
    }
  }

  /**
   The single-conversion format handed to the formatter for directive `d` with
   argument `arg`: one `%`, then flag characters that are neither letters nor `%`,
   then one sanitised conversion letter.
   */
  function ConversionSpec(d: Directive, arg: Value): (spec: Bytes)
    requires WellFormedDirective(d) && d.conv != '%'
    ensures |spec| >= 2 && spec[0] == '%'
    ensures forall i :: 0 < i < |spec| ==> spec[i] != '%'
    ensures forall i :: 0 < i < |spec| - 1 ==> !IsLetter(spec[i])
    ensures IsLetter(spec[|spec| - 1]) && !IsSizePrefix(spec[|spec| - 1])
    ensures spec[|spec| - 1] !in "nSZ"
    ensures spec[|spec| - 1] == 's' ==> arg.Str?
    ensures spec[1..|spec| - 1] == Clean(d.flags)
    ensures spec[|spec| - 1] == Sanitize(d.conv, arg)
  {
    var cleaned := Clean(d.flags);
    assert forall i :: 0 <= i < |cleaned| ==> cleaned[i] in d.flags;
    ['%'] + cleaned + [Sanitize(d.conv, arg)]
  }

  /** Output sink of the reference reading. */
  datatype Sink = Sink(used: nat, out: Bytes, room: int)

  function Apply(d: Directive, k: Sink, values: seq<Value>, render: Renderer): Sink
    requires 1 <= |values| && k.room > 0 && WellFormedDirective(d)
  {
    if d.conv == '%' then
      var piece := d.lit + ['%'] + Clean(d.flags);
      Sink(k.used, k.out + Take(piece, k.room - 1), k.room - |piece|)
    else
      var arg := values[ArgIndex(k.used + 1, |values| + 1)];
      var text := render(ConversionSpec(d, arg), PayloadOf(arg));
      if text.None? then Sink(k.used + 1, k.out, k.room)
      else
        var piece := d.lit + text.value;
        Sink(k.used + 1, k.out + Take(piece, k.room - 1), k.room - |piece|)
  }

  function Eval(ds: seq<Directive>, k: Sink, values: seq<Value>, render: Renderer): Sink
    requires 1 <= |values|
    requires forall i :: 0 <= i < |ds| ==> WellFormedDirective(ds[i])
    decreases |ds|
  {
    if ds == [] || k.room <= 0 then k
    else Eval(ds[1..], Apply(ds[0], k, values, render), values, render)
  }

  function TailPiece(t: Template): Bytes {
    t.tailLit + (if t.tailOpen.Some? then ['%'] + Clean(t.tailOpen.value) else [])
  }

  /** The engine read directive by directive. */
  function Reference(fmt: Bytes, values: seq<Value>, render: Renderer): Bytes
    requires 1 <= |values|
  {
    if |fmt| == 0 then []
    else if |fmt| > MaxTemplate then ErrorText
    else
      var t := Tokenize(fmt);
      TokenizeRoundTrip(fmt);
      var k := Eval(t.directives, Sink(0, [], OutCapacity), values, render);
      CPrefix(if k.room > 0 then k.out + Take(TailPiece(t), k.room - 1) else k.out)
  }

  // ---------------------------------------------------------------------------
  // Tokenizing is lossless and unique
  // ---------------------------------------------------------------------------

  lemma DirectivesTextCons(d: Directive, ds: seq<Directive>)
    ensures DirectivesText([d] + ds) == DirectiveText(d) + DirectivesText(ds)
  {
    assert ([d] + ds)[0] == d && ([d] + ds)[1..] == ds;
  }

  /** The first directive Tokenize cuts off, and what it leaves to tokenize. */
  lemma TokenizeFront(f: Bytes, k: nat, m: nat)
    requires k == NextPercent(f, 0) < |f|
    requires m == NextTerminator(f, k + 1) < |f|
    ensures WellFormedDirective(Directive(f[..k], f[k + 1..m], f[m]))
    ensures f == DirectiveText(Directive(f[..k], f[k + 1..m], f[m])) + f[m + 1..]
    ensures Tokenize(f).directives == [Directive(f[..k], f[k + 1..m], f[m])] + Tokenize(f[m + 1..]).directives
    ensures Tokenize(f).tailLit == Tokenize(f[m + 1..]).tailLit
    ensures Tokenize(f).tailOpen == Tokenize(f[m + 1..]).tailOpen
  {
    var d := Directive(f[..k], f[k + 1..m], f[m]);
    assert LiteralText(d.lit) by {
      forall i | 0 <= i < k ensures d.lit[i] != '%' {
        assert d.lit[i] == f[i];
      }
    }
    assert FlagText(d.flags) by {
      forall i | 0 <= i < |d.flags| ensures !Terminates(d.flags[i]) {
        assert d.flags[i] == f[k + 1 + i];
      }
    }
    assert f == DirectiveText(d) + f[m + 1..] by {
      assert f[k] == '%';
      assert f == f[..k] + ['%'] + f[k + 1..m] + [f[m]] + f[m + 1..];
    }
    var rest := Tokenize(f[m + 1..]);
    assert Tokenize(f) == Template([d] + rest.directives, rest.tailLit, rest.tailOpen);
  }

  /** A template without `%` is all literal text. */
  lemma TokenizePlain(f: Bytes)
    requires NextPercent(f, 0) == |f|
    ensures WellFormed(Tokenize(f)) && Untokenize(Tokenize(f)) == f
  {
    assert Tokenize(f) == Template([], f, None);
  }

  /** A template whose first `%` is never closed ends in an open tail. */
  lemma TokenizeOpen(f: Bytes, k: nat)
    requires k == NextPercent(f, 0) < |f| && NextTerminator(f, k + 1) == |f|
    ensures WellFormed(Tokenize(f)) && Untokenize(Tokenize(f)) == f
  {
    var a, b := f[..k], f[k + 1..];
    assert Tokenize(f) == Template([], a, Some(b));
    assert LiteralText(a) && FlagText(b);
    assert f == a + ['%'] + b by {
      assert f[k] == '%';
    }
  }

  lemma {:induction false} TokenizeRoundTrip(f: Bytes)
    ensures WellFormed(Tokenize(f))
    ensures Untokenize(Tokenize(f)) == f
    decreases |f|
  {
    var k := NextPercent(f, 0);
    if k == |f| {
      TokenizePlain(f);
    } else {
      var m := NextTerminator(f, k + 1);
      if m == |f| {
        TokenizeOpen(f, k);
      } else {
        TokenizeRoundTrip(f[m + 1..]);
        TokenizeFront(f, k, m);
        ConsWellFormed(Directive(f[..k], f[k + 1..m], f[m]), Tokenize(f[m + 1..]), Tokenize(f));
      }
    }
  }

  /** Prepending a well-formed directive keeps a template well formed and prepends its text. */
  lemma ConsWellFormed(d: Directive, rest: Template, t: Template)
    requires WellFormedDirective(d) && WellFormed(rest)
    requires t == Template([d] + rest.directives, rest.tailLit, rest.tailOpen)
    ensures WellFormed(t)
    ensures Untokenize(t) == DirectiveText(d) + Untokenize(rest)
  {
    DirectivesTextCons(d, rest.directives);
    assert forall i :: 0 < i < |t.directives| ==> t.directives[i] == rest.directives[i - 1];
  }

  lemma {:induction false} NextPercentOf(a: Bytes, b: Bytes)
    requires LiteralText(a)
    ensures NextPercent(a + ['%'] + b, 0) == |a|
  {
    var f := a + ['%'] + b;
    var r := NextPercent(f, 0);
    assert f[|a|] == '%';
  }

  lemma {:induction false} NextTerminatorOf(a: Bytes, c: Byte, b: Bytes, from: nat)
    requires from <= |a| && FlagText(a[from..]) && Terminates(c)
    ensures NextTerminator(a + [c] + b, from) == |a|
  {
    var f := a + [c] + b;
    var r := NextTerminator(f, from);
    assert f[|a|] == c;
  }

  lemma NextPercentNone(f: Bytes)
    requires LiteralText(f)
    ensures NextPercent(f, 0) == |f|
  {
  }

  lemma NextTerminatorNone(a: Bytes, fl: Bytes)
    requires FlagText(fl)
    ensures NextTerminator(a + fl, |a|) == |a + fl|
  {
  }

  lemma UniquePlain(a: Bytes)
    requires LiteralText(a)
    ensures Tokenize(a) == Template([], a, None)
  {
    NextPercentNone(a);
  }

  lemma UniqueOpen(a: Bytes, fl: Bytes)
    requires LiteralText(a) && FlagText(fl)
    ensures Tokenize(a + ['%'] + fl) == Template([], a, Some(fl))
  {
    var f := a + ['%'] + fl;
    NextPercentOf(a, fl);
    NextTerminatorNone(a + ['%'], fl);
    assert f[..|a|] == a && f[|a| + 1..] == fl;
  }

  /** Where Tokenize cuts the text of a directive followed by `tail`. */
  lemma FrontCuts(d: Directive, tail: Bytes)
    requires WellFormedDirective(d)
    ensures var f := DirectiveText(d) + tail;
            var k := |d.lit|;
            var m := k + 1 + |d.flags|;
            && NextPercent(f, 0) == k && NextTerminator(f, k + 1) == m
            && f[..k] == d.lit && f[k + 1..m] == d.flags && f[m] == d.conv && f[m + 1..] == tail
  {
    var f := DirectiveText(d) + tail;
    var k := |d.lit|;
    var m := k + 1 + |d.flags|;
    assert f == d.lit + ['%'] + (d.flags + [d.conv] + tail);
    NextPercentOf(d.lit, d.flags + [d.conv] + tail);
    assert f == (d.lit + ['%'] + d.flags) + [d.conv] + tail;
    assert (d.lit + ['%'] + d.flags)[k + 1..] == d.flags;
    NextTerminatorOf(d.lit + ['%'] + d.flags, d.conv, tail, k + 1);
  }

  lemma UniqueFront(d: Directive, tail: Bytes)
    requires WellFormedDirective(d)
    ensures Tokenize(DirectiveText(d) + tail)
         == Template([d] + Tokenize(tail).directives, Tokenize(tail).tailLit, Tokenize(tail).tailOpen)
  {
    FrontCuts(d, tail);
  }

  lemma {:induction false} TokenizeUnique(t: Template)
    requires WellFormed(t)
    ensures Tokenize(Untokenize(t)) == t
    decreases |t.directives|
  {
    if t.directives == [] {
      if t.tailOpen.None? {
        assert Untokenize(t) == t.tailLit;
        UniquePlain(t.tailLit);
      } else {
        assert Untokenize(t) == t.tailLit + ['%'] + t.tailOpen.value;
        UniqueOpen(t.tailLit, t.tailOpen.value);
      }
    } else {
      var d := t.directives[0];
      var rest := Template(t.directives[1..], t.tailLit, t.tailOpen);
      assert t.directives == [d] + rest.directives;
      assert WellFormed(rest) by {
        assert forall i :: 0 <= i < |rest.directives| ==> rest.directives[i] == t.directives[i + 1];
      }
      ConsWellFormed(d, rest, t);
      TokenizeUnique(rest);
      UniqueFront(d, Untokenize(rest));
    }
  }

  // ---------------------------------------------------------------------------
  // The source loop computes the reference reading
  // ---------------------------------------------------------------------------

  function ScanOf(k: Sink): Scan {
    Scan(false, [], [], k.used, k.out, k.room)
  }

  lemma {:induction false} FeedConcat(a: Bytes, b: Bytes, s: Scan, values: seq<Value>, render: Renderer)
    requires 1 <= |values|
    ensures Feed(a + b, s, values, render) == Feed(b, Feed(a, s, values, render), values, render)
    decreases |a|
  {
    if a == [] {
      assert a + b == b;
    } else if s.room > 0 {
      assert (a + b)[0] == a[0] && (a + b)[1..] == a[1..] + b;
      FeedConcat(a[1..], b, Step(s, a[0], values, render), values, render);
    }
  }

  lemma {:induction false} FeedLiteral(a: Bytes, s: Scan, values: seq<Value>, render: Renderer)
    requires 1 <= |values| && !s.conversion && s.room > 0 && LiteralText(a)
    ensures Feed(a, s, values, render) == s.(lit := s.lit + a)
    decreases |a|
  {
    if a != [] {
      assert s.lit + a == (s.lit + [a[0]]) + a[1..];
      FeedLiteral(a[1..], s.(lit := s.lit + [a[0]]), values, render);
    }
  }

  /** Inside a conversion a non-closing character is kept, unless it is a size prefix. */
  lemma StepFlag(s: Scan, c: Byte, values: seq<Value>, render: Renderer)
    requires 1 <= |values| && s.conversion && s.room > 0 && !Terminates(c)
    ensures Step(s, c, values, render) == if IsSizePrefix(c) then s else s.(spec := s.spec + [c])
  {
  }

  /** One loop iteration, then the rest of the loop. */
  lemma FeedCons(c: Byte, rest: Bytes, s: Scan, values: seq<Value>, render: Renderer)
    requires 1 <= |values| && s.room > 0
    ensures Feed([c] + rest, s, values, render) == Feed(rest, Step(s, c, values, render), values, render)
  {
    assert ([c] + rest)[0] == c && ([c] + rest)[1..] == rest;
  }

  lemma FlagTextTail(a: Bytes)
    requires FlagText(a) && a != []
    ensures a == [a[0]] + a[1..] && !Terminates(a[0]) && FlagText(a[1..])
  {
    assert forall i :: 0 <= i < |a| - 1 ==> a[1..][i] == a[i + 1];
  }

  /** What one flag byte contributes to the sanitised spec: nothing for a size prefix. */
  function KeptFlag(c: Byte): Bytes {
    if IsSizePrefix(c) then [] else [c]
  }

  /** One flag byte read inside a conversion. */
  lemma FlagStep(a: Bytes, s: Scan, values: seq<Value>, render: Renderer)
    requires 1 <= |values| && s.conversion && s.room > 0 && FlagText(a) && a != []
    ensures FlagText(a[1..])
    ensures Feed(a, s, values, render) == Feed(a[1..], s.(spec := s.spec + KeptFlag(a[0])), values, render)
    ensures Clean(a) == KeptFlag(a[0]) + Clean(a[1..])
  {
    var c := a[0];
    FlagTextTail(a);
    assert Feed(a, s, values, render) == Feed(a[1..], Step(s, c, values, render), values, render);
    StepFlag(s, c, values, render);
    assert Step(s, c, values, render) == s.(spec := s.spec + KeptFlag(c)) by {
      assert s.(spec := s.spec + []) == s;
    }
    assert Clean(a) == KeptFlag(c) + Clean(a[1..]);
  }

  /** Appending to the spec in two steps is appending once. */
  lemma SpecAppend(s: Scan, k: Bytes, c: Bytes)
    ensures s.(spec := s.spec + k).(spec := (s.spec + k) + c) == s.(spec := s.spec + (k + c))
  {
    assert (s.spec + k) + c == s.spec + (k + c);
  }

  lemma {:induction false} FeedFlags(a: Bytes, s: Scan, values: seq<Value>, render: Renderer)
    requires 1 <= |values| && s.conversion && s.room > 0 && FlagText(a)
    ensures Feed(a, s, values, render) == s.(spec := s.spec + Clean(a))
    decreases |a|
  {
    if a == [] {
      assert s.spec + Clean(a) == s.spec;
    } else {
      var k, tl := KeptFlag(a[0]), a[1..];
      FlagStep(a, s, values, render);
      FeedFlags(tl, s.(spec := s.spec + k), values, render);
      SpecAppend(s, k, Clean(tl));
    }
  }

  lemma FeedOne(c: Byte, s: Scan, values: seq<Value>, render: Renderer)
    requires 1 <= |values| && s.room > 0
    ensures Feed([c], s, values, render) == Step(s, c, values, render)
  {
    FeedCons(c, [], s, values, render);
  }

  /** Literal text, then the `%` that opens a conversion. */
  lemma FeedOpen(lit: Bytes, s: Scan, values: seq<Value>, render: Renderer)
    requires 1 <= |values| && !s.conversion && s.room > 0 && s.lit == [] && LiteralText(lit)
    ensures Feed(lit + ['%'], s, values, render) == Scan(true, lit, ['%'], s.used, s.out, s.room)
  {
    FeedConcat(lit, ['%'], s, values, render);
    FeedLiteral(lit, s, values, render);
    assert s.lit + lit == lit;
    FeedOne('%', s.(lit := lit), values, render);
  }

  /** The closing character of a directive emits the piece `Apply` describes. */
  lemma StepClose(d: Directive, k: Sink, values: seq<Value>, render: Renderer)
    requires 1 <= |values| && k.room > 0 && WellFormedDirective(d)
    ensures Step(Scan(true, d.lit, ['%'] + Clean(d.flags), k.used, k.out, k.room), d.conv, values, render)
         == ScanOf(Apply(d, k, values, render))
  {
    var s3 := Scan(true, d.lit, ['%'] + Clean(d.flags), k.used, k.out, k.room);
    assert s3.lit + s3.spec == d.lit + ['%'] + Clean(d.flags);
    if d.conv != '%' {
      var arg := values[ArgIndex(k.used + 1, |values| + 1)];
      assert s3.spec + [Sanitize(d.conv, arg)] == ConversionSpec(d, arg);
    }
  }

  lemma FeedDirective(d: Directive, k: Sink, values: seq<Value>, render: Renderer)
    requires 1 <= |values| && k.room > 0 && WellFormedDirective(d)
    ensures Feed(DirectiveText(d), ScanOf(k), values, render) == ScanOf(Apply(d, k, values, render))
  {
    var s0 := ScanOf(k);
    var s2 := Scan(true, d.lit, ['%'], k.used, k.out, k.room);
    var s3 := Scan(true, d.lit, ['%'] + Clean(d.flags), k.used, k.out, k.room);
    FeedConcat(d.lit + ['%'] + d.flags, [d.conv], s0, values, render);
    FeedConcat(d.lit + ['%'], d.flags, s0, values, render);
    FeedOpen(d.lit, s0, values, render);
    FeedFlags(d.flags, s2, values, render);
    assert s2.(spec := s2.spec + Clean(d.flags)) == s3;
    FeedOne(d.conv, s3, values, render);
    StepClose(d, k, values, render);
  }

  lemma {:induction false} FeedDirectives(ds: seq<Directive>, k: Sink, values: seq<Value>, render: Renderer)
    requires 1 <= |values|
    requires forall i :: 0 <= i < |ds| ==> WellFormedDirective(ds[i])
    ensures Feed(DirectivesText(ds), ScanOf(k), values, render) == ScanOf(Eval(ds, k, values, render))
    decreases |ds|
  {
    if ds != [] && k.room > 0 {
      FeedConcat(DirectiveText(ds[0]), DirectivesText(ds[1..]), ScanOf(k), values, render);
      FeedDirective(ds[0], k, values, render);
      FeedDirectives(ds[1..], Apply(ds[0], k, values, render), values, render);
    }
  }

  lemma FeedTail(t: Template, k: Sink, values: seq<Value>, render: Renderer)
    requires 1 <= |values| && WellFormed(t)
    ensures Finish(Feed(TailText(t), ScanOf(k), values, render))
         == if k.room > 0 then k.out + Take(TailPiece(t), k.room - 1) else k.out
  {
    if k.room > 0 {
      if t.tailOpen.None? {
        FeedClosedTail(t, k, values, render);
      } else {
        FeedOpenTail(t, k, values, render);
      }
    }
  }

  lemma FeedClosedTail(t: Template, k: Sink, values: seq<Value>, render: Renderer)
    requires 1 <= |values| && WellFormed(t) && k.room > 0 && t.tailOpen.None?
    ensures Finish(Feed(TailText(t), ScanOf(k), values, render)) == k.out + Take(TailPiece(t), k.room - 1)
  {
    var s0 := ScanOf(k);
    assert TailText(t) == t.tailLit && TailPiece(t) == t.tailLit;
    FeedLiteral(t.tailLit, s0, values, render);
    assert s0.lit + t.tailLit == t.tailLit;
  }

  lemma FeedOpenTail(t: Template, k: Sink, values: seq<Value>, render: Renderer)
    requires 1 <= |values| && WellFormed(t) && k.room > 0 && t.tailOpen.Some?
    ensures Finish(Feed(TailText(t), ScanOf(k), values, render)) == k.out + Take(TailPiece(t), k.room - 1)
  {
    var s0 := ScanOf(k);
    var fl := t.tailOpen.value;
    var s2 := Scan(true, t.tailLit, ['%'], k.used, k.out, k.room);
    assert TailText(t) == t.tailLit + ['%'] + fl;
    FeedConcat(t.tailLit + ['%'], fl, s0, values, render);
    FeedOpen(t.tailLit, s0, values, render);
    FeedFlags(fl, s2, values, render);
    assert TailPiece(t) == t.tailLit + (['%'] + Clean(fl));
  }


  /** The source loop and the directive-by-directive reading produce the same text. */
  lemma SprintfMatchesReference(fmt: Bytes, values: seq<Value>, render: Renderer)
    requires 1 <= |values| <= MaxFormatValues
    ensures SprintfLite(fmt, values, render) == Reference(fmt, values, render)
  {
    if 0 < |fmt| <= MaxTemplate {
      var t := Tokenize(fmt);
      TokenizeRoundTrip(fmt);
      var k0 := Sink(0, [], OutCapacity);
      assert ScanOf(k0) == Start;
      FeedConcat(DirectivesText(t.directives), TailText(t), Start, values, render);
      FeedDirectives(t.directives, k0, values, render);
      FeedTail(t, Eval(t.directives, k0, values, render), values, render);
    }
  }

  // ---------------------------------------------------------------------------
  // Worked templates
  // ---------------------------------------------------------------------------

  lemma EscapedTokens()
    ensures Tokenize("100%%") == Template([Directive("100", [], '%')], [], None)
  {
    var f: Bytes := "100%%";
    var d := Directive("100", [], '%');
    var t := Template([d], [], None);
    assert WellFormedDirective(d) by {
      assert forall i :: 0 <= i < 3 ==> d.lit[i] != '%';
    }
    assert WellFormed(t) by {
      assert |t.directives| == 1 && t.directives[0] == d;
    }
    assert Untokenize(t) == f by {
      DirectivesTextCons(d, []);
      assert [d] + [] == [d] && DirectivesText([]) == [] && TailText(t) == [];
      assert DirectiveText(d) == f;
    }
    TokenizeUnique(t);
  }

  /** `%%` yields one `%` and reads no argument, whatever the formatter does. */
  lemma EscapedPercent(values: seq<Value>, render: Renderer)
    requires 1 <= |values| <= MaxFormatValues
    ensures SprintfLite("100%%", values, render) == "100%"
  {
    SprintfMatchesReference("100%%", values, render);
    assert Reference("100%%", values, render) == CPrefix("100%") by {
      var t := Template([Directive("100", [], '%')], [], None);
      EscapedTokens();
      EscapedEval(values, render);
      assert TailPiece(t) == [];
      assert "100%" + Take([], OutCapacity - 5) == "100%";
    }
    NoNulIn100();
  }

  lemma EscapedEval(values: seq<Value>, render: Renderer)
    requires 1 <= |values|
    ensures Eval([Directive("100", [], '%')], Sink(0, [], OutCapacity), values, render)
            == Sink(0, "100%", OutCapacity - 4)
  {
    var d := Directive("100", [], '%');
    var k0 := Sink(0, [], OutCapacity);
    Plain100();
    EvalOne(d, k0, values, render);
    EscapedApply(values, render);
  }

  lemma Plain100()
    ensures WellFormedDirective(Directive("100", [], '%'))
  {
    assert forall i :: 0 <= i < 3 ==> "100"[i] != '%';
  }

  lemma EscapedApply(values: seq<Value>, render: Renderer)
    requires 1 <= |values|
    requires WellFormedDirective(Directive("100", [], '%'))
    ensures Apply(Directive("100", [], '%'), Sink(0, [], OutCapacity), values, render)
            == Sink(0, "100%", OutCapacity - 4)
  {
    var d := Directive("100", [], '%');
    assert Clean([]) == [];
    assert d.lit + ['%'] + Clean(d.flags) == "100%";
  }

  /** A single directive is applied once. */
  lemma EvalOne(d: Directive, k: Sink, values: seq<Value>, render: Renderer)
    requires 1 <= |values| && k.room > 0 && WellFormedDirective(d)
    ensures Eval([d], k, values, render) == Apply(d, k, values, render)
  {
    assert [d][0] == d && [d][1..] == [];
  }

  lemma NoNulIn100() ensures CPrefix("100%") == "100%" {
    NoNulPrefix("100%");
  }

  lemma CleanSpace() ensures Clean(" ") == " " {
    assert Clean(" ") == [' '] + Clean([]);
  }

  lemma NoNulIn50() ensures CPrefix("50% ") == "50% " {
    NoNulPrefix("50% ");
  }

  /** A string without NUL bytes reads back whole. */
  lemma {:induction false} NoNulPrefix(b: Bytes)
    requires forall i :: 0 <= i < |b| ==> b[i] != '\0'
    ensures CPrefix(b) == b
    decreases |b|
  {
    if b != [] {
      NoNulPrefix(b[1..]);
    }
  }

  lemma DanglingTokens()
    ensures Tokenize("50% ") == Template([], "50", Some(" "))
  {
    var t := Template([], "50", Some(" "));
    assert WellFormed(t) by {
      assert forall i :: 0 <= i < 2 ==> t.tailLit[i] != '%';
    }
    assert Untokenize(t) == "50% " by {
      assert DirectivesText([]) == [];
      assert TailText(t) == "50" + ['%'] + " ";
    }
    TokenizeUnique(t);
  }

  /** A `%` left open at the end of the template is copied as it stands. */
  lemma DanglingPercent(values: seq<Value>, render: Renderer)
    requires 1 <= |values| <= MaxFormatValues
    ensures SprintfLite("50% ", values, render) == "50% "
  {
    var f: Bytes := "50% ";
    var t := Template([], "50", Some(" "));
    var k0 := Sink(0, [], OutCapacity);
    SprintfMatchesReference(f, values, render);
    assert Reference(f, values, render) == CPrefix(k0.out + Take(TailPiece(t), k0.room - 1)) by {
      DanglingTokens();
      assert Eval(t.directives, k0, values, render) == k0;
    }
    assert k0.out + Take(TailPiece(t), k0.room - 1) == f by {
      CleanSpace();
      assert TailPiece(t) == f;
    }
    NoNulIn50();
  }

  /**
   Width, precision and `*` survive sanitisation: the formatter is asked to render
   `%*d`, a format that reads a second C argument the engine never supplies.
   */
  lemma StarPassesThrough(arg: Value)
    requires arg.Int?
    ensures ConversionSpec(Directive([], "*", 'd'), arg) == "%*d"
  {
    assert Clean("*") == "*";
  }

  /** `%n` and `%s` on a number are both rendered as `%d`. */
  lemma DangerousConversionsBecomeDecimal(arg: Value)
    requires arg.Int?
    ensures ConversionSpec(Directive([], [], 'n'), arg) == "%d"
    ensures ConversionSpec(Directive("x=", "-5", 's'), arg) == "%-5d"
  {
    assert ConversionSpec(Directive([], [], 'n'), arg) == "%d" by {
      assert Clean([]) == [];
    }
    assert Clean("-5") == "-5";
  }
}

=== FILE: registry.dfy ===
/**
 The metarule registry: a static table of named handlers with the inclusive range of
 argument counts each accepts, exact-match lookup in table order, and the
 `metarule_exist` query built on it.
 */
module Registry {
  import opened Values

  /** One handler per table row; the game-domain ones are not modelled further. */
  datatype Handler =
    | CarGasAmount | CombatData | CritterInvenObj2 | DialogObj | Floor2
    | GetCursorMode | GetFlags | GetIniSection | GetIniSections | GetObjectData
    | GetTextWidth | IntfaceRedraw | LootObj | MetaruleExist | OutlinedObject
    | SetCursorMode | SetFlags | SetIniSetting | SetOutline | ShowWindow
    | StringCompare | StringFind | StringFormat | StringToCase | TileRefreshDisplay

  datatype MetaruleInfo = MetaruleInfo(name: string, handler: Handler, minArgs: int, maxArgs: int)

  /** Number of rows in the table. */
  const MetaruleCount: nat := 25

  /** Row `i` of the table, in source order. */
  function TableRow(i: nat): MetaruleInfo
    requires i < MetaruleCount
  {
    match i
      case 0 => MetaruleInfo("car_gas_amount", CarGasAmount, 0, 0)
      case 1 => MetaruleInfo("combat_data", CombatData, 0, 0)
      case 2 => MetaruleInfo("critter_inven_obj2", CritterInvenObj2, 2, 2)
      case 3 => MetaruleInfo("dialog_obj", DialogObj, 0, 0)
      case 4 => MetaruleInfo("floor2", Floor2, 1, 1)
      case 5 => MetaruleInfo("get_cursor_mode", GetCursorMode, 0, 0)
      case 6 => MetaruleInfo("get_flags", GetFlags, 1, 1)
      case 7 => MetaruleInfo("get_ini_section", GetIniSection, 2, 2)
      case 8 => MetaruleInfo("get_ini_sections", GetIniSections, 1, 1)
      case 9 => MetaruleInfo("get_object_data", GetObjectData, 2, 2)
      case 10 => MetaruleInfo("get_text_width", GetTextWidth, 1, 1)
      case 11 => MetaruleInfo("intface_redraw", IntfaceRedraw, 0, 1)
      case 12 => MetaruleInfo("loot_obj", LootObj, 0, 0)
      case 13 => MetaruleInfo("metarule_exist", MetaruleExist, 1, 1)
      case 14 => MetaruleInfo("outlined_object", OutlinedObject, 0, 0)
      case 15 => MetaruleInfo("set_cursor_mode", SetCursorMode, 1, 1)
      case 16 => MetaruleInfo("set_flags", SetFlags, 2, 2)
      case 17 => MetaruleInfo("set_ini_setting", SetIniSetting, 2, 2)
      case 18 => MetaruleInfo("set_outline", SetOutline, 2, 2)
      case 19 => MetaruleInfo("show_window", ShowWindow, 0, 1)
      case 20 => MetaruleInfo("string_compare", StringCompare, 2, 3)
      case 21 => MetaruleInfo("string_find", StringFind, 2, 3)
      case 22 => MetaruleInfo("string_format", StringFormat, 2, 8)
      case 23 => MetaruleInfo("string_to_case", StringToCase, 2, 2)
      case _ => MetaruleInfo("tile_refresh_display", TileRefreshDisplay, 0, 0)
  }

  /** Each row's name is strictly below the next one's, so the names are strictly increasing. */
  predicate AdjacentSorted() {
    forall i :: 0 <= i < MetaruleCount - 1 ==> LexLess(TableRow(i).name, TableRow(i + 1).name)
  }

  /**
   Index of the first row named `name`, scanning from `from` as the source's loop
   does (`strcmp(...) == 0`, first hit wins).
   */
  function FindFrom(name: string, from: nat): (r: Option<nat>)
    requires from <= MetaruleCount
    ensures r.Some? ==> from <= r.value < MetaruleCount && TableRow(r.value).name == name
    ensures r.Some? ==> forall j :: from <= j < r.value ==> TableRow(j).name != name
    ensures r.None? ==> forall j :: from <= j < MetaruleCount ==> TableRow(j).name != name
    decreases MetaruleCount - from
  {
    if from == MetaruleCount then None
    else if TableRow(from).name == name then Some(from)
    else FindFrom(name, from + 1)
  }

  function Lookup(name: string): (r: Option<nat>)
    ensures r.Some? <==> exists j :: 0 <= j < MetaruleCount && TableRow(j).name == name
    ensures r.Some? ==> r.value < MetaruleCount && TableRow(r.value).name == name
    ensures r.Some? ==> forall j :: 0 <= j < r.value ==> TableRow(j).name != name
  {
    FindFrom(name, 0)
  }

  /** `metarule_exist(name)`: 1 exactly when dispatch would find `name`, else 0. */
  function Exists(name: string): (r: Int32)
    ensures r == 1 <==> Lookup(name).Some?
    ensures r == 0 <==> (forall j :: 0 <= j < MetaruleCount ==> TableRow(j).name != name)
  {
    if Lookup(name).Some? then 1 else 0
  }

  lemma {:induction false} SortedChain(i: nat, j: nat)
    requires i < j < MetaruleCount
    requires AdjacentSorted()
    ensures LexLess(TableRow(i).name, TableRow(j).name)
    decreases j - i
  {
    if j > i + 1 {
      SortedChain(i + 1, j);
      LexLessTransitive(TableRow(i).name, TableRow(i + 1).name, TableRow(j).name);
    }
  }

  // The sortedness proof is split into one small lemma per row name (`NameK`), per
  // literal comparison (`OrderK`) and per neighbouring pair (`NeighboursK`): proving
  // the 24 comparisons in one proof context is far beyond the solver's budget.

  /** Rows `i` and `i + 1` are in order once their names are known to be. */
  lemma NamesInOrder(i: nat, a: string, b: string)
    requires i + 1 < MetaruleCount
    requires TableRow(i).name == a && TableRow(i + 1).name == b
    requires LexLess(a, b)
    ensures LexLess(TableRow(i).name, TableRow(i + 1).name)
  {
  }

  lemma Name0() ensures TableRow(0).name == "car_gas_amount" {}
  lemma Name1() ensures TableRow(1).name == "combat_data" {}
  lemma Name2() ensures TableRow(2).name == "critter_inven_obj2" {}
  lemma Name3() ensures TableRow(3).name == "dialog_obj" {}
  lemma Name4() ensures TableRow(4).name == "floor2" {}
  lemma Name5() ensures TableRow(5).name == "get_cursor_mode" {}
  lemma Name6() ensures TableRow(6).name == "get_flags" {}
  lemma Name7() ensures TableRow(7).name == "get_ini_section" {}
  lemma Name8() ensures TableRow(8).name == "get_ini_sections" {}
  lemma Name9() ensures TableRow(9).name == "get_object_data" {}
  lemma Name10() ensures TableRow(10).name == "get_text_width" {}
  lemma Name11() ensures TableRow(11).name == "intface_redraw" {}
  lemma Name12() ensures TableRow(12).name == "loot_obj" {}
  lemma Name13() ensures TableRow(13).name == "metarule_exist" {}
  lemma Name14() ensures TableRow(14).name == "outlined_object" {}
  lemma Name15() ensures TableRow(15).name == "set_cursor_mode" {}
  lemma Name16() ensures TableRow(16).name == "set_flags" {}
  lemma Name17() ensures TableRow(17).name == "set_ini_setting" {}
  lemma Name18() ensures TableRow(18).name == "set_outline" {}
  lemma Name19() ensures TableRow(19).name == "show_window" {}
  lemma Name20() ensures TableRow(20).name == "string_compare" {}
  lemma Name21() ensures TableRow(21).name == "string_find" {}
  lemma Name22() ensures TableRow(22).name == "string_format" {}
  lemma Name23() ensures TableRow(23).name == "string_to_case" {}
  lemma Name24() ensures TableRow(24).name == "tile_refresh_display" {}

  lemma Order0() ensures LexLess("car_gas_amount", "combat_data") {}
  lemma Order1() ensures LexLess("combat_data", "critter_inven_obj2") {}
  lemma Order2() ensures LexLess("critter_inven_obj2", "dialog_obj") {}
  lemma Order3() ensures LexLess("dialog_obj", "floor2") {}
  lemma Order4() ensures LexLess("floor2", "get_cursor_mode") {}
  lemma Order5() ensures LexLess("get_cursor_mode", "get_flags") {}
  lemma Order6() ensures LexLess("get_flags", "get_ini_section") {}
  lemma Order7() ensures LexLess("get_ini_section", "get_ini_sections") {}
  lemma Order8() ensures LexLess("get_ini_sections", "get_object_data") {}
  lemma Order9() ensures LexLess("get_object_data", "get_text_width") {}
  lemma Order10() ensures LexLess("get_text_width", "intface_redraw") {}
  lemma Order11() ensures LexLess("intface_redraw", "loot_obj") {}
  lemma Order12() ensures LexLess("loot_obj", "metarule_exist") {}
  lemma Order13() ensures LexLess("metarule_exist", "outlined_object") {}
  lemma Order14() ensures LexLess("outlined_object", "set_cursor_mode") {}
  lemma Order15() ensures LexLess("set_cursor_mode", "set_flags") {}
  lemma Order16() ensures LexLess("set_flags", "set_ini_setting") {}
  lemma Order17() ensures LexLess("set_ini_setting", "set_outline") {}
  lemma Order18() ensures LexLess("set_outline", "show_window") {}
  lemma Order19() ensures LexLess("show_window", "string_compare") {}
  lemma Order20() ensures LexLess("string_compare", "string_find") {}
  lemma Order21() ensures LexLess("string_find", "string_format") {}
  lemma Order22() ensures LexLess("string_format", "string_to_case") {}
  lemma Order23() ensures LexLess("string_to_case", "tile_refresh_display") {}

  lemma Neighbours0() ensures LexLess(TableRow(0).name, TableRow(1).name) {
    Name0();
    Name1();
    Order0();
    NamesInOrder(0, "car_gas_amount", "combat_data");
  }
  lemma Neighbours1() ensures LexLess(TableRow(1).name, TableRow(2).name) {
    Name1();
    Name2();
    Order1();
    NamesInOrder(1, "combat_data", "critter_inven_obj2");
  }
  lemma Neighbours2() ensures LexLess(TableRow(2).name, TableRow(3).name) {
    Name2();
    Name3();
    Order2();
    NamesInOrder(2, "critter_inven_obj2", "dialog_obj");
  }
  lemma Neighbours3() ensures LexLess(TableRow(3).name, TableRow(4).name) {
    Name3();
    Name4();
    Order3();
    NamesInOrder(3, "dialog_obj", "floor2");
  }
  lemma Neighbours4() ensures LexLess(TableRow(4).name, TableRow(5).name) {
    Name4();
    Name5();
    Order4();
    NamesInOrder(4, "floor2", "get_cursor_mode");
  }
  lemma Neighbours5() ensures LexLess(TableRow(5).name, TableRow(6).name) {
    Name5();
    Name6();
    Order5();
    NamesInOrder(5, "get_cursor_mode", "get_flags");
  }
  lemma Neighbours6() ensures LexLess(TableRow(6).name, TableRow(7).name) {
    Name6();
    Name7();
    Order6();
    NamesInOrder(6, "get_flags", "get_ini_section");
  }
  lemma Neighbours7() ensures LexLess(TableRow(7).name, TableRow(8).name) {
    Name7();
    Name8();
    Order7();
    NamesInOrder(7, "get_ini_section", "get_ini_sections");
  }
  lemma Neighbours8() ensures LexLess(TableRow(8).name, TableRow(9).name) {
    Name8();
    Name9();
    Order8();
    NamesInOrder(8, "get_ini_sections", "get_object_data");
  }
  lemma Neighbours9() ensures LexLess(TableRow(9).name, TableRow(10).name) {
    Name9();
    Name10();
    Order9();
    NamesInOrder(9, "get_object_data", "get_text_width");
  }
  lemma Neighbours10() ensures LexLess(TableRow(10).name, TableRow(11).name) {
    Name10();
    Name11();
    Order10();
    NamesInOrder(10, "get_text_width", "intface_redraw");
  }
  lemma Neighbours11() ensures LexLess(TableRow(11).name, TableRow(12).name) {
    Name11();
    Name12();
    Order11();
    NamesInOrder(11, "intface_redraw", "loot_obj");
  }
  lemma Neighbours12() ensures LexLess(TableRow(12).name, TableRow(13).name) {
    Name12();
    Name13();
    Order12();
    NamesInOrder(12, "loot_obj", "metarule_exist");
  }
  lemma Neighbours13() ensures LexLess(TableRow(13).name, TableRow(14).name) {
    Name13();
    Name14();
    Order13();
    NamesInOrder(13, "metarule_exist", "outlined_object");
  }
  lemma Neighbours14() ensures LexLess(TableRow(14).name, TableRow(15).name) {
    Name14();
    Name15();
    Order14();
    NamesInOrder(14, "outlined_object", "set_cursor_mode");
  }
  lemma Neighbours15() ensures LexLess(TableRow(15).name, TableRow(16).name) {
    Name15();
    Name16();
    Order15();
    NamesInOrder(15, "set_cursor_mode", "set_flags");
  }
  lemma Neighbours16() ensures LexLess(TableRow(16).name, TableRow(17).name) {
    Name16();
    Name17();
    Order16();
    NamesInOrder(16, "set_flags", "set_ini_setting");
  }
  lemma Neighbours17() ensures LexLess(TableRow(17).name, TableRow(18).name) {
    Name17();
    Name18();
    Order17();
    NamesInOrder(17, "set_ini_setting", "set_outline");
  }
  lemma Neighbours18() ensures LexLess(TableRow(18).name, TableRow(19).name) {
    Name18();
    Name19();
    Order18();
    NamesInOrder(18, "set_outline", "show_window");
  }
  lemma Neighbours19() ensures LexLess(TableRow(19).name, TableRow(20).name) {
    Name19();
    Name20();
    Order19();
    NamesInOrder(19, "show_window", "string_compare");
  }
  lemma Neighbours20() ensures LexLess(TableRow(20).name, TableRow(21).name) {
    Name20();
    Name21();
    Order20();
    NamesInOrder(20, "string_compare", "string_find");
  }
  lemma Neighbours21() ensures LexLess(TableRow(21).name, TableRow(22).name) {
    Name21();
    Name22();
    Order21();
    NamesInOrder(21, "string_find", "string_format");
  }
  lemma Neighbours22() ensures LexLess(TableRow(22).name, TableRow(23).name) {
    Name22();
    Name23();
    Order22();
    NamesInOrder(22, "string_format", "string_to_case");
  }
  lemma Neighbours23() ensures LexLess(TableRow(23).name, TableRow(24).name) {
    Name23();
    Name24();
    Order23();
    NamesInOrder(23, "string_to_case", "tile_refresh_display");
  }

  lemma NeighboursFrom0(i: nat)
    requires i < 6
    ensures LexLess(TableRow(i).name, TableRow(i + 1).name)
  {
    match i
      case 0 => Neighbours0();
      case 1 => Neighbours1();
      case 2 => Neighbours2();
      case 3 => Neighbours3();
      case 4 => Neighbours4();
      case _ => Neighbours5();
  }

  lemma NeighboursFrom6(i: nat)
    requires 6 <= i < 12
    ensures LexLess(TableRow(i).name, TableRow(i + 1).name)
  {
    match i
      case 6 => Neighbours6();
      case 7 => Neighbours7();
      case 8 => Neighbours8();
      case 9 => Neighbours9();
      case 10 => Neighbours10();
      case _ => Neighbours11();
  }

  lemma NeighboursFrom12(i: nat)
    requires 12 <= i < 18
    ensures LexLess(TableRow(i).name, TableRow(i + 1).name)
  {
    match i
      case 12 => Neighbours12();
      case 13 => Neighbours13();
      case 14 => Neighbours14();
      case 15 => Neighbours15();
      case 16 => Neighbours16();
      case _ => Neighbours17();
  }

  lemma NeighboursFrom18(i: nat)
    requires 18 <= i < 24
    ensures LexLess(TableRow(i).name, TableRow(i + 1).name)
  {
    match i
      case 18 => Neighbours18();
      case 19 => Neighbours19();
      case 20 => Neighbours20();
      case 21 => Neighbours21();
      case 22 => Neighbours22();
      case _ => Neighbours23();
  }

  lemma TableSorted()
    ensures AdjacentSorted()
  {
    forall i | 0 <= i < MetaruleCount - 1
      ensures LexLess(TableRow(i).name, TableRow(i + 1).name)
    {
      if i < 6 {
        NeighboursFrom0(i);
      } else if i < 12 {
        NeighboursFrom6(i);
      } else if i < 18 {
        NeighboursFrom12(i);
      } else {
        NeighboursFrom18(i);
      }
    }
  }

  /** The table as written has no two rows with the same name. */
  lemma TableNamesDistinct()
    ensures forall i, j :: 0 <= i < j < MetaruleCount ==> TableRow(i).name != TableRow(j).name
  {
    TableSorted();
    forall i, j | 0 <= i < j < MetaruleCount
      ensures TableRow(i).name != TableRow(j).name
    {
      SortedChain(i, j);
      LexLessIrreflexive(TableRow(i).name);
    }
  }

  /** Every row accepts a range within `0 <= minArgs <= maxArgs <= 8`. */
  lemma TableArities()
    ensures forall i :: 0 <= i < MetaruleCount ==>
      0 <= TableRow(i).minArgs <= TableRow(i).maxArgs <= 8
  {
  }

  /** Since names are distinct, lookup finds the row named `name`, whichever it is. */
  lemma LookupFindsRow(i: nat)
    requires i < MetaruleCount
    ensures Lookup(TableRow(i).name) == Some(i)
  {
    TableNamesDistinct();
  }
}

=== FILE: scan_unimplemented.dfy ===
/**
 Pure helpers of the unimplemented-opcode scanner: ASCII lowering, the
 case-insensitive suffix test, the case-insensitive key order of its config maps,
 hook names, and the opcode walk over a script's code segment.
 */
module ScanUnimplemented {
  import opened Values
  import StringRules

  // ---------------------------------------------------------------------------
  // to_lower and ends_with
  // ---------------------------------------------------------------------------

  /** `to_lower(std::string)`: `::tolower` on every byte, in the "C" locale. */
  function ToLower(s: Bytes): (r: Bytes)
    ensures |r| == |s|
    ensures forall k :: 0 <= k < |s| ==> r[k] == StringRules.AsciiLower(s[k])
  {
    if s == [] then [] else [StringRules.AsciiLower(s[0])] + ToLower(s[1..])
  }

  lemma ToLowerIdempotent(s: Bytes)
    ensures ToLower(ToLower(s)) == ToLower(s)
  {
    var l := ToLower(s);
    assert forall k :: 0 <= k < |s| ==> ToLower(l)[k] == l[k];
  }

  lemma ToLowerAppend(a: Bytes, b: Bytes)
    ensures ToLower(a + b) == ToLower(a) + ToLower(b)
  {
    var l, r := ToLower(a + b), ToLower(a) + ToLower(b);
    forall k | 0 <= k < |l|
      ensures l[k] == r[k]
    {
      if k < |a| {
        assert (a + b)[k] == a[k];
      } else {
        assert (a + b)[k] == b[k - |a|];
      }
    }
    assert l == r;
  }

  /**
   `std::equal(a.rbegin(), a.rend(), b.rbegin())`: `a` read backwards matches the
   end of `b` read backwards. The caller guarantees `b` is at least as long.
   */
  function EqualFromBack(a: Bytes, b: Bytes): bool
    requires |a| <= |b|
    decreases |a|
  {
    if |a| == 0 then true
    else a[|a| - 1] == b[|b| - 1] && EqualFromBack(a[..|a| - 1], b[..|b| - 1])
  }

  /** Comparing from the back is the same as comparing `a` with the tail of `b`. */
  lemma {:induction false} EqualFromBackIsSuffix(a: Bytes, b: Bytes)
    requires |a| <= |b|
    ensures EqualFromBack(a, b) <==> a == b[|b| - |a|..]
    decreases |a|
  {
    if |a| > 0 {
      EqualFromBackIsSuffix(a[..|a| - 1], b[..|b| - 1]);
      var t := b[|b| - |a|..];
      assert b[..|b| - 1][|b| - 1 - (|a| - 1)..] == t[..|t| - 1];
      if a == t {
        assert a[..|a| - 1] == t[..|t| - 1];
      }
    }
  }

  /** `ends_with(str, suffix)`: a case-insensitive suffix test. */
  function EndsWith(str: Bytes, suffix: Bytes): (r: bool)
    ensures |str| < |suffix| ==> !r
  {
    var low := ToLower(str);
    var lowSuffix := ToLower(suffix);
    if |str| < |suffix| then false else EqualFromBack(lowSuffix, low)
  }

  /** `ends_with(s, t)` holds exactly when `t` lowered is a suffix of `s` lowered. */
  lemma EndsWithIsLoweredSuffix(str: Bytes, suffix: Bytes)
    ensures EndsWith(str, suffix) <==>
            |suffix| <= |str| && ToLower(suffix) == ToLower(str)[|str| - |suffix|..]
  {
    if |suffix| <= |str| {
      EqualFromBackIsSuffix(ToLower(suffix), ToLower(str));
    }
  }

  /** Case does not matter on either side. */
  lemma EndsWithIgnoresCase(str: Bytes, suffix: Bytes)
    ensures EndsWith(ToLower(str), suffix) == EndsWith(str, suffix)
    ensures EndsWith(str, ToLower(suffix)) == EndsWith(str, suffix)
  {
    ToLowerIdempotent(str);
    ToLowerIdempotent(suffix);
    EndsWithIsLoweredSuffix(str, suffix);
    EndsWithIsLoweredSuffix(ToLower(str), suffix);
    EndsWithIsLoweredSuffix(str, ToLower(suffix));
  }

  /** Every string ends with the empty string, with itself, and with any tail of itself. */
  lemma EndsWithTail(prefix: Bytes, str: Bytes)
    ensures EndsWith(str, [])
    ensures EndsWith(str, str)
    ensures EndsWith(prefix + str, str)
  {
    EndsWithIsLoweredSuffix(str, []);
    EndsWithIsLoweredSuffix(str, str);
    EndsWithIsLoweredSuffix(prefix + str, str);
    ToLowerAppend(prefix, str);
    assert (ToLower(prefix) + ToLower(str))[|prefix + str| - |str|..] == ToLower(str);
  }

  // ---------------------------------------------------------------------------
  // CaseInsensitiveCompare
  // ---------------------------------------------------------------------------

  /**
   The value the comparator compares: `to_lower(char)` returns a `char`, so on
   targets where `char` is signed, bytes from 0x80 up compare as negative.
   */
  function CharKey(c: Byte, charIsSigned: bool): (r: int)
    ensures charIsSigned ==> -0x80 <= r < 0x80
    ensures !charIsSigned ==> r == StringRules.AsciiLower(c) as int
  {
    var l := StringRules.AsciiLower(c) as int;
    if charIsSigned && l >= 0x80 then l - 0x100 else l
  }

  /**
   `CaseInsensitiveCompare`: `std::lexicographical_compare` with the comparator
   `to_lower(c1) < to_lower(c2)`.
   */
  function CaseInsensitiveLess(a: Bytes, b: Bytes, charIsSigned: bool): bool
    decreases |a|
  {
    if |b| == 0 then false
    else if |a| == 0 then true
    else if CharKey(a[0], charIsSigned) < CharKey(b[0], charIsSigned) then true
    else if CharKey(b[0], charIsSigned) < CharKey(a[0], charIsSigned) then false
    else CaseInsensitiveLess(a[1..], b[1..], charIsSigned)
  }

  /** The byte whose unsigned order is the comparator's order on one lowered byte. */
  function OrderByte(c: Byte, charIsSigned: bool): (r: Byte)
    ensures r as int == CharKey(c, charIsSigned) + (if charIsSigned then 0x80 else 0)
  {
    (CharKey(c, charIsSigned) + (if charIsSigned then 0x80 else 0)) as char
  }

  /** The sort key of a whole string. */
  function OrderKey(s: Bytes, charIsSigned: bool): (r: Bytes)
    ensures |r| == |s| && forall k :: 0 <= k < |s| ==> r[k] == OrderByte(s[k], charIsSigned)
  {
    seq(|s|, k requires 0 <= k < |s| => OrderByte(s[k], charIsSigned))
  }

  /** Two strings have the same key exactly when they are equal up to ASCII case. */
  lemma OrderKeyEqual(a: Bytes, b: Bytes, charIsSigned: bool)
    ensures OrderKey(a, charIsSigned) == OrderKey(b, charIsSigned) <==> ToLower(a) == ToLower(b)
  {
    var ka, kb := OrderKey(a, charIsSigned), OrderKey(b, charIsSigned);
    if ka == kb {
      forall k | 0 <= k < |a|
        ensures ToLower(a)[k] == ToLower(b)[k]
      {
        assert ka[k] == kb[k];
      }
    }
    if ToLower(a) == ToLower(b) {
      forall k | 0 <= k < |a|
        ensures ka[k] == kb[k]
      {
        assert ToLower(a)[k] == ToLower(b)[k];
      }
    }
  }

  /** The comparator is the plain lexicographic order on the sort keys. */
  lemma {:induction false} CaseInsensitiveIsLexOnKeys(a: Bytes, b: Bytes, charIsSigned: bool)
    ensures CaseInsensitiveLess(a, b, charIsSigned) == LexLess(OrderKey(a, charIsSigned), OrderKey(b, charIsSigned))
    decreases |a|
  {
    var ka, kb := OrderKey(a, charIsSigned), OrderKey(b, charIsSigned);
    if |a| > 0 && |b| > 0 {
      assert ka[0] == OrderByte(a[0], charIsSigned) && kb[0] == OrderByte(b[0], charIsSigned);
      assert ka[1..] == OrderKey(a[1..], charIsSigned);
      assert kb[1..] == OrderKey(b[1..], charIsSigned);
      CaseInsensitiveIsLexOnKeys(a[1..], b[1..], charIsSigned);
    }
  }

  lemma CaseInsensitiveIrreflexive(a: Bytes, charIsSigned: bool)
    ensures !CaseInsensitiveLess(a, a, charIsSigned)
  {
    CaseInsensitiveIsLexOnKeys(a, a, charIsSigned);
    LexLessIrreflexive(OrderKey(a, charIsSigned));
  }

  lemma CaseInsensitiveTransitive(a: Bytes, b: Bytes, c: Bytes, charIsSigned: bool)
    requires CaseInsensitiveLess(a, b, charIsSigned) && CaseInsensitiveLess(b, c, charIsSigned)
    ensures CaseInsensitiveLess(a, c, charIsSigned)
  {
    CaseInsensitiveIsLexOnKeys(a, b, charIsSigned);
    CaseInsensitiveIsLexOnKeys(b, c, charIsSigned);
    CaseInsensitiveIsLexOnKeys(a, c, charIsSigned);
    LexLessTransitive(OrderKey(a, charIsSigned), OrderKey(b, charIsSigned), OrderKey(c, charIsSigned));
  }

  /**
   Neither string sorts before the other exactly when they are equal up to ASCII
   case; so the order is a strict weak order and a `ConfigMap` holds one entry per
   name up to case.
   */
  lemma CaseInsensitiveEquivalence(a: Bytes, b: Bytes, charIsSigned: bool)
    ensures !CaseInsensitiveLess(a, b, charIsSigned) && !CaseInsensitiveLess(b, a, charIsSigned)
            <==> ToLower(a) == ToLower(b)
  {
    var ka, kb := OrderKey(a, charIsSigned), OrderKey(b, charIsSigned);
    CaseInsensitiveIsLexOnKeys(a, b, charIsSigned);
    CaseInsensitiveIsLexOnKeys(b, a, charIsSigned);
    OrderKeyEqual(a, b, charIsSigned);
    if ka != kb {
      LexLessTotal(ka, kb);
    } else {
      LexLessIrreflexive(ka);
    }
  }

  /** A proper prefix, up to case, sorts before any extension of it. */
  lemma CaseInsensitivePrefix(a: Bytes, b: Bytes, charIsSigned: bool)
    requires |a| < |b| && ToLower(a) == ToLower(b[..|a|])
    ensures CaseInsensitiveLess(a, b, charIsSigned)
  {
    var ka, kb := OrderKey(a, charIsSigned), OrderKey(b, charIsSigned);
    OrderKeyEqual(a, b[..|a|], charIsSigned);
    assert OrderKey(b[..|a|], charIsSigned) == kb[..|a|];
    CaseInsensitiveIsLexOnKeys(a, b, charIsSigned);
    LexLessProperPrefix(ka, kb);
  }

  // ---------------------------------------------------------------------------
  // get_hook_name
  // ---------------------------------------------------------------------------

  const UnknownHook: string := "Unknown hook"

  /** Every entry of the source's name table is `HOOK_` followed by the hook's own name. */
  const HookPrefix: string := "HOOK_"

  /** `sizeof(hook_names) / sizeof(hook_names[0])` */
  const HookCount: int := 63

  /**
   The hook name table as a function of the id: ids 49 to 60 are reserved slots
   holding a null pointer, and ids outside the table have no entry either.
   */
  function HookTable(hookId: int): (r: Option<string>)
    ensures r.Some? <==> 0 <= hookId < 49 || 61 <= hookId < HookCount
  {
    match hookId
    case 0 => Some("TOHIT")
    case 1 => Some("AFTERHITROLL")
    case 2 => Some("CALCAPCOST")
    case 3 => Some("DEATHANIM1")
    case 4 => Some("DEATHANIM2")
    case 5 => Some("COMBATDAMAGE")
    case 6 => Some("ONDEATH")
    case 7 => Some("FINDTARGET")
    case 8 => Some("USEOBJON")
    case 9 => Some("REMOVEINVENOBJ")
    case 10 => Some("BARTERPRICE")
    case 11 => Some("MOVECOST")
    case 12 => Some("HEXMOVEBLOCKING")
    case 13 => Some("HEXAIBLOCKING")
    case 14 => Some("HEXSHOOTBLOCKING")
    case 15 => Some("HEXSIGHTBLOCKING")
    case 16 => Some("ITEMDAMAGE")
    case 17 => Some("AMMOCOST")
    case 18 => Some("USEOBJ")
    case 19 => Some("KEYPRESS")
    case 20 => Some("MOUSECLICK")
    case 21 => Some("USESKILL")
    case 22 => Some("STEAL")
    case 23 => Some("WITHINPERCEPTION")
    case 24 => Some("INVENTORYMOVE")
    case 25 => Some("INVENWIELD")
    case 26 => Some("ADJUSTFID")
    case 27 => Some("COMBATTURN")
    case 28 => Some("CARTRAVEL")
    case 29 => Some("SETGLOBALVAR")
    case 30 => Some("RESTTIMER")
    case 31 => Some("GAMEMODECHANGE")
    case 32 => Some("USEANIMOBJ")
    case 33 => Some("EXPLOSIVETIMER")
    case 34 => Some("DESCRIPTIONOBJ")
    case 35 => Some("USESKILLON")
    case 36 => Some("ONEXPLOSION")
    case 37 => Some("SUBCOMBATDAMAGE")
    case 38 => Some("SETLIGHTING")
    case 39 => Some("SNEAK")
    case 40 => Some("STDPROCEDURE")
    case 41 => Some("STDPROCEDURE_END")
    case 42 => Some("TARGETOBJECT")
    case 43 => Some("ENCOUNTER")
    case 44 => Some("ADJUSTPOISON")
    case 45 => Some("ADJUSTRADS")
    case 46 => Some("ROLLCHECK")
    case 47 => Some("BESTWEAPON")
    case 48 => Some("CANUSEWEAPON")
    case 61 => Some("BUILDSFXWEAPON")
    case 62 => Some("COUNT")
    case _ => None
  }

  /** `get_hook_name(hookId)` */
  function GetHookName(hookId: Int32): (r: string)
    ensures hookId < 0 || hookId >= 63 ==> r == UnknownHook
    ensures 49 <= hookId <= 60 ==> r == UnknownHook
    ensures HookTable(hookId).Some? ==> r == HookPrefix + HookTable(hookId).value
  {
    if hookId < 0 || hookId >= HookCount || HookTable(hookId).None? then UnknownHook
    else HookPrefix + HookTable(hookId).value
  }

  /** Every named id's name starts with `HOOK_`, so it is never mistaken for the unknown marker. */
  lemma HookNamesArePrefixed(hookId: Int32)
    requires 0 <= hookId < 49 || 61 <= hookId < 63
    ensures |GetHookName(hookId)| >= 5 && GetHookName(hookId)[..5] == "HOOK_"
    ensures GetHookName(hookId) != UnknownHook
  {
    assert GetHookName(hookId)[0] == 'H' != UnknownHook[0];
  }

  /** The first and last named ids. */
  lemma HookNameEnds()
    ensures GetHookName(0) == "HOOK_TOHIT"
    ensures GetHookName(62) == "HOOK_COUNT"
  {
    assert HookTable(0) == Some("TOHIT");
    assert HookTable(62) == Some("COUNT");
  }

  /** The name just before the reserved slots. */
  lemma HookNameBeforeReserved()
    ensures GetHookName(48) == "HOOK_CANUSEWEAPON"
  {
    assert HookTable(48) == Some("CANUSEWEAPON");
  }

  /** The name just after the reserved slots. */
  lemma HookNameAfterReserved()
    ensures GetHookName(61) == "HOOK_BUILDSFXWEAPON"
  {
    assert HookTable(61) == Some("BUILDSFXWEAPON");
  }

  // ---------------------------------------------------------------------------
  // check_int_data
  // ---------------------------------------------------------------------------

  type Word16 = x: int | 0 <= x < 0x1_0000

  /** The push opcode, followed in the code by its 4-byte operand. */
  const OpcodePush: Word16 := 0xC001
  const RegisterHook: int := 0x207
  const RegisterHookProc: int := 0x262
  const RegisterHookProcSpec: int := 0x27D
  /** Size of the interpreter's opcode handler table. */
  const HandlerSlots: int := 0x400

  /** `(opcode >> 8) & 0x80`: the high bit marks an opcode word. */
  predicate IsOpcodeWord(w: Word16) {
    w >= 0x8000
  }

  /** `opcode & 0x3FF`: the handler slot. */
  function Slot(w: Word16): (r: int)
    ensures 0 <= r < HandlerSlots
  {
    w % HandlerSlots
  }

  /** How far one step moves: the opcode word, plus the operand after a push. */
  function Advance(w: Word16): (r: nat)
    ensures r == 2 || r == 6
    ensures r == 6 <==> Slot(w) == Slot(OpcodePush)
  {
    if Slot(w) == Slot(OpcodePush) then 6 else 2
  }

  /** Why the walk ended. `BadHookUsage` is where the scanner exits the process. */
  datatype Stop = Finished | WrongOpcode(at: nat) | BadHookUsage(at: nat)

  /**
   What the walk gathered for one file: the opcodes without a handler, the hook
   procedure indices registered, why it stopped and where.
   */
  datatype Walk = Walk(unknown: set<Word16>, hooks: set<Int32>, stop: Stop, at: nat)

  /** The code words and 32-bit operands as the scanner reads them, and the handler table. */
  datatype Code = Code(word: nat -> Word16, long: nat -> Int32, hasHandler: int -> bool)

  /** The hook procedure a register call at `i` names, if the pushes before it have the expected shape. */
  function HookProc(code: Code, i: nat, slot: int): (r: Option<Int32>)
    requires slot == RegisterHook || slot == RegisterHookProc || slot == RegisterHookProcSpec
  {
    if slot == RegisterHook then
      if i >= 6 && code.word(i - 6) == OpcodePush then Some(code.long(i - 4)) else None
    else
      if i >= 12 && code.word(i - 6) == OpcodePush && code.word(i - 12) == OpcodePush
      then Some(code.long(i - 10)) else None
  }

  predicate IsRegisterSlot(slot: int) {
    slot == RegisterHook || slot == RegisterHookProc || slot == RegisterHookProcSpec
  }

  /** One iteration of the loop at `i`; `None` when the loop goes on, else how it ends. */
  function StepAt(code: Code, i: nat, acc: Walk): (r: (Walk, Option<Stop>))
    ensures acc.unknown <= r.0.unknown && acc.hooks <= r.0.hooks
    ensures forall w :: w in r.0.unknown - acc.unknown ==> IsOpcodeWord(w) && !code.hasHandler(Slot(w))
    ensures r.1 == None ==> r.0.at == i + Advance(code.word(i))
    ensures r.1.Some? ==> r.0.at == i
    ensures r.1 == Some(WrongOpcode(i)) <==> !IsOpcodeWord(code.word(i))
    ensures IsOpcodeWord(code.word(i)) && !code.hasHandler(Slot(code.word(i))) ==> code.word(i) in r.0.unknown
  {
    var w := code.word(i);
    if !IsOpcodeWord(w) then (acc.(at := i), Some(WrongOpcode(i)))
    else
      var unknown := if code.hasHandler(Slot(w)) then acc.unknown else acc.unknown + {w};
      if IsRegisterSlot(Slot(w)) then
        match HookProc(code, i, Slot(w))
        case None => (acc.(unknown := unknown, at := i), Some(BadHookUsage(i)))
        case Some(p) => (acc.(unknown := unknown, hooks := acc.hooks + {p}, at := i + Advance(w)), None)
      else (acc.(unknown := unknown, at := i + Advance(w)), None)
  }

  /**
   The positions from `i` to `end` whose opcode the loop reads: every opcode word up to
   and including the first data word's predecessor or the first bad register call.
   */
  function Visited(code: Code, i: nat, end: nat): (r: set<nat>)
    decreases end - i
    ensures forall j :: j in r ==> i <= j < end && IsOpcodeWord(code.word(j))
  {
    if i >= end || !IsOpcodeWord(code.word(i)) then {}
    else
      var w := code.word(i);
      if IsRegisterSlot(Slot(w)) && HookProc(code, i, Slot(w)).None? then {i}
      else {i} + Visited(code, i + Advance(w), end)
  }

  /** The opcode words at `positions` that have no handler. */
  function Unhandled(code: Code, positions: set<nat>): set<Word16> {
    set j | j in positions && !code.hasHandler(Slot(code.word(j))) :: code.word(j)
  }

  /**
   The walk from `i` to `end`: it stops at the first word without the opcode bit,
   at a register call without the expected pushes, or once it reaches `end`.
   */
  function WalkFrom(code: Code, i: nat, end: nat, acc: Walk): (r: Walk)
    decreases end - i
    ensures acc.unknown <= r.unknown && acc.hooks <= r.hooks
    ensures forall w :: w in r.unknown - acc.unknown ==> IsOpcodeWord(w) && !code.hasHandler(Slot(w))
    ensures r.stop == Finished <==> r.at >= end
    ensures r.stop == Finished && i < end ==> r.at < end + 6
    ensures r.stop.WrongOpcode? ==> r.stop.at == r.at && i <= r.at < end && !IsOpcodeWord(code.word(r.at))
    ensures r.stop.BadHookUsage? ==> r.stop.at == r.at && i <= r.at < end
    ensures r.unknown == acc.unknown + Unhandled(code, Visited(code, i, end))
  {
    if i >= end then acc.(stop := Finished, at := i)
    else
      var (next, stop) := StepAt(code, i, acc);
      match stop
      case Some(s) => next.(stop := s)
      case None => WalkFrom(code, next.at, end, next)
  }

  const Nothing: Walk := Walk({}, {}, Finished, 0)

  /** A code word without the opcode bit at the start ends the walk there, having recorded nothing. */
  lemma WalkStopsAtData(code: Code, i: nat, end: nat)
    requires i < end && !IsOpcodeWord(code.word(i))
    ensures WalkFrom(code, i, end, Nothing) == Walk({}, {}, WrongOpcode(i), i)
  {
  }

  /** An opcode that has a handler is never reported. */
  lemma HandledOpcodesNotReported(code: Code, start: nat, end: nat, w: Word16)
    requires code.hasHandler(Slot(w))
    ensures w !in WalkFrom(code, start, end, Nothing).unknown
  {
  }

  /**
   `check_int_data(fName, data, start_pos, end_pos)` on one file: the loop, with
   the walk it computes.
   */
  method CheckIntData(code: Code, start: nat, end: nat) returns (r: Walk)
    ensures r == WalkFrom(code, start, end, Nothing)
    ensures forall w :: w in r.unknown ==> IsOpcodeWord(w) && !code.hasHandler(Slot(w))
    ensures r.stop == Finished ==> r.at >= end
  {
    var i := start;
    var acc := Nothing;
    while i < end
      invariant WalkFrom(code, i, end, acc) == WalkFrom(code, start, end, Nothing)
      decreases end - i
    {
      var w := code.word(i);
      if !IsOpcodeWord(w) {
        return acc.(stop := WrongOpcode(i), at := i);
      }
      if !code.hasHandler(Slot(w)) {
        acc := acc.(unknown := acc.unknown + {w});
      }
      if IsRegisterSlot(Slot(w)) {
        var p := HookProc(code, i, Slot(w));
        if p.None? {
          return acc.(stop := BadHookUsage(i), at := i);
        }
        acc := acc.(hooks := acc.hooks + {p.value});
      }
      i := i + 2;
      if Slot(w) == Slot(OpcodePush) {
        i := i + 4;
      }
      acc := acc.(at := i);
    }
    return acc.(stop := Finished, at := i);
  }
}

=== FILE: sfall_ini.dfy ===
/**
 The INI triplet accessor: `"file|section|key"` strings name one setting of one INI
 file. The file is looked up in a configurable base directory first (except for the
 two engine configuration files) and in the working directory otherwise; a missing
 file or key reads as the empty string, and integers are read with `atol` and
 written in decimal.

 The configuration store is an abstract collaborator: `Disk` maps a path to the
 parsed file, reading succeeds exactly for the paths it holds, and whether a write
 reaches the disk is the parameter `writeOk`.
 */
module SfallIni {
  import opened Values
  import StringRules

  /** Longest file-name chunk the parser accepts. */
  const FileNameMaxSize: int := 63

  /** Longest section chunk the parser accepts. */
  const SectionMaxSize: int := 32

  /** The buffer the callers pass for the file name (`char fileName[kFileNameMaxSize]`). */
  const CallerFileNameBuffer: int := 63

  /** The buffer the callers pass for the section (`char section[kSectionMaxSize]`). */
  const CallerSectionBuffer: int := 32

  /** Buffers with room for the longest accepted chunk and its terminator. */
  const CorrectedFileNameBuffer: int := FileNameMaxSize + 1
  const CorrectedSectionBuffer: int := SectionMaxSize + 1

  datatype Triplet = Triplet(fileName: Bytes, section: Bytes, key: Bytes)

  predicate PipeFree(s: Bytes) {
    forall i :: 0 <= i < |s| ==> s[i] != '|'
  }

  /** `strchr(s + from, '|')` as an index, or `|s|` when there is none. */
  function NextPipe(s: Bytes, from: nat): (r: nat)
    requires from <= |s|
    ensures from <= r <= |s|
    ensures r < |s| ==> s[r] == '|'
    ensures PipeFree(s[from..r])
    decreases |s| - from
  {
    if from == |s| || s[from] == '|' then from
    else
      var r := NextPipe(s, from + 1);
      assert s[from..r] == [s[from]] + s[from + 1..r];
      r
  }

  /** Splits a triplet at its first two `|`; the key keeps any further `|`. */
  function ParseTriplet(t: Bytes): (r: Option<Triplet>)
    ensures r.Some? ==> PipeFree(r.value.fileName) && |r.value.fileName| <= FileNameMaxSize
    ensures r.Some? ==> PipeFree(r.value.section) && |r.value.section| <= SectionMaxSize
    ensures r.Some? ==> t == r.value.fileName + "|" + r.value.section + "|" + r.value.key
  {
    var i := NextPipe(t, 0);
    if i == |t| || i > FileNameMaxSize then None
    else
      var j := NextPipe(t, i + 1);
      if j == |t| || j - i - 1 > SectionMaxSize then None
      else
        assert t == t[..i] + "|" + t[i + 1..j] + "|" + t[j + 1..];
        Some(Triplet(t[..i], t[i + 1..j], t[j + 1..]))
  }

  function JoinTriplet(p: Triplet): Bytes {
    p.fileName + "|" + p.section + "|" + p.key
  }

  lemma NextPipeAt(a: Bytes, b: Bytes)
    requires PipeFree(a)
    ensures NextPipe(a + "|" + b, 0) == |a|
  {
    var s := a + "|" + b;
    assert s[|a|] == '|';
  }

  lemma NextPipeAfter(a: Bytes, b: Bytes, c: Bytes)
    requires PipeFree(b)
    ensures NextPipe(a + "|" + b + "|" + c, |a| + 1) == |a| + 1 + |b|
  {
    var s := a + "|" + b + "|" + c;
    var m := |a| + 1 + |b|;
    assert s[m] == '|';
  }

  /**
   Joining pipe-free chunks within the limits and parsing gives them back: the
   parser accepts exactly the joins and recovers the parts.
   */
  lemma ParseJoin(p: Triplet)
    requires PipeFree(p.fileName) && |p.fileName| <= FileNameMaxSize
    requires PipeFree(p.section) && |p.section| <= SectionMaxSize
    ensures ParseTriplet(JoinTriplet(p)) == Some(p)
  {
    JoinPipes(p.fileName, p.section, p.key);
    JoinSlices(p.fileName, p.section, p.key);
  }

  /** Where the two separators of a join are found. */
  lemma JoinPipes(a: Bytes, b: Bytes, c: Bytes)
    requires PipeFree(a) && PipeFree(b)
    ensures NextPipe(a + "|" + b + "|" + c, 0) == |a|
    ensures NextPipe(a + "|" + b + "|" + c, |a| + 1) == |a| + 1 + |b|
  {
    NextPipeAt(a, b + "|" + c);
    assert a + "|" + b + "|" + c == a + "|" + (b + "|" + c);
    NextPipeAfter(a, b, c);
  }

  /** The three chunks between the separators of a join. */
  lemma JoinSlices(a: Bytes, b: Bytes, c: Bytes)
    ensures var t := a + "|" + b + "|" + c;
      && t[..|a|] == a && t[|a| + 1..|a| + 1 + |b|] == b && t[|a| + 1 + |b| + 1..] == c
  {
  }

  /** A triplet whose file name is too long is refused, whatever follows it. */
  lemma ParseRejectsLongFileName(a: Bytes, rest: Bytes)
    requires PipeFree(a) && |a| > FileNameMaxSize
    ensures ParseTriplet(a + "|" + rest) == None
  {
    NextPipeAt(a, rest);
  }

  /** A triplet with fewer than two `|` is refused. */
  lemma ParseRejectsMissingPipe(a: Bytes, b: Bytes)
    requires PipeFree(b)
    ensures ParseTriplet(b) == None
    ensures PipeFree(a) ==> ParseTriplet(a + "|" + b) == None
  {
    if PipeFree(a) {
      var t := a + "|" + b;
      NextPipeAt(a, b);
    }
  }

  // ---------------------------------------------------------------------------
  // The terminator writes of the parser
  // ---------------------------------------------------------------------------

  /**
   After a successful parse the parser stores a terminator at index
   `|fileName|` of the file-name buffer and at index `|section|` of the section
   buffer; both stores stay inside buffers of the given sizes.
   */
  predicate TerminatorsFit(t: Bytes, fileNameBuffer: int, sectionBuffer: int) {
    var p := ParseTriplet(t);
    p.Some? ==> |p.value.fileName| < fileNameBuffer && |p.value.section| < sectionBuffer
  }

  /**
   With the callers' buffers as declared, a file name of the full 63 bytes has its
   terminator stored one byte past the end of `fileName`, and a 32-byte section one
   past the end of `section`.
   */
  lemma TerminatorOverrunAsWritten()
    ensures exists t :: ParseTriplet(t).Some? && !TerminatorsFit(t, CallerFileNameBuffer, CallerSectionBuffer)
  {
    var name: Bytes := seq(63, _ => 'a');
    var p := Triplet(name, "s", "k");
    assert PipeFree(name);
    ParseJoin(p);
    var t := JoinTriplet(p);
    assert ParseTriplet(t) == Some(p);
    assert |ParseTriplet(t).value.fileName| == 63;
  }

  /** Every section of exactly 32 bytes also overruns the declared section buffer. */
  lemma SectionOverrunAsWritten(p: Triplet)
    requires PipeFree(p.fileName) && |p.fileName| <= FileNameMaxSize
    requires PipeFree(p.section) && |p.section| == SectionMaxSize
    ensures !TerminatorsFit(JoinTriplet(p), CallerFileNameBuffer, CallerSectionBuffer)
  {
    ParseJoin(p);
  }

  /** Buffers one byte longer than the limits hold every accepted chunk and its terminator. */
  lemma TerminatorsFitCorrected(t: Bytes)
    ensures TerminatorsFit(t, CorrectedFileNameBuffer, CorrectedSectionBuffer)
  {
  }

  // ---------------------------------------------------------------------------
  // Base path and the file a name resolves to
  // ---------------------------------------------------------------------------

  /** `sfall_ini_set_base_path`: at most one trailing `\` or `/` removed; null clears it. */
  function SetBasePath(path: Option<Bytes>): (r: Bytes)
    ensures path.None? ==> r == []
    ensures path.Some? ==> |r| <= |path.value| && r == path.value[..|r|]
    ensures path.Some? && |path.value| > 0 && path.value[|path.value| - 1] in "\\/" ==> |r| == |path.value| - 1
    ensures path.Some? && (|path.value| == 0 || path.value[|path.value| - 1] !in "\\/") ==> r == path.value
  {
    match path
    case None => []
    case Some(p) =>
      if |p| > 0 && (p[|p| - 1] == '\\' || p[|p| - 1] == '/') then p[..|p| - 1] else p
  }

  /** Only one separator goes: a path ending in two keeps the first. */
  lemma SetBasePathStripsOnce()
    ensures SetBasePath(Some("mods//")) == "mods/"
    ensures SetBasePath(Some("\\")) == []
  {
    assert "mods//"[..5] == "mods/";
  }

  /** The two engine configuration files that are never looked up in the base directory. */
  const SystemConfigFileNames: seq<Bytes> := ["ddraw.ini", "f2_res.ini"]

  /** `is_system_file_name`, with the platform's `compat_stricmp` equality as a parameter. */
  predicate IsSystemFileName(name: Bytes, stricmpEqual: (Bytes, Bytes) -> bool) {
    exists i :: 0 <= i < |SystemConfigFileNames| && stricmpEqual(SystemConfigFileNames[i], name)
  }

  /** The path `"%s\\%s"` builds from the base directory and a file name. */
  function InBase(base: Bytes, name: Bytes): Bytes {
    base + "\\" + name
  }

  /**
   A parsed INI file: section to key to value. The store compares section and key
   names ignoring ASCII case, so both maps are keyed by `NameKey` of the name.
   */
  type Config = map<Bytes, map<Bytes, Bytes>>

  /** The form under which the store files a section or key name. */
  function NameKey(name: Bytes): Bytes {
    StringRules.LowerAll(name)
  }

  /** The files reading can find, by path. */
  type Disk = map<Bytes, Config>

  /** Whether the base-directory candidate is tried at all. */
  predicate TriesBase(base: Bytes, name: Bytes, stricmpEqual: (Bytes, Bytes) -> bool) {
    base != [] && !IsSystemFileName(name, stricmpEqual)
  }

  /**
   The path the loader ends on: the base-directory candidate when it is tried and
   read, else the bare name. Writing goes to this path.
   */
  function ResolvePath(disk: Disk, base: Bytes, name: Bytes, stricmpEqual: (Bytes, Bytes) -> bool): (r: Bytes)
    ensures r == InBase(base, name) || r == name
    ensures r == InBase(base, name) <==> TriesBase(base, name, stricmpEqual) && InBase(base, name) in disk
    ensures !TriesBase(base, name, stricmpEqual) ==> r == name
  {
    if TriesBase(base, name, stricmpEqual) && InBase(base, name) in disk then InBase(base, name) else name
  }

  /** The configuration loaded for `name`, when any candidate was read. */
  function Load(disk: Disk, base: Bytes, name: Bytes, stricmpEqual: (Bytes, Bytes) -> bool): (r: Option<Config>)
    ensures r.Some? <==> ResolvePath(disk, base, name, stricmpEqual) in disk
    ensures r.Some? ==> r.value == disk[ResolvePath(disk, base, name, stricmpEqual)]
  {
    var path := ResolvePath(disk, base, name, stricmpEqual);
    if path in disk then Some(disk[path]) else None
  }

  function Lookup(c: Config, section: Bytes, key: Bytes): Option<Bytes> {
    var s, k := NameKey(section), NameKey(key);
    if s in c && k in c[s] then Some(c[s][k]) else None
  }

  /** Names that differ only in ASCII case find the same entry. */
  lemma LookupIgnoresCase(c: Config, section: Bytes, key: Bytes, section': Bytes, key': Bytes)
    requires StringRules.LowerAll(section) == StringRules.LowerAll(section')
    requires StringRules.LowerAll(key) == StringRules.LowerAll(key')
    ensures Lookup(c, section, key) == Lookup(c, section', key')
  {
  }

  /**
   `sfall_ini_get_string` with a buffer of `size` bytes: None when the triplet does
   not parse; otherwise the stored value cut to `size - 1` bytes, or the empty
   string when the file or key is missing.
   */
  function GetString(disk: Disk, base: Bytes, triplet: Bytes, size: int, stricmpEqual: (Bytes, Bytes) -> bool): (r: Option<Bytes>)
    requires size >= 1
    ensures r.None? <==> ParseTriplet(triplet).None?
    ensures r.Some? ==> |r.value| <= size - 1
    ensures r.Some? ==>
      var p := ParseTriplet(triplet).value;
      var c := Load(disk, base, p.fileName, stricmpEqual);
      if c.Some? && Lookup(c.value, p.section, p.key).Some?
      then
        var v := Lookup(c.value, p.section, p.key).value;
        r.value == v[..if |v| <= size - 1 then |v| else size - 1]
      else r.value == []
  {
    match ParseTriplet(triplet)
    case None => None
    case Some(p) =>
      match Load(disk, base, p.fileName, stricmpEqual)
      case None => Some([])
      case Some(c) =>
        match Lookup(c, p.section, p.key)
        case None => Some([])
        case Some(v) => Some(if |v| <= size - 1 then v else v[..size - 1])
  }

  /**
   `sfall_ini_set_string`: None when the triplet does not parse; otherwise the
   loaded configuration (empty when no candidate was read) with the key set is
   written to the resolved path, and the result says whether the write succeeded.
   */
  function SetString(disk: Disk, base: Bytes, triplet: Bytes, value: Bytes, writeOk: bool,
                     stricmpEqual: (Bytes, Bytes) -> bool): (r: (bool, Disk))
    ensures ParseTriplet(triplet).None? ==> r == (false, disk)
    ensures r.0 <==> ParseTriplet(triplet).Some? && writeOk
    ensures !r.0 ==> r.1 == disk
    ensures r.0 ==>
      var p := ParseTriplet(triplet).value;
      var path := ResolvePath(disk, base, p.fileName, stricmpEqual);
      && path in r.1 && Lookup(r.1[path], p.section, p.key) == Some(value)
      && r.1.Keys == disk.Keys + {path}
      && (forall q :: q in disk && q != path ==> r.1[q] == disk[q])
  {
    match ParseTriplet(triplet)
    case None => (false, disk)
    case Some(p) =>
      var path := ResolvePath(disk, base, p.fileName, stricmpEqual);
      var c := if path in disk then disk[path] else map[];
      var sk, kk := NameKey(p.section), NameKey(p.key);
      var s := if sk in c then c[sk] else map[];
      var c' := c[sk := s[kk := value]];
      if writeOk then (true, disk[path := c']) else (false, disk)
  }

  /** Entries whose section or key differs from the one written, beyond ASCII case, keep their values. */
  lemma SetStringKeepsOtherKeys(disk: Disk, base: Bytes, triplet: Bytes, value: Bytes, writeOk: bool,
                                stricmpEqual: (Bytes, Bytes) -> bool, section: Bytes, key: Bytes)
    requires ParseTriplet(triplet).Some? && writeOk
    requires var p := ParseTriplet(triplet).value; NameKey(section) != NameKey(p.section) || NameKey(key) != NameKey(p.key)
    requires ResolvePath(disk, base, ParseTriplet(triplet).value.fileName, stricmpEqual) in disk
    ensures var p := ParseTriplet(triplet).value;
            var path := ResolvePath(disk, base, p.fileName, stricmpEqual);
            var r := SetString(disk, base, triplet, value, writeOk, stricmpEqual);
            Lookup(r.1[path], section, key) == Lookup(disk[path], section, key)
  {
  }

  /**
   Writing and then reading the same triplet gives the value back, whether the file
   already existed in the base directory, in the working directory, or nowhere.
   */
  lemma {:induction false} SetThenGet(disk: Disk, base: Bytes, triplet: Bytes, value: Bytes, size: int,
                                       stricmpEqual: (Bytes, Bytes) -> bool)
    requires size >= 1 && |value| <= size - 1
    requires ParseTriplet(triplet).Some?
    ensures var disk' := SetString(disk, base, triplet, value, true, stricmpEqual).1;
            GetString(disk', base, triplet, size, stricmpEqual) == Some(value)
  {
    SetThenGetAnyCase(disk, base, triplet, triplet, value, size, stricmpEqual);
  }

  /**
   The value written is read back through any triplet naming the same file and the
   same section and key up to ASCII case.
   */
  lemma {:induction false} SetThenGetAnyCase(disk: Disk, base: Bytes, triplet: Bytes, other: Bytes, value: Bytes,
                                              size: int, stricmpEqual: (Bytes, Bytes) -> bool)
    requires size >= 1 && |value| <= size - 1
    requires ParseTriplet(triplet).Some? && ParseTriplet(other).Some?
    requires var p, q := ParseTriplet(triplet).value, ParseTriplet(other).value;
             && q.fileName == p.fileName
             && NameKey(q.section) == NameKey(p.section) && NameKey(q.key) == NameKey(p.key)
    ensures var disk' := SetString(disk, base, triplet, value, true, stricmpEqual).1;
            GetString(disk', base, other, size, stricmpEqual) == Some(value)
  {
    var p := ParseTriplet(triplet).value;
    var name := p.fileName;
    var path := ResolvePath(disk, base, name, stricmpEqual);
    var disk' := SetString(disk, base, triplet, value, true, stricmpEqual).1;
    assert path in disk';
    if TriesBase(base, name, stricmpEqual) && InBase(base, name) !in disk {
      assert path == name;
      assert |InBase(base, name)| > |name|;
      assert InBase(base, name) !in disk';
    }
    assert ResolvePath(disk', base, name, stricmpEqual) == path;
  }

  // ---------------------------------------------------------------------------
  // Integers
  // ---------------------------------------------------------------------------

  predicate IsDigit(c: Byte) {
    '0' <= c <= '9'
  }

  /** The characters `isspace` accepts in the C locale. */
  predicate IsSpace(c: Byte) {
    c == ' ' || c == '\t' || c == '\n' || c == '\r' || c as int == 0x0B || c as int == 0x0C
  }

  function DigitValue(c: Byte): nat
    requires IsDigit(c)
  {
    c as int - '0' as int
  }

  predicate AllDigits(s: Bytes) {
    forall i :: 0 <= i < |s| ==> IsDigit(s[i])
  }

  /** The value of a run of decimal digits, most significant first. */
  function DigitsValue(s: Bytes): nat
    requires AllDigits(s)
    decreases |s|
  {
    if s == [] then 0 else DigitsValue(s[..|s| - 1]) * 10 + DigitValue(s[|s| - 1])
  }

  /** The longest run of digits at the start of `s`. */
  function LeadingDigits(s: Bytes): (r: Bytes)
    ensures AllDigits(r) && |r| <= |s| && r == s[..|r|]
    ensures |r| < |s| ==> !IsDigit(s[|r|])
    decreases |s|
  {
    if s == [] || !IsDigit(s[0]) then []
    else
      var r := LeadingDigits(s[1..]);
      assert [s[0]] + r == s[..|r| + 1];
      [s[0]] + r
  }

  function SkipSpaces(s: Bytes): (r: Bytes)
    ensures |r| <= |s| && r == s[|s| - |r|..]
    ensures r == [] || !IsSpace(r[0])
    decreases |s|
  {
    if s != [] && IsSpace(s[0]) then SkipSpaces(s[1..]) else s
  }

  /** The range of a 64-bit `long`, where `strtol` saturates. */
  const LongMin: int := -0x8000_0000_0000_0000
  const LongMax: int := 0x7FFF_FFFF_FFFF_FFFF

  /** The value of the digits at the start of `body`; 0 when there are none. */
  function UnsignedPrefix(body: Bytes): nat {
    DigitsValue(LeadingDigits(body))
  }

  /** An optional sign, then the digits after it. */
  function SignedPrefix(t: Bytes): int {
    if t != [] && t[0] == '-' then -(UnsignedPrefix(t[1..]) as int)
    else if t != [] && t[0] == '+' then UnsignedPrefix(t[1..])
    else UnsignedPrefix(t)
  }

  function SaturateLong(v: int): (r: int)
    ensures LongMin <= r <= LongMax
    ensures LongMin <= v <= LongMax ==> r == v
  {
    if v < LongMin then LongMin else if v > LongMax then LongMax else v
  }

  /**
   `atol`: leading white space, an optional sign and the decimal digits after it;
   anything else ends the number, and no digits read as 0 (section 7.22.1.4 of
   ISO/IEC 9899:2011). Out-of-range values saturate at the `long` bounds.
   */
  function Atol(s: Bytes): (r: int)
    ensures LongMin <= r <= LongMax
  {
    SaturateLong(SignedPrefix(SkipSpaces(s)))
  }

  /** The decimal digits of a natural number, without leading zeros. */
  function Digits(n: nat): (r: Bytes)
    ensures |r| >= 1 && AllDigits(r)
    decreases n
  {
    if n < 10 then [('0' as int + n) as char]
    else Digits(n / 10) + [('0' as int + n % 10) as char]
  }

  /** The absolute value of a 32-bit integer. */
  function Magnitude(v: Int32): (m: nat)
    ensures m <= 0x8000_0000
    ensures v < 0 ==> v == -(m as int)
    ensures v >= 0 ==> v == m
  {
    if v < 0 then -(v as int) else v as int
  }

  /** `compat_itoa(value, buffer, 10)`: a `-` for negative values, then the digits. */
  function Itoa(v: Int32): (r: Bytes)
    ensures 1 <= |r| <= 11
  {
    var m := Magnitude(v);
    DigitsLength(m);
    if v < 0 then "-" + Digits(m) else Digits(m)
  }

  lemma {:induction false} DigitsLength(n: nat)
    requires n <= 0x8000_0000
    ensures |Digits(n)| <= 10
    decreases n
  {
    assert Pow10(10) == 10_000_000_000 by {
      assert Pow10(5) == 100_000;
    }
    DigitsShort(n, 9);
  }

  lemma {:induction false} DigitsShort(n: nat, k: nat)
    requires n < Pow10(k + 1)
    ensures |Digits(n)| <= k + 1
    decreases k
  {
    if n >= 10 {
      assert k >= 1 by {
        assert Pow10(0) == 1;
      }
      assert n / 10 < Pow10(k);
      DigitsShort(n / 10, k - 1);
    }
  }

  function Pow10(k: nat): (r: nat)
    ensures r >= 1
  {
    if k == 0 then 1 else 10 * Pow10(k - 1)
  }

  lemma {:induction false} DigitsValueOf(n: nat)
    ensures DigitsValue(Digits(n)) == n
    decreases n
  {
    var d := Digits(n);
    if n >= 10 {
      DigitsValueOf(n / 10);
      assert d[..|d| - 1] == Digits(n / 10);
    }
  }

  lemma LeadingDigitsAll(s: Bytes)
    requires AllDigits(s)
    ensures LeadingDigits(s) == s
  {
  }

  /** The digits of a number read back as that number. */
  lemma UnsignedPrefixDigits(m: nat)
    ensures UnsignedPrefix(Digits(m)) == m
    ensures SkipSpaces(Digits(m)) == Digits(m) && SignedPrefix(Digits(m)) == m
  {
    var d := Digits(m);
    DigitsValueOf(m);
    LeadingDigitsAll(d);
    assert IsDigit(d[0]);
  }

  /** `atol` reads back what `compat_itoa` wrote, for every 32-bit value. */
  lemma AtolItoa(v: Int32)
    ensures Atol(Itoa(v)) == v
  {
    var m := Magnitude(v);
    var d := Digits(m);
    UnsignedPrefixDigits(m);
    if v < 0 {
      var s := "-" + d;
      assert s[0] == '-' && s[1..] == d;
      assert SkipSpaces(s) == s;
      assert SignedPrefix(s) == v;
    }
  }

  /** The buffer `sfall_ini_get_int` reads into (`char string[20]`). */
  const IntBufferSize: int := 20

  /**
   `sfall_ini_get_int`: None exactly when the string read fails; otherwise `atol`
   of at most 19 bytes, narrowed to `int`.
   */
  function GetInt(disk: Disk, base: Bytes, triplet: Bytes, stricmpEqual: (Bytes, Bytes) -> bool): (r: Option<Int32>)
    ensures r.None? <==> GetString(disk, base, triplet, IntBufferSize, stricmpEqual).None?
    ensures r.Some? && GetString(disk, base, triplet, IntBufferSize, stricmpEqual) == Some([]) ==> r.value == 0
  {
    match GetString(disk, base, triplet, IntBufferSize, stricmpEqual)
    case None => None
    case Some(s) => Some(Wrap32(Atol(s)))
  }

  /**
   The integer read is `atol` of the first 19 bytes of the stored text, narrowed to
   `int`; a missing file or key reads as 0.
   */
  lemma GetIntReadsStoredText(disk: Disk, base: Bytes, triplet: Bytes, stricmpEqual: (Bytes, Bytes) -> bool)
    requires ParseTriplet(triplet).Some?
    ensures var p := ParseTriplet(triplet).value;
            var c := Load(disk, base, p.fileName, stricmpEqual);
            GetInt(disk, base, triplet, stricmpEqual) == Some(
              if c.Some? && Lookup(c.value, p.section, p.key).Some?
              then
                var v := Lookup(c.value, p.section, p.key).value;
                Wrap32(Atol(v[..if |v| <= IntBufferSize - 1 then |v| else IntBufferSize - 1]))
              else 0)
  {
  }

  /** `sfall_ini_set_int`: the decimal text of the value, written through `SetString`. */
  function SetInt(disk: Disk, base: Bytes, triplet: Bytes, value: Int32, writeOk: bool,
                  stricmpEqual: (Bytes, Bytes) -> bool): (r: (bool, Disk))
    ensures r.0 <==> ParseTriplet(triplet).Some? && writeOk
  {
    SetString(disk, base, triplet, Itoa(value), writeOk, stricmpEqual)
  }

  /** Writing an integer and reading it back gives the same integer. */
  lemma SetIntThenGetInt(disk: Disk, base: Bytes, triplet: Bytes, value: Int32, stricmpEqual: (Bytes, Bytes) -> bool)
    requires ParseTriplet(triplet).Some?
    ensures var disk' := SetInt(disk, base, triplet, value, true, stricmpEqual).1;
            GetInt(disk', base, triplet, stricmpEqual) == Some(value)
  {
    SetThenGet(disk, base, triplet, Itoa(value), IntBufferSize, stricmpEqual);
    AtolItoa(value);
  }

  /** `atol` reads decimal only: a hexadecimal prefix stops the number after its `0`. */
  lemma AtolHexIsZero()
    ensures Atol("0x10") == 0
  {
    var s: Bytes := "0x10";
    assert SkipSpaces(s) == s;
    assert LeadingDigits(s[1..]) == [];
    assert LeadingDigits(s) == "0";
    assert UnsignedPrefix(s) == 0;
  }

  /** A leading zero does not select octal. */
  lemma AtolLeadingZeroIsDecimal()
    ensures Atol("010") == 10
  {
    var s: Bytes := "010";
    assert SkipSpaces(s) == s;
    LeadingDigitsAll(s);
    assert s[..2] == "01" && s[..2][..1] == "0";
    assert DigitsValue(s) == 10;
  }

  /** Leading blanks and a sign are accepted; the number ends at the first other byte. */
  lemma AtolStopsAtText()
    ensures Atol(" -7 apples") == -7
  {
    var s: Bytes := " -7 apples";
    var t := s[1..];
    var body := t[1..];
    assert SkipSpaces(s) == t by {
      assert IsSpace(s[0]) && !IsSpace(t[0]);
      assert SkipSpaces(t) == t;
    }
    assert SignedPrefix(t) == -(UnsignedPrefix(body) as int) by {
      assert t != [] && t[0] == '-';
    }
    assert UnsignedPrefix(body) == 7 by {
      assert LeadingDigits(body[1..]) == [] by {
        assert !IsDigit(body[1..][0]);
      }
      assert LeadingDigits(body) == "7";
      assert DigitsValue("7") == 7 by {
        assert "7"[..0] == [];
      }
    }
  }

  // ---------------------------------------------------------------------------
  // Script entry points
  // ---------------------------------------------------------------------------

  /** `get_ini_setting(triplet)`: the integer read, or -1 when the triplet does not parse. */
  function GetIniSetting(disk: Disk, base: Bytes, triplet: Bytes, stricmpEqual: (Bytes, Bytes) -> bool): (r: Value)
    ensures ParseTriplet(triplet).None? ==> r == Int(-1)
    ensures ParseTriplet(triplet).Some? ==> r == Int(GetInt(disk, base, triplet, stricmpEqual).value)
  {
    match GetInt(disk, base, triplet, stricmpEqual)
    case Some(v) => Int(v)
    case None => Int(-1)
  }

  /** The buffer `get_ini_string` reads into (`char value[256]`). */
  const StringBufferSize: int := 256

  /** `get_ini_string(triplet)`: the string read (at most 255 bytes), or the integer -1. */
  function GetIniString(disk: Disk, base: Bytes, triplet: Bytes, stricmpEqual: (Bytes, Bytes) -> bool): (r: Value)
    ensures ParseTriplet(triplet).None? <==> r == Int(-1)
    ensures r.Str? ==> |r.s| < StringBufferSize
    ensures ParseTriplet(triplet).Some? ==> r.Str?
  {
    match GetString(disk, base, triplet, StringBufferSize, stricmpEqual)
    case Some(s) => Str(s)
    case None => Int(-1)
  }

  /** The interpreter's integer reading of a non-string value; only integers are modelled. */
  function NumericValue(v: Value, otherAsInt: Value -> Int32): (r: Int32)
    ensures v.Int? ==> r == v.i
  {
    if v.Int? then v.i else otherAsInt(v)
  }

  /**
   `set_ini_setting(triplet, value)`: a string value is written as is, any other as
   decimal text; the script always receives -1, whether or not the write happened.
   */
  function SetIniSetting(argv: seq<Value>, disk: Disk, base: Bytes, writeOk: bool,
                         stricmpEqual: (Bytes, Bytes) -> bool, otherAsInt: Value -> Int32): (r: Result<(Value, Disk)>)
    requires |argv| == 2
    ensures r.Ok? <==> argv[0].Str?
    ensures r.Ok? ==> r.value.0 == Int(-1)
    ensures r.Ok? && argv[1].Str? ==> r.value.1 == SetString(disk, base, argv[0].s, argv[1].s, writeOk, stricmpEqual).1
    ensures r.Ok? && argv[1].Int? ==> r.value.1 == SetInt(disk, base, argv[0].s, argv[1].i, writeOk, stricmpEqual).1
    ensures r.Ok? && (ParseTriplet(argv[0].s).None? || !writeOk) ==> r.value.1 == disk
  {
    var triplet :- AsString(argv[0]);
    var value := argv[1];
    var written :=
      if value.Str? then SetString(disk, base, triplet, value.s, writeOk, stricmpEqual)
      else SetInt(disk, base, triplet, NumericValue(value, otherAsInt), writeOk, stricmpEqual);
    Ok((Int(-1), written.1))
  }
}

=== FILE: sfall_opcodes.dfy ===
/**
 The pure parts of the sfall script opcodes: `substr`'s index arithmetic, `div`,
 the offset guard of `get_proto_data`/`set_proto_data`, string indexing through
 `get_array`, `charcode`, `typeof`, `sprintf`, the `sfall_funcN` family and the
 stack effects of `metarule2_explosions`.

 Each opcode pops its operands last-argument-first, so the script's first operand
 is the deepest one.
 */
module SfallOpcodes {
  import opened Values
  import opened Registry
  import FormatLite
  import Dispatch

  /** Two integer pops in a row: the top one first. */
  function PopTwoIntegers(st: Stack): (r: Result<(Int32, Int32, Stack)>)
    ensures r.Ok? <==> |st| >= 2 && st[|st| - 1].Int? && st[|st| - 2].Int?
    ensures r.Ok? ==> r.value == (st[|st| - 1].i, st[|st| - 2].i, st[..|st| - 2])
  {
    var (top, st1) :- PopInteger(st);
    assert st1 == st[..|st| - 1];
    var (next, st2) :- PopInteger(st1);
    assert st2 == st[..|st| - 2];
    Ok((top, next, st2))
  }

  // ---------------------------------------------------------------------------
  // substr(str, start, length)
  // ---------------------------------------------------------------------------

  /** `op_substr` builds its result in `char buf[5120]`. */
  const SubstrBufferSize: int := 5120
  const MaxSubstr: int := SubstrBufferSize - 1

  /** `static_cast<int>(strlen(str))`. */
  function CLength(str: Bytes): (r: Int32)
    ensures r <= |str|
    ensures |str| < 0x8000_0000 ==> r == |str|
  {
    Wrap32(|str|)
  }

  /** C's `abs` on an `int`; `abs(INT_MIN)` stays `INT_MIN` on two's-complement targets. */
  function Abs32(x: Int32): (r: Int32)
    ensures x > -0x8000_0000 ==> r >= 0 && (r == x || r == -x)
  {
    if x < 0 then Wrap32(-(x as int)) else x
  }

  /** The start position after counting a negative start from the end. */
  function NormalStart(len: Int32, startPos: Int32): (r: Int32)
    ensures r >= 0
    ensures startPos >= 0 ==> r == startPos
    ensures startPos < 0 && len >= 0 ==> r == if startPos + len < 0 then 0 else startPos + len
  {
    if startPos < 0 then
      var t := Wrap32(startPos + len);
      if t < 0 then 0 else t
    else startPos
  }

  /**
   The copy `op_substr` performs, as written: `None` when it returns the empty
   string early, otherwise the start position and the byte count passed to
   `memcpy`. The "runs past the end" test adds `length + startPos` in `int`.
   */
  function SubstrCopyAsWritten(len: Int32, startPos: Int32, length: Int32): (r: Option<(int, int)>)
    ensures r.Some? ==> 0 <= r.value.0 < len && 0 <= r.value.1 <= MaxSubstr
  {
    var s := NormalStart(len, startPos);
    var l1 := if length < 0 then Wrap32(length + Wrap32(len - s)) else length;
    if length < 0 && l1 == 0 then None
    else
      var l2 := if length < 0 then Abs32(l1) else l1;
      if s >= len then None
      else
        var l3 := if l2 == 0 || Wrap32(l2 + s) > len then len - s else l2;
        Some((s, if l3 < 0 || l3 > MaxSubstr then MaxSubstr else l3))
  }

  /**
   The copy with the "runs past the end" test written as `length > len - startPos`,
   which cannot overflow once `0 <= startPos < len`: the bytes copied always lie
   inside the string.
   */
  function SubstrCopy(len: Int32, startPos: Int32, length: Int32): (r: Option<(int, int)>)
    ensures r.Some? ==> 0 <= r.value.0 && 0 < r.value.1 <= MaxSubstr && r.value.0 + r.value.1 <= len
    ensures r.Some? ==> r.value.0 == NormalStart(len, startPos)
    ensures r.None? <==> NormalStart(len, startPos) >= len
                         || (length < 0 && Wrap32(length + Wrap32(len - NormalStart(len, startPos))) == 0)
  {
    var s := NormalStart(len, startPos);
    var l1 := if length < 0 then Wrap32(length + Wrap32(len - s)) else length;
    if length < 0 && l1 == 0 then None
    else
      var l2 := if length < 0 then Abs32(l1) else l1;
      if s >= len then None
      else
        var l3 := if l2 == 0 || l2 > len - s then len - s else l2;
        Some((s, if l3 > MaxSubstr then MaxSubstr else l3))
  }

  /** `r` is a run of consecutive bytes of `str`. */
  predicate IsSliceOf(r: Bytes, str: Bytes) {
    exists b, e :: 0 <= b <= e <= |str| && r == str[b..e]
  }

  /**
   The string `substr` pushes: at most 5119 consecutive bytes of `str`, starting at
   the normalised start position whenever it is not empty.
   */
  function Substr(str: Bytes, startPos: Int32, length: Int32): (r: Bytes)
    ensures |r| <= MaxSubstr
    ensures IsSliceOf(r, str)
    ensures r != [] ==> NormalStart(CLength(str), startPos) + |r| <= |str|
                        && r == str[NormalStart(CLength(str), startPos)..NormalStart(CLength(str), startPos) + |r|]
  {
    match SubstrCopy(CLength(str), startPos, length)
    case None => assert str[0..0] == []; []
    case Some((b, n)) => str[b..b + n]
  }

  /** Whenever `length + startPos` fits in an `int`, the code as written copies the same bytes. */
  lemma SubstrAgreesWithoutOverflow(len: Int32, startPos: Int32, length: Int32)
    requires 0 <= len && 0 <= startPos && 0 <= length && startPos + length < 0x8000_0000
    ensures SubstrCopyAsWritten(len, startPos, length) == SubstrCopy(len, startPos, length)
  {
  }

  /**
   A ten-byte string, start 5, length `INT_MAX`: the sum wraps negative, the length
   is kept, clamped to 5119, and `memcpy` reads 5114 bytes past the string's end.
   */
  lemma SubstrOverreadAsWritten()
    ensures SubstrCopyAsWritten(10, 5, 0x7FFF_FFFF) == Some((5, MaxSubstr))
    ensures 5 + MaxSubstr > 10
    ensures SubstrCopy(10, 5, 0x7FFF_FFFF) == Some((5, 5))
  {
  }

  /** A start at or past the end gives the empty string. */
  lemma SubstrPastEnd(str: Bytes, startPos: Int32, length: Int32)
    requires |str| < 0x8000_0000 && startPos >= |str|
    ensures Substr(str, startPos, length) == []
  {
  }

  /** A length of zero, or one running past the end, means "to the end", capped at 5119 bytes. */
  lemma SubstrToEnd(str: Bytes, startPos: Int32, length: Int32)
    requires |str| < 0x8000_0000 && 0 <= startPos < |str|
    requires length == 0 || length > |str| - startPos
    ensures var e := if |str| - startPos > MaxSubstr then startPos + MaxSubstr else |str|;
            Substr(str, startPos, length) == str[startPos..e]
  {
  }

  /** A window inside the string is returned exactly. */
  lemma SubstrWithin(str: Bytes, startPos: Int32, length: Int32)
    requires |str| < 0x8000_0000 && 0 <= startPos && 0 < length <= MaxSubstr
    requires startPos + length <= |str|
    ensures Substr(str, startPos, length) == str[startPos..startPos + length]
  {
  }

  /** A negative start counts from the end of the string. */
  lemma SubstrFromEnd(str: Bytes, startPos: Int32, length: Int32)
    requires |str| < 0x8000_0000 && -|str| <= startPos < 0
    ensures Substr(str, startPos, length) == Substr(str, |str| + startPos, length)
  {
  }

  /** A start before the beginning of the string is clamped to 0. */
  lemma SubstrClampsStart(str: Bytes, startPos: Int32, length: Int32)
    requires |str| < 0x8000_0000 && startPos < -|str|
    ensures Substr(str, startPos, length) == Substr(str, 0, length)
  {
  }

  /** A negative length `-k` with `k` below the remaining length cuts `k` bytes off the end. */
  lemma SubstrDropsTail(str: Bytes, startPos: Int32, length: Int32)
    requires |str| < 0x8000_0000 && 0 <= startPos && length < 0
    requires -(length as int) < |str| - startPos && |str| + length - startPos <= MaxSubstr
    ensures Substr(str, startPos, length) == str[startPos..|str| + length]
  {
  }

  /** A negative length that cuts away exactly the rest gives the empty string. */
  lemma SubstrDropsAll(str: Bytes, startPos: Int32, length: Int32)
    requires |str| < 0x8000_0000 && 0 <= startPos && length < 0
    requires -(length as int) == |str| - startPos
    ensures Substr(str, startPos, length) == []
  {
  }

  /** `substr` pops the length, then the start, then the string, and pushes the slice. */
  function OpSubstr(st: Stack): (r: Result<Stack>)
    ensures r.Ok? <==> |st| >= 3 && st[|st| - 1].Int? && st[|st| - 2].Int? && st[|st| - 3].Str?
    ensures r.Ok? ==>
      r.value == st[..|st| - 3] + [Str(Substr(st[|st| - 3].s, st[|st| - 2].i, st[|st| - 1].i))]
  {
    var (length, startPos, st2) :- PopTwoIntegers(st);
    var (str, st3) :- PopString(st2);
    assert st3 == st[..|st| - 3];
    Ok(st3 + [Str(Substr(str, startPos, length))])
  }

  // ---------------------------------------------------------------------------
  // div
  // ---------------------------------------------------------------------------

  /**
   A value's raw `integerValue` field. A float shares the field with its bit
   pattern; for strings and pointers the field's contents belong to the
   interpreter and are given by `raw`.
   */
  function RawField(v: Value, raw: Value -> Int32): Int32 {
    match v
    case Int(i) => i
    case Float(bits) => Wrap32(bits as int)
    case _ => raw(v)
  }

  /**
   `/`: pops the divisor, then the dividend. A divisor whose raw field is zero
   pushes integer 0; a float on either side pushes the quotient `floatDiv` computes;
   otherwise the quotient of the two fields read as unsigned 32-bit numbers.
   */
  function OpDiv(st: Stack, raw: Value -> Int32, floatDiv: (Value, Value) -> bv32): (r: Result<Stack>)
    ensures r.Ok? <==> |st| >= 2
    ensures r.Ok? ==> |r.value| == |st| - 1 && r.value[..|st| - 2] == st[..|st| - 2]
    ensures r.Ok? && st[|st| - 2].Int? && st[|st| - 1].Int? ==>
      var a := st[|st| - 2].i;
      var b := st[|st| - 1].i;
      r.value[|st| - 2] == Int(if b == 0 then 0 else Wrap32(ToUnsigned32(a) / ToUnsigned32(b)))
  {
    var (divisor, st1) :- PopValue(st);
    var (dividend, st2) :- PopValue(st1);
    assert st2 == st[..|st| - 2];
    var d := RawField(divisor, raw);
    if d == 0 then Ok(st2 + [Int(0)])
    else if dividend.Float? || divisor.Float? then Ok(st2 + [Float(floatDiv(dividend, divisor))])
    else Ok(st2 + [Int(Wrap32(ToUnsigned32(RawField(dividend, raw)) / ToUnsigned32(d)))])
  }

  /** For non-negative operands the unsigned quotient is ordinary integer division. */
  lemma DivNonNegative(base: Stack, a: Int32, b: Int32, raw: Value -> Int32, floatDiv: (Value, Value) -> bv32)
    requires 0 <= a && 0 < b
    ensures OpDiv(base + [Int(a), Int(b)], raw, floatDiv) == Ok(base + [Int(a / b)])
  {
    var st := base + [Int(a), Int(b)];
    assert st[..|st| - 2] == base;
    assert ToUnsigned32(a) == a && ToUnsigned32(b) == b;
    QuotientBound(a, b);
    assert Wrap32(ToUnsigned32(a) / ToUnsigned32(b)) == a / b;
    var r := OpDiv(st, raw, floatDiv);
    assert r.value == r.value[..|st| - 2] + [r.value[|st| - 2]];
  }

  lemma QuotientBound(a: int, b: int)
    requires 0 <= a && 0 < b
    ensures 0 <= a / b <= a
  {
    var q, m := a / b, a % b;
    assert a == q * b + m && 0 <= m < b;
    ProductBounds(q, b);
  }

  /** Multiplying by a positive `b` keeps a negative `q` at or below `-b` and a non-negative one at or above itself. */
  lemma {:induction false} ProductBounds(q: int, b: int)
    requires b >= 1
    ensures q <= -1 ==> q * b <= -b
    ensures q >= 0 ==> q * b >= q
    decreases b
  {
    if b > 1 {
      ProductBounds(q, b - 1);
      assert q * b == q * (b - 1) + q;
    }
  }


  /** A negative dividend is read as a large unsigned number: `-1 / 2` is `0x7FFFFFFF`, not 0. */
  lemma DivReadsUnsigned(base: Stack, raw: Value -> Int32, floatDiv: (Value, Value) -> bv32)
    ensures OpDiv(base + [Int(-1), Int(2)], raw, floatDiv) == Ok(base + [Int(0x7FFF_FFFF)])
  {
    var st := base + [Int(-1), Int(2)];
    assert st[..|st| - 2] == base;
    assert ToUnsigned32(-1) / ToUnsigned32(2) == 0x7FFF_FFFF;
  }

  /** The zero test looks at the raw field: `+0.0` pushes 0, `-0.0` reaches the float division. */
  lemma DivZeroTestIsRaw(base: Stack, a: Value, raw: Value -> Int32, floatDiv: (Value, Value) -> bv32)
    ensures OpDiv(base + [a, Float(0)], raw, floatDiv) == Ok(base + [Int(0)])
    ensures OpDiv(base + [a, Float(0x8000_0000)], raw, floatDiv)
            == Ok(base + [Float(floatDiv(a, Float(0x8000_0000)))])
  {
    var st := base + [a, Float(0)];
    assert st[..|st| - 2] == base;
    var st' := base + [a, Float(0x8000_0000)];
    assert st'[..|st'| - 2] == base;
    assert Wrap32(0x8000_0000) != 0;
  }

  // ---------------------------------------------------------------------------
  // get_proto_data / set_proto_data
  // ---------------------------------------------------------------------------

  const TwoTo64: int := 0x1_0000_0000_0000_0000

  /** `sizeof(int)` */
  const WordSize: int := 4

  /** The width of `size_t`: 32 or 64 bits. */
  predicate SizeModulus(m: int) {
    m == TwoTo32 || m == TwoTo64
  }

  /**
   The guard as written: the offset is converted to `size_t` (modulus `m`), and
   `offset + sizeof(int)` is computed in `size_t` too, so it wraps.
   */
  predicate ProtoOffsetOkAsWritten(offset: Int32, protoSize: nat, m: int)
    requires SizeModulus(m)
  {
    var o := offset % m;
    !((o + WordSize) % m > protoSize || o % WordSize != 0)
  }

  /** The guard as intended: a whole aligned word inside the proto. */
  predicate ProtoOffsetOk(offset: Int32, protoSize: nat) {
    0 <= offset && offset % WordSize == 0 && offset + WordSize <= protoSize
  }

  /**
   For any proto size below 2^31 the written guard accepts exactly the intended
   offsets plus one more: -4, which wraps `offset + 4` to 0 and reads the word
   before the proto.
   */
  lemma ProtoGuardAsWritten(offset: Int32, protoSize: nat, m: int)
    requires SizeModulus(m) && protoSize < 0x8000_0000
    ensures ProtoOffsetOkAsWritten(offset, protoSize, m) <==> ProtoOffsetOk(offset, protoSize) || offset == -4
  {
    if offset < 0 {
      assert offset % m == m + offset;
      if offset < -4 {
        assert (m + offset + WordSize) % m == m + offset + WordSize;
      } else if offset > -4 {
        assert (m + offset) % WordSize != 0;
      }
    }
  }

  /** Offset -4 passes the written guard on every proto and every `size_t` width. */
  lemma ProtoGuardPassesMinusFour(protoSize: nat, m: int)
    requires SizeModulus(m)
    ensures ProtoOffsetOkAsWritten(-4, protoSize, m) && !ProtoOffsetOk(-4, protoSize)
  {
    assert -4 % m == m - 4;
  }

  /**
   `get_proto_data(pid, offset)`: pops the offset, then the pid, and pushes -1 for
   an unknown proto (`protoSize` gives `None`) or a rejected offset, else the word
   `read` returns. The offset test is the corrected guard `ProtoOffsetOk`; the one
   as written also lets -4 through (`ProtoGuardPassesMinusFour`).
   */
  function OpGetProtoData(st: Stack, protoSize: Int32 -> Option<nat>, read: (Int32, nat) -> Int32): (r: Result<Stack>)
    ensures r.Ok? <==> |st| >= 2 && st[|st| - 1].Int? && st[|st| - 2].Int?
    ensures r.Ok? ==>
      var pid := st[|st| - 2].i;
      var offset := st[|st| - 1].i;
      r.value == st[..|st| - 2] + [Int(
        if protoSize(pid).None? || !ProtoOffsetOk(offset, protoSize(pid).value) then -1
        else read(pid, offset))]
  {
    var (offset, pid, st2) :- PopTwoIntegers(st);
    match protoSize(pid)
    case None => Ok(st2 + [Int(-1)])
    case Some(size) =>
      if !ProtoOffsetOk(offset, size) then Ok(st2 + [Int(-1)])
      else Ok(st2 + [Int(read(pid, offset))])
  }

  /** A word written into a proto, at a byte offset from the proto's start. */
  datatype ProtoWrite = ProtoWrite(pid: Int32, offset: int, value: Int32)

  /**
   `set_proto_data(pid, offset, value)`: pops value, offset and pid. On an unknown
   proto or a rejected offset it pushes -1 and writes nothing; on success it writes
   the word and pushes nothing. The offset test is the corrected guard
   `ProtoOffsetOk`; `OpSetProtoDataAsWritten` has the source's wrapping one.
   */
  function OpSetProtoData(st: Stack, protoSize: Int32 -> Option<nat>): (r: Result<(Stack, Option<ProtoWrite>)>)
    ensures r.Ok? <==> |st| >= 3 && st[|st| - 1].Int? && st[|st| - 2].Int? && st[|st| - 3].Int?
    ensures r.Ok? ==>
      var pid := st[|st| - 3].i;
      var offset := st[|st| - 2].i;
      var ok := protoSize(pid).Some? && ProtoOffsetOk(offset, protoSize(pid).value);
      && (ok ==> r.value == (st[..|st| - 3], Some(ProtoWrite(pid, offset, st[|st| - 1].i))))
      && (!ok ==> r.value == (st[..|st| - 3] + [Int(-1)], None))
  {
    var (value, offset, st2) :- PopTwoIntegers(st);
    var (pid, st3) :- PopInteger(st2);
    assert st3 == st[..|st| - 3];
    match protoSize(pid)
    case None => Ok((st3 + [Int(-1)], None))
    case Some(size) =>
      if !ProtoOffsetOk(offset, size) then Ok((st3 + [Int(-1)], None))
      else Ok((st3, Some(ProtoWrite(pid, offset, value))))
  }

  /**
   `set_proto_data` with the guard as written, on a `size_t` of modulus `m`: the
   same test as `get_proto_data`'s, so the write it lets through may lie outside the
   proto.
   */
  function OpSetProtoDataAsWritten(st: Stack, protoSize: Int32 -> Option<nat>, m: int): (r: Result<(Stack, Option<ProtoWrite>)>)
    requires SizeModulus(m)
    ensures r.Ok? <==> |st| >= 3 && st[|st| - 1].Int? && st[|st| - 2].Int? && st[|st| - 3].Int?
    ensures r.Ok? ==>
      var pid := st[|st| - 3].i;
      var offset := st[|st| - 2].i;
      var ok := protoSize(pid).Some? && ProtoOffsetOkAsWritten(offset, protoSize(pid).value, m);
      && (ok ==> r.value == (st[..|st| - 3], Some(ProtoWrite(pid, offset, st[|st| - 1].i))))
      && (!ok ==> r.value == (st[..|st| - 3] + [Int(-1)], None))
  {
    var (value, offset, st2) :- PopTwoIntegers(st);
    var (pid, st3) :- PopInteger(st2);
    assert st3 == st[..|st| - 3];
    match protoSize(pid)
    case None => Ok((st3 + [Int(-1)], None))
    case Some(size) =>
      if !ProtoOffsetOkAsWritten(offset, size, m) then Ok((st3 + [Int(-1)], None))
      else Ok((st3, Some(ProtoWrite(pid, offset, value))))
  }

  /**
   `set_proto_data(pid, -4, value)` on a known proto: as written it writes `value`
   into the word before the proto and pushes nothing; corrected it pushes -1 and
   writes nothing.
   */
  lemma SetProtoDataWritesBeforeProto(base: Stack, pid: Int32, value: Int32, protoSize: Int32 -> Option<nat>, m: int)
    requires SizeModulus(m) && protoSize(pid).Some?
    ensures OpSetProtoDataAsWritten(base + [Int(pid), Int(-4), Int(value)], protoSize, m)
            == Ok((base, Some(ProtoWrite(pid, -4, value))))
    ensures OpSetProtoData(base + [Int(pid), Int(-4), Int(value)], protoSize)
            == Ok((base + [Int(-1)], None))
  {
    var st := base + [Int(pid), Int(-4), Int(value)];
    assert st[..|st| - 3] == base;
    ProtoGuardPassesMinusFour(protoSize(pid).value, m);
  }

  /** A successful write leaves the stack one entry lower than a failed one. */
  lemma SetProtoDataStackEffect(st: Stack, protoSize: Int32 -> Option<nat>)
    requires OpSetProtoData(st, protoSize).Ok?
    ensures var (out, write) := OpSetProtoData(st, protoSize).value;
            |out| == if write.Some? then |st| - 3 else |st| - 2
  {
  }

  // ---------------------------------------------------------------------------
  // get_array on a string, charcode, typeof
  // ---------------------------------------------------------------------------

  /**
   `get_array(container, key)`: pops the key, then the container. An integer
   container is an array id handled by the array subsystem (`getArray`); a string
   with an integer key pushes its byte at that index as a one-byte string, or the
   empty string when the index is outside `[0, len)`, negative indices included
   because the comparison is done on `size_t`. Any other pair pushes nothing.
   */
  function OpGetArray(st: Stack, getArray: (Int32, Value) -> Value): (r: Result<Stack>)
    ensures r.Ok? <==> |st| >= 2
    ensures r.Ok? && st[|st| - 2].Str? && st[|st| - 1].Int? ==>
      var str := st[|st| - 2].s;
      var pos := st[|st| - 1].i;
      r.value == st[..|st| - 2] + [Str(if 0 <= pos < |str| then [str[pos]] else [])]
    ensures r.Ok? && !st[|st| - 2].Int? && !(st[|st| - 2].Str? && st[|st| - 1].Int?) ==>
      r.value == st[..|st| - 2]
  {
    var (key, st1) :- PopValue(st);
    var (container, st2) :- PopValue(st1);
    assert st2 == st[..|st| - 2];
    if container.Int? then Ok(st2 + [getArray(container.i, key)])
    else if container.Str? && key.Int? then
      var pos := key.i;
      Ok(st2 + [Str(if pos >= 0 && pos < |container.s| then [container.s[pos]] else [])])
    else Ok(st2)
  }

  /** Indexing a string with `get_array` inside the string is a one-byte `substr`. */
  lemma GetArrayIsOneByteSubstr(base: Stack, str: Bytes, pos: Int32, getArray: (Int32, Value) -> Value)
    requires 0 <= pos < |str| < 0x8000_0000
    ensures OpGetArray(base + [Str(str), Int(pos)], getArray) == Ok(base + [Str(Substr(str, pos, 1))])
  {
    var st := base + [Str(str), Int(pos)];
    assert st[..|st| - 2] == base;
    assert SubstrCopy(CLength(str), pos, 1) == Some((pos as int, 1));
    assert str[pos..pos + 1] == [str[pos]];
  }

  /**
   A negative index does not count from the end as it does for `substr`: the
   `size_t` comparison sends it to the empty string.
   */
  lemma GetArrayNegativeIndex(base: Stack, str: Bytes, pos: Int32, getArray: (Int32, Value) -> Value)
    requires |str| < 0x8000_0000 && -|str| <= pos < 0
    ensures OpGetArray(base + [Str(str), Int(pos)], getArray) == Ok(base + [Str([])])
    ensures Substr(str, pos, 1) == [str[|str| + pos]]
  {
    var st := base + [Str(str), Int(pos)];
    assert st[..|st| - 2] == base;
    assert SubstrCopy(CLength(str), pos, 1) == Some((|str| + pos, 1));
  }

  /** The value of a `char` read from a string: signed on targets where `char` is signed. */
  function CharValue(b: Byte, charIsSigned: bool): (r: Int32)
    ensures 0 <= r < 0x80 ==> r == b as int
    ensures charIsSigned ==> -0x80 <= r < 0x80 && (r - b as int) % 0x100 == 0
    ensures !charIsSigned ==> r == b as int
  {
    if charIsSigned && b as int >= 0x80 then b as int - 0x100 else b as int
  }

  /** `charcode(str)`: the value of the first byte, or 0 for the empty string. */
  function OpCharcode(st: Stack, charIsSigned: bool): (r: Result<Stack>)
    ensures r.Ok? <==> |st| >= 1 && st[|st| - 1].Str?
    ensures r.Ok? ==>
      var str := st[|st| - 1].s;
      r.value == st[..|st| - 1] + [Int(if |str| == 0 then 0 else CharValue(str[0], charIsSigned))]
  {
    var (str, st1) :- PopString(st);
    if |str| == 0 then Ok(st1 + [Int(0)]) else Ok(st1 + [Int(CharValue(str[0], charIsSigned))])
  }

  /** `charcode` of an ASCII-led string is the byte itself on every target. */
  lemma CharcodeAscii(base: Stack, str: Bytes, charIsSigned: bool)
    requires |str| > 0 && str[0] as int < 0x80
    ensures OpCharcode(base + [Str(str)], charIsSigned) == Ok(base + [Int(str[0] as int)])
  {
    var st := base + [Str(str)];
    assert st[..|st| - 1] == base;
  }

  /** The type code `typeof` reports. */
  function TypeCode(v: Value): (r: Int32)
    ensures v.Int? <==> r == 1
    ensures v.Float? <==> r == 2
    ensures v.Str? || v.Ptr? <==> r == 3
  {
    if v.Int? then 1 else if v.Float? then 2 else 3
  }

  /** `typeof(v)`: replaces the value with its type code. */
  function OpTypeOf(st: Stack): (r: Result<Stack>)
    ensures r.Ok? <==> |st| >= 1
    ensures r.Ok? ==> r.value == st[..|st| - 1] + [Int(TypeCode(st[|st| - 1]))]
  {
    var (v, st1) :- PopValue(st);
    Ok(st1 + [Int(TypeCode(v))])
  }

  /**
   The type code agrees with the interpreter's typed reads: 1 exactly when an
   integer read succeeds, 3 for every value a string read accepts, and 2 exactly
   for the float values neither read accepts.
   */
  lemma TypeCodeMatchesTypedReads(v: Value)
    ensures TypeCode(v) == 1 <==> AsInteger(v).Ok?
    ensures AsString(v).Ok? ==> TypeCode(v) == 3
    ensures TypeCode(v) == 2 <==> v.Float?
    ensures TypeCode(v) == 3 <==> !AsInteger(v).Ok? && !v.Float?
  {
  }

  /** After `typeof`, an integer pop succeeds and yields the type code of the value that was on top. */
  lemma TypeOfThenPop(base: Stack, v: Value)
    ensures OpTypeOf(base + [v]).Ok?
    ensures PopInteger(OpTypeOf(base + [v]).value) == Ok((TypeCode(v), base))
  {
    var st := base + [v];
    assert st[..|st| - 1] == base;
    var out := base + [Int(TypeCode(v))];
    assert out[..|out| - 1] == base;
  }

  // ---------------------------------------------------------------------------
  // sprintf and the format engine's stack protocol
  // ---------------------------------------------------------------------------

  /**
   `sprintf_lite(args)` on the stack: pops the template, then `args - 1` values in
   the order the script wrote them, and pushes the formatted string.
   */
  function SprintfLiteCall(st: Stack, args: nat, render: FormatLite.Renderer): (r: Result<Stack>)
    requires 2 <= args <= Dispatch.MaxMetaruleArgs
    ensures r.Ok? <==> |st| >= args && st[|st| - 1].Str?
    ensures r.Ok? ==>
      r.value == st[..|st| - args]
                 + [Str(FormatLite.SprintfLite(st[|st| - 1].s, Reverse(st[|st| - args..|st| - 1]), render))]
  {
    var (fmt, st1) :- PopString(st);
    var (values, st2) :- PopValues(st1, args - 1);
    assert st1 == st[..|st| - 1];
    assert st2 == st[..|st| - args];
    assert Reverse(values) == st[|st| - args..|st| - 1];
    ReverseReverse(values);
    Ok(st2 + [Str(FormatLite.SprintfLite(fmt, values, render))])
  }

  /** `sprintf(fmt, v)`: pops `v`, then the template, pushes them back and formats with two arguments. */
  function OpSprintf(st: Stack, render: FormatLite.Renderer): (r: Result<Stack>)
    ensures r.Ok? <==> |st| >= 2 && st[|st| - 2].Str?
    ensures r.Ok? ==>
      r.value == st[..|st| - 2] + [Str(FormatLite.SprintfLite(st[|st| - 2].s, [st[|st| - 1]], render))]
  {
    var (v, st1) :- PopValue(st);
    var (fmt, st2) :- PopString(st1);
    assert st2 == st[..|st| - 2];
    var pushed := st2 + [v, Str(fmt)];
    assert pushed[|pushed| - 2..|pushed| - 1] == [v];
    assert pushed[..|pushed| - 2] == st2;
    SprintfLiteCall(pushed, 2, render)
  }

  /** `sprintf(fmt, v)` leaves the same stack as the metarule `string_format(fmt, v)`. */
  lemma SprintfIsStringFormat(base: Stack, fmt: Bytes, v: Value, env: Dispatch.Env)
    ensures OpSprintf(base + [Str(fmt), v], env.render)
            == Ok(base + [Str(FormatLite.SprintfLite(fmt, [v], env.render))])
    ensures Dispatch.Metarule(base + [Str(Dispatch.StringFormatName)] + ([Str(fmt)] + [v]), 2, env)
            == Ok(Dispatch.Returned(base + [Str(FormatLite.SprintfLite(fmt, [v], env.render))], env.disk))
  {
    var st := base + [Str(fmt), v];
    assert st[..|st| - 2] == base && st[|st| - 2] == Str(fmt) && st[|st| - 1] == v;
    Dispatch.StringFormatCall(base, fmt, [v], env);
  }

  // ---------------------------------------------------------------------------
  // sfall_func0 .. sfall_func8
  // ---------------------------------------------------------------------------

  /** The argument count of each `sfall_funcN` opcode; `None` for any other opcode. */
  function SfallFuncArgs(opcode: int): (r: Option<nat>)
    ensures r.Some? ==> r.value <= Dispatch.MaxMetaruleArgs
  {
    if 0x8276 <= opcode <= 0x827C then Some(opcode - 0x8276)
    else if opcode == 0x8280 then Some(7)
    else if opcode == 0x8281 then Some(8)
    else None
  }

  /** The opcode registered for `sfall_funcN`. */
  function SfallFuncOpcode(n: nat): (r: int)
    requires n <= Dispatch.MaxMetaruleArgs
    ensures 0x8276 <= r <= 0x8281
  {
    if n <= 6 then 0x8276 + n else if n == 7 then 0x8280 else 0x8281
  }

  /** Each argument count 0..8 has exactly one opcode, and 0x827D-0x827F are not among them. */
  lemma SfallFuncOpcodes(opcode: int, n: nat)
    requires n <= Dispatch.MaxMetaruleArgs
    ensures SfallFuncArgs(SfallFuncOpcode(n)) == Some(n)
    ensures SfallFuncArgs(opcode) == Some(n) ==> opcode == SfallFuncOpcode(n)
    ensures 0x827D <= opcode <= 0x827F ==> SfallFuncArgs(opcode).None?
  {
  }

  /** `sfall_funcN`: the metarule call with `N` arguments. */
  function OpSfallFunc(opcode: int, st: Stack, env: Dispatch.Env): (r: Result<Dispatch.Outcome>)
    requires SfallFuncArgs(opcode).Some?
    ensures r.Ok? ==> |st| > SfallFuncArgs(opcode).value
  {
    Dispatch.Metarule(st, SfallFuncArgs(opcode).value, env)
  }

  // ---------------------------------------------------------------------------
  // metarule2_explosions
  // ---------------------------------------------------------------------------

  /** `metarule2_explosions` sub-operations. */
  const ForceExplosionPattern: int := 1
  const ForceExplosionArt: int := 2
  const ForceExplosionRadius: int := 3
  const ForceExplosionDamageType: int := 4
  const StaticExplosionRadius: int := 5
  const GetExplosionDamage: int := 6
  const SetDynamiteExplosionDamage: int := 7
  const SetPlasticExplosionDamage: int := 8
  const SetExplosionMaxTarget: int := 9

  /** The engine call each sub-operation makes. */
  datatype ExplosionCall =
    | SetPattern(a: int, b: int)
    | SetFrm(frm: Int32)
    | SetRadius(radius: Int32)
    | SetDamageType(damageType: Int32)
    | SetStaticRadius(grenade: Int32, rocket: Int32)
    | GetDamage(pid: Int32)
    | SetDynamiteDamage(minDamage: Int32, maxDamage: Int32)
    | SetPlasticDamage(minDamage: Int32, maxDamage: Int32)
    | SetMaxTargets(count: Int32)
    | NoCall

  /**
   `metarule2_explosions(op, p1, p2)`: pops `p2`, `p1`, `op`. Sub-operations 1-5
   push 0, 6 pushes the id of the damage array `damageArray` creates, and 7-9 or
   an unknown operation push nothing.
   */
  function OpExplosions(st: Stack, damageArray: Int32 -> Int32): (r: Result<(Stack, ExplosionCall)>)
    ensures r.Ok? <==> |st| >= 3 && st[|st| - 1].Int? && st[|st| - 2].Int? && st[|st| - 3].Int?
    ensures r.Ok? ==>
      var op := st[|st| - 3].i;
      var below := st[..|st| - 3];
      && (1 <= op <= 5 ==> r.value.0 == below + [Int(0)])
      && (op == GetExplosionDamage ==> r.value.0 == below + [Int(damageArray(st[|st| - 2].i))])
      && (!(1 <= op <= 6) ==> r.value.0 == below)
      && (op < 1 || op > 9 <==> r.value.1 == NoCall)
    ensures r.Ok? ==>
      var op, param1, param2 := st[|st| - 3].i, st[|st| - 2].i, st[|st| - 1].i;
      && (op == ForceExplosionPattern ==> r.value.1 == if param1 != 0 then SetPattern(2, 4) else SetPattern(0, 6))
      && (op == ForceExplosionArt ==> r.value.1 == SetFrm(param1))
      && (op == ForceExplosionRadius ==> r.value.1 == SetRadius(param1))
      && (op == ForceExplosionDamageType ==> r.value.1 == SetDamageType(param1))
      && (op == StaticExplosionRadius ==> r.value.1 == SetStaticRadius(param1, param2))
      && (op == GetExplosionDamage ==> r.value.1 == GetDamage(param1))
      && (op == SetDynamiteExplosionDamage ==> r.value.1 == SetDynamiteDamage(param1, param2))
      && (op == SetPlasticExplosionDamage ==> r.value.1 == SetPlasticDamage(param1, param2))
      && (op == SetExplosionMaxTarget ==> r.value.1 == SetMaxTargets(param1))
  {
    var (param2, param1, st2) :- PopTwoIntegers(st);
    var (op, st3) :- PopInteger(st2);
    assert st3 == st[..|st| - 3];
    if op == ForceExplosionPattern then
      Ok((st3 + [Int(0)], if param1 != 0 then SetPattern(2, 4) else SetPattern(0, 6)))
    else if op == ForceExplosionArt then Ok((st3 + [Int(0)], SetFrm(param1)))
    else if op == ForceExplosionRadius then Ok((st3 + [Int(0)], SetRadius(param1)))
    else if op == ForceExplosionDamageType then Ok((st3 + [Int(0)], SetDamageType(param1)))
    else if op == StaticExplosionRadius then Ok((st3 + [Int(0)], SetStaticRadius(param1, param2)))
    else if op == GetExplosionDamage then Ok((st3 + [Int(damageArray(param1))], GetDamage(param1)))
    else if op == SetDynamiteExplosionDamage then Ok((st3, SetDynamiteDamage(param1, param2)))
    else if op == SetPlasticExplosionDamage then Ok((st3, SetPlasticDamage(param1, param2)))
    else if op == SetExplosionMaxTarget then Ok((st3, SetMaxTargets(param1)))
    else Ok((st3, NoCall))
  }

  /** The stack height after `metarule2_explosions` depends on the sub-operation. */
  lemma ExplosionsStackHeight(st: Stack, damageArray: Int32 -> Int32)
    requires OpExplosions(st, damageArray).Ok?
    ensures |OpExplosions(st, damageArray).value.0| == if 1 <= st[|st| - 3].i <= 6 then |st| - 2 else |st| - 3
  {
  }
}

=== FILE: string_rules.dfy ===
/**
 The string metarules: the Fallout-specific case-insensitive comparison with its
 code-page rules, substring search from a start position, and ASCII case
 conversion, together with the stack effects of `string_compare`, `string_find` and
 `string_to_case`.

 Script strings are C strings, so a `Bytes` value is a string's whole content and
 holds no NUL byte; the comparison loop's "both at the terminator" test is the end
 of both sequences.
 */
module StringRules {
  import opened Values

  // ---------------------------------------------------------------------------
  // Per-byte folding
  // ---------------------------------------------------------------------------

  predicate IsUpperAscii(c: Byte) {
    'A' <= c <= 'Z'
  }

  predicate IsLowerAscii(c: Byte) {
    'a' <= c <= 'z'
  }

  /** `c |= 32` on an upper-case ASCII letter; bit 5 is clear there, so OR adds 32. */
  function AsciiLower(c: Byte): (r: Byte)
    ensures IsUpperAscii(c) ==> IsLowerAscii(r) && r as int == c as int + 32
    ensures !IsUpperAscii(c) ==> r == c
  {
    if IsUpperAscii(c) then (c as int + 32) as char else c
  }

  function AsciiUpper(c: Byte): (r: Byte)
    ensures IsLowerAscii(c) ==> IsUpperAscii(r) && r as int == c as int - 32
    ensures !IsLowerAscii(c) ==> r == c
  {
    if IsLowerAscii(c) then (c as int - 32) as char else c
  }

  /** Code page 866: the Cyrillic letter at 229 is read as the Latin `x`. */
  function CyrillicX(c: Byte, codePage: int): (r: Byte)
    ensures codePage == 866 && c as int == 229 ==> r == 'x'
    ensures codePage != 866 || c as int != 229 ==> r == c
  {
    if codePage == 866 && c as int == 229 then 'x' else c
  }

  /**
   Code page 866 upper to lower case for bytes of 128 and above: 128-159 gain 32
   (bit 5 is clear in that range), 224-239 lose 48, and 240 becomes 241.
   */
  function Lower866(c: Byte): (r: Byte)
    requires c as int >= 128
    ensures r as int >= 128
  {
    if c as int <= 159 then (c as int + 32) as char
    else if 224 <= c as int <= 239 then (c as int - 48) as char
    else if c as int == 240 then 241 as char
    else c
  }

  /** Code page 1251: 0xC0-0xDF gain 32 and 0xA8 becomes 0xB8. */
  function Lower1251(c: Byte): (r: Byte) {
    if 0xC0 <= c as int <= 0xDF then (c as int + 32) as char
    else if c as int == 0xA8 then (0xA8 + 16) as char
    else c
  }

  /** Code pages 1250 and 1252: 0xC0-0xDE gain 32. */
  function Lower125x(c: Byte): (r: Byte) {
    if 0xC0 <= c as int <= 0xDE then (c as int + 32) as char else c
  }

  /** Multiplication and division signs, which code pages 1250/1252 never fold. */
  predicate IsSign125x(c: Byte) {
    c as int == 0xD7 || c as int == 0xF7
  }

  /** Whether the loop continues past a pair of non-terminator bytes. */
  function BytesMatch(c1: Byte, c2: Byte, codePage: int): bool {
    if c1 == c2 then true
    else
      var d1 := AsciiLower(CyrillicX(c1, codePage));
      var d2 := AsciiLower(CyrillicX(c2, codePage));
      if d1 == d2 then true
      else if d1 as int < 128 || d2 as int < 128 then false
      else if codePage == 866 then
        d1 as int != 149 && d2 as int != 149 && Lower866(d1) == Lower866(d2)
      else if codePage == 1251 then
        Lower1251(d1) == Lower1251(d2)
      else if codePage == 1250 || codePage == 1252 then
        !IsSign125x(d1) && !IsSign125x(d2) && Lower125x(d1) == Lower125x(d2)
      else
        false
  }

  lemma BytesMatchSymmetric(c1: Byte, c2: Byte, codePage: int)
    ensures BytesMatch(c1, c2, codePage) == BytesMatch(c2, c1, codePage)
  {
  }

  /** On ASCII bytes every code page reduces to ASCII case folding. */
  lemma BytesMatchAscii(c1: Byte, c2: Byte, codePage: int)
    requires c1 as int < 128 && c2 as int < 128
    ensures BytesMatch(c1, c2, codePage) <==> AsciiLower(c1) == AsciiLower(c2)
  {
  }

  // ---------------------------------------------------------------------------
  // FalloutStringCompare
  // ---------------------------------------------------------------------------

  /** The comparison loop, one byte pair per step. */
  function FalloutStringCompare(a: Bytes, b: Bytes, codePage: int): (r: bool)
    ensures r ==> |a| == |b|
    ensures r <==> |a| == |b| && forall i :: 0 <= i < |a| ==> BytesMatch(a[i], b[i], codePage)
    decreases |a|
  {
    if a == [] && b == [] then true
    else if a == [] || b == [] then false
    else if !BytesMatch(a[0], b[0], codePage) then false
    else
      var r := FalloutStringCompare(a[1..], b[1..], codePage);
      assert r <==> |a| == |b| && forall i :: 0 <= i < |a| ==> BytesMatch(a[i], b[i], codePage) by {
        if |a| == |b| {
          assert forall i :: 1 <= i < |a| ==> a[1..][i - 1] == a[i] && b[1..][i - 1] == b[i];
        }
      }
      r
  }

  lemma {:induction false} CompareReflexive(a: Bytes, codePage: int)
    ensures FalloutStringCompare(a, a, codePage)
  {
    assert forall i :: 0 <= i < |a| ==> BytesMatch(a[i], a[i], codePage);
  }

  lemma {:induction false} CompareSymmetric(a: Bytes, b: Bytes, codePage: int)
    ensures FalloutStringCompare(a, b, codePage) == FalloutStringCompare(b, a, codePage)
  {
    if FalloutStringCompare(a, b, codePage) {
      forall i | 0 <= i < |b|
        ensures BytesMatch(b[i], a[i], codePage)
      {
        BytesMatchSymmetric(a[i], b[i], codePage);
      }
    }
    if FalloutStringCompare(b, a, codePage) {
      forall i | 0 <= i < |a|
        ensures BytesMatch(a[i], b[i], codePage)
      {
        BytesMatchSymmetric(b[i], a[i], codePage);
      }
    }
  }

  predicate IsAscii(s: Bytes) {
    forall i :: 0 <= i < |s| ==> s[i] as int < 128
  }

  function LowerAll(s: Bytes): (r: Bytes)
    ensures |r| == |s| && forall i :: 0 <= i < |s| ==> r[i] == AsciiLower(s[i])
  {
    seq(|s|, i requires 0 <= i < |s| => AsciiLower(s[i]))
  }

  /** On ASCII strings the comparison is ASCII case-insensitive equality, on every code page. */
  lemma {:induction false} CompareAscii(a: Bytes, b: Bytes, codePage: int)
    requires IsAscii(a) && IsAscii(b)
    ensures FalloutStringCompare(a, b, codePage) <==> LowerAll(a) == LowerAll(b)
  {
    if |a| == |b| {
      forall i | 0 <= i < |a|
        ensures BytesMatch(a[i], b[i], codePage) <==> LowerAll(a)[i] == LowerAll(b)[i]
      {
        BytesMatchAscii(a[i], b[i], codePage);
      }
      if LowerAll(a) != LowerAll(b) {
        var i :| 0 <= i < |a| && LowerAll(a)[i] != LowerAll(b)[i];
        assert !BytesMatch(a[i], b[i], codePage);
      }
    }
  }

  /** Code page 866 reads byte 229 as `x`, in either case, while other code pages do not. */
  lemma CyrillicXMatches()
    ensures FalloutStringCompare([229 as char], "x", 866)
    ensures FalloutStringCompare("X", [229 as char], 866)
    ensures !FalloutStringCompare([229 as char], "x", 1251)
  {
    assert BytesMatch(229 as char, 'x', 866);
    assert BytesMatch('X', 229 as char, 866);
    assert !BytesMatch(229 as char, 'x', 1251);
  }

  // ---------------------------------------------------------------------------
  // string_find
  // ---------------------------------------------------------------------------

  predicate OccursAt(str: Bytes, sub: Bytes, i: int) {
    0 <= i && i + |sub| <= |str| && str[i..i + |sub|] == sub
  }

  /** `strstr` from position `from`: the first occurrence at or after it. */
  function SearchFrom(str: Bytes, sub: Bytes, from: nat): (r: Option<nat>)
    requires from <= |str|
    ensures r.Some? ==> from <= r.value && OccursAt(str, sub, r.value)
    ensures r.Some? ==> forall j :: from <= j < r.value ==> !OccursAt(str, sub, j)
    ensures r.None? ==> forall j :: from <= j ==> !OccursAt(str, sub, j)
    decreases |str| - from
  {
    if OccursAt(str, sub, from) then Some(from)
    else if from == |str| then None
    else SearchFrom(str, sub, from + 1)
  }

  /**
   `string_find(str, sub, start)`: -1 for a start outside `[0, |str|)`, otherwise the
   first position at or after `start` where `sub` occurs, or -1.
   */
  function StringFind(str: Bytes, sub: Bytes, start: int): (r: int)
    ensures r == -1 || (0 <= start <= r && OccursAt(str, sub, r))
    ensures r != -1 ==> forall j :: start <= j < r ==> !OccursAt(str, sub, j)
    ensures (start < 0 || start >= |str|) ==> r == -1
    ensures 0 <= start < |str| && r == -1 ==> forall j :: start <= j ==> !OccursAt(str, sub, j)
  {
    if start < 0 || start >= |str| then -1
    else
      match SearchFrom(str, sub, start)
      case Some(i) => i
      case None => -1
  }

  /** An empty needle is found at the start position itself, when that position is valid. */
  lemma FindEmpty(str: Bytes, start: int)
    requires 0 <= start < |str|
    ensures StringFind(str, [], start) == start
  {
    assert OccursAt(str, [], start);
  }

  // ---------------------------------------------------------------------------
  // string_to_case
  // ---------------------------------------------------------------------------

  function UpperAll(s: Bytes): (r: Bytes)
    ensures |r| == |s| && forall i :: 0 <= i < |s| ==> r[i] == AsciiUpper(s[i])
  {
    seq(|s|, i requires 0 <= i < |s| => AsciiUpper(s[i]))
  }

  /** 1 upper-cases, 0 lower-cases, any other case type leaves the string alone. */
  function StringToCase(s: Bytes, caseType: int): (r: Bytes)
    ensures |r| == |s|
    ensures caseType == 1 ==> forall i :: 0 <= i < |s| ==> !IsLowerAscii(r[i])
    ensures caseType == 0 ==> forall i :: 0 <= i < |s| ==> !IsUpperAscii(r[i])
    ensures caseType != 0 && caseType != 1 ==> r == s
    ensures forall i :: 0 <= i < |s| ==> AsciiLower(r[i]) == AsciiLower(s[i])
  {
    if caseType == 1 then UpperAll(s) else if caseType == 0 then LowerAll(s) else s
  }

  /** Lower-casing after upper-casing is plain lower-casing: only case is touched. */
  lemma {:induction false} CaseRoundTrip(s: Bytes)
    ensures StringToCase(StringToCase(s, 1), 0) == StringToCase(s, 0)
    ensures StringToCase(StringToCase(s, 0), 0) == StringToCase(s, 0)
  {
    var u := StringToCase(s, 1);
    assert forall i :: 0 <= i < |s| ==> AsciiLower(u[i]) == AsciiLower(s[i]);
  }

  // ---------------------------------------------------------------------------
  // Handlers: `argv` holds the popped arguments in script order; each handler pushes
  // the value it returns
  // ---------------------------------------------------------------------------

  /**
   `string_compare(str1, str2[, codePage])`: 1 when equal, else 0. With two
   arguments the platform's case-insensitive `compat_stricmp` decides, given here as
   `stricmpEqual`; with three, the Fallout comparison on the given code page.
   */
  function StringCompareRule(argv: seq<Value>, stricmpEqual: (Bytes, Bytes) -> bool): (r: Result<Value>)
    requires 2 <= |argv| <= 3
    ensures r.Ok? <==> argv[0].Str? && argv[1].Str? && (|argv| == 3 ==> argv[2].Int?)
    ensures r.Ok? && |argv| == 3 ==>
      (r.value == Int(1) <==> FalloutStringCompare(argv[0].s, argv[1].s, argv[2].i))
    ensures r.Ok? && |argv| == 2 ==> (r.value == Int(1) <==> stricmpEqual(argv[0].s, argv[1].s))
    ensures r.Ok? ==> r.value == Int(0) || r.value == Int(1)
  {
    var str1 :- AsString(argv[0]);
    var str2 :- AsString(argv[1]);
    var codePage :- if |argv| == 3 then AsInteger(argv[2]) else Ok(0);
    var equal := if |argv| < 3 then stricmpEqual(str1, str2) else FalloutStringCompare(str1, str2, codePage);
    Ok(Int(if equal then 1 else 0))
  }

  /** `string_find(str, sub[, start])`: the position found, or -1; the start defaults to 0. */
  function StringFindRule(argv: seq<Value>): (r: Result<Value>)
    requires 2 <= |argv| <= 3
    ensures r.Ok? <==> argv[0].Str? && argv[1].Str? && (|argv| == 3 ==> argv[2].Int?)
    ensures r.Ok? ==>
      var start := if |argv| == 3 then argv[2].i else 0;
      r.value == Int(Wrap32(StringFind(argv[0].s, argv[1].s, start)))
  {
    var str :- AsString(argv[0]);
    var sub :- AsString(argv[1]);
    var start :- if |argv| == 3 then AsInteger(argv[2]) else Ok(0);
    Ok(Int(Wrap32(StringFind(str, sub, start))))
  }

  /** `string_to_case(str, caseType)`: the converted string. */
  function StringToCaseRule(argv: seq<Value>): (r: Result<Value>)
    requires |argv| == 2
    ensures r.Ok? <==> argv[0].Str? && argv[1].Int?
    ensures r.Ok? ==> r.value.Str? && |r.value.s| == |argv[0].s|
    ensures r.Ok? ==> r.value == Str(StringToCase(argv[0].s, argv[1].i))
  {
    var s :- AsString(argv[0]);
    var caseType :- AsInteger(argv[1]);
    Ok(Str(StringToCase(s, caseType)))
  }
}

=== FILE: values.dfy ===
/**
 The values a script exchanges with the interpreter's evaluation stack: bytes and
 byte strings, 32-bit integers, the tagged stack value, typed pops and pushes, and
 the plain lexicographic order on byte strings.
 */
module Values {

  /** A C `char` seen as an unsigned byte. */
  type Byte = c: char | c as int < 0x100

  /** A C string: the bytes before its terminator. */
  type Bytes = seq<Byte>

  /** A signed 32-bit integer, the width of an `int` in the interpreter. */
  type Int32 = x: int | -0x8000_0000 <= x < 0x8000_0000

  const TwoTo32: int := 0x1_0000_0000

  /** Two's-complement wrap-around of an integer into 32 bits. */
  function Wrap32(x: int): (r: Int32)
    ensures (r - x) % TwoTo32 == 0
    ensures -0x8000_0000 <= x < 0x8000_0000 ==> r == x
  {
    var m := x % TwoTo32;
    if m >= 0x8000_0000 then m - TwoTo32 else m
  }

  /** The unsigned reading of a 32-bit integer, as `static_cast<unsigned int>`. */
  function ToUnsigned32(x: Int32): (r: nat)
    ensures r < TwoTo32
    ensures Wrap32(r) == x
  {
    if x < 0 then x + TwoTo32 else x
  }

  datatype Option<+T> = None | Some(value: T)

  /**
   A tagged stack value. `Float` keeps the IEEE-754 single-precision bit pattern,
   which is also what the value's raw integer field holds; float arithmetic is not
   modelled. `Ptr` is an opaque object address.
   */
  datatype Value = Int(i: Int32) | Float(bits: bv32) | Str(s: Bytes) | Ptr(addr: nat)

  /** The evaluation stack; its top is the last element. */
  type Stack = seq<Value>

  /** Reasons the interpreter halts the running script. */
  datatype Fault =
    | StackUnderflow
    | IntegerExpected
    | StringExpected
    | NotImplemented(name: Bytes)
    | InvalidArgCount(name: Bytes)
    | InvalidType

  datatype Result<+T> = Ok(value: T) | Fatal(fault: Fault) {
    predicate IsFailure() {
      Fatal?
    }

    function PropagateFailure<U>(): Result<U>
      requires Fatal?
    {
      Fatal(fault)
    }

    function Extract(): T
      requires Ok?
    {
      value
    }
  }

  function Reverse<T>(s: seq<T>): (r: seq<T>)
    ensures |r| == |s|
    ensures forall k :: 0 <= k < |s| ==> r[k] == s[|s| - 1 - k]
  {
    if s == [] then [] else Reverse(s[1..]) + [s[0]]
  }

  function PopValue(st: Stack): (r: Result<(Value, Stack)>)
    ensures r.Ok? <==> |st| > 0
    ensures r.Ok? ==> st == r.value.1 + [r.value.0]
  {
    if |st| == 0 then Fatal(StackUnderflow) else Ok((st[|st| - 1], st[..|st| - 1]))
  }

  function PopInteger(st: Stack): (r: Result<(Int32, Stack)>)
    ensures r.Ok? <==> |st| > 0 && st[|st| - 1].Int?
    ensures r.Ok? ==> st == r.value.1 + [Int(r.value.0)]
  {
    var (v, rest) :- PopValue(st);
    if v.Int? then Ok((v.i, rest)) else Fatal(IntegerExpected)
  }

  function PopString(st: Stack): (r: Result<(Bytes, Stack)>)
    ensures r.Ok? <==> |st| > 0 && st[|st| - 1].Str?
    ensures r.Ok? ==> st == r.value.1 + [Str(r.value.0)]
  {
    var (v, rest) :- PopValue(st);
    if v.Str? then Ok((v.s, rest)) else Fatal(StringExpected)
  }

  /** The interpreter's typed read of a popped value: an integer or a fatal error. */
  function AsInteger(v: Value): (r: Result<Int32>)
    ensures r.Ok? <==> v.Int?
    ensures r.Ok? ==> v == Int(r.value)
  {
    if v.Int? then Ok(v.i) else Fatal(IntegerExpected)
  }

  /** The interpreter's typed read of a popped value: a string or a fatal error. */
  function AsString(v: Value): (r: Result<Bytes>)
    ensures r.Ok? <==> v.Str?
    ensures r.Ok? ==> v == Str(r.value)
  {
    if v.Str? then Ok(v.s) else Fatal(StringExpected)
  }

  /**
   Pops `n` values; the first element of the result is the value that was on top.
   */
  function PopValues(st: Stack, n: nat): (r: Result<(seq<Value>, Stack)>)
    ensures r.Ok? <==> n <= |st|
    ensures r.Ok? ==> |r.value.0| == n && st == r.value.1 + Reverse(r.value.0)
  {
    if n > |st| then Fatal(StackUnderflow)
    else Ok((Reverse(st[|st| - n..]), st[..|st| - n]))
  }

  lemma {:induction false} ReverseReverse<T>(s: seq<T>)
    ensures Reverse(Reverse(s)) == s
  {
    var r := Reverse(Reverse(s));
    assert forall k :: 0 <= k < |s| ==> r[k] == s[k];
  }

  /** Strict lexicographic order on byte strings (std::lexicographical_compare). */
  function LexLess(a: string, b: string): bool
    decreases |a|
  {
    if |b| == 0 then false
    else if |a| == 0 then true
    else if a[0] < b[0] then true
    else if b[0] < a[0] then false
    else LexLess(a[1..], b[1..])
  }

  /** A proper prefix sorts before any extension of it. */
  lemma {:induction false} LexLessProperPrefix(a: string, b: string)
    requires |a| < |b| && a == b[..|a|]
    ensures LexLess(a, b)
    decreases |a|
  {
    if |a| > 0 {
      assert a[0] == b[0];
      assert a[1..] == b[1..][..|a| - 1];
      LexLessProperPrefix(a[1..], b[1..]);
    }
  }

  lemma {:induction false} LexLessIrreflexive(a: string)
    ensures !LexLess(a, a)
    decreases |a|
  {
    if |a| > 0 {
      LexLessIrreflexive(a[1..]);
    }
  }

  lemma {:induction false} LexLessTransitive(a: string, b: string, c: string)
    requires LexLess(a, b) && LexLess(b, c)
    ensures LexLess(a, c)
    decreases |a|
  {
    if |a| > 0 && a[0] == b[0] && b[0] == c[0] {
      LexLessTransitive(a[1..], b[1..], c[1..]);
    }
  }

  /** Any two distinct strings are ordered one way or the other. */
  lemma {:induction false} LexLessTotal(a: string, b: string)
    requires a != b
    ensures LexLess(a, b) || LexLess(b, a)
    decreases |a|
  {
    if |a| > 0 && |b| > 0 && a[0] == b[0] {
      assert a == [a[0]] + a[1..] && b == [b[0]] + b[1..];
      LexLessTotal(a[1..], b[1..]);
    }
  }
}
